=== FILE: README.md ===
# Kalėdų Kampelis storefront — a Dafny model of its logic

This project models the behaviour of the "Kalėdų Kampelis" Christmas
storefront: its client-side stores, validators and formatters, its small
component helpers, and its serverless handlers. Everything is stated as
pure functions over immutable records, and the properties the shop relies
on are proved about them.

The model covers:

- **Stores.** The cart store keeps lines merged by product and variant, with
  totals in whole cents (`CartStore`). The product store searches, filters and
  sorts the catalogue (`ProductStore`). The account store manages users and
  addresses (`AuthStore`).
- **Checkout page logic from `src/App.tsx`.**
  - The order amount and the free-shipping test (`OrderAmount`).
  - The e-mail whitelist, the form rules, and the card, expiry and phone
    formatters (`CheckoutForm`).
  - The recently-viewed list, the urgency tick, the viewer counter and the
    newsletter rate limiter (`Engagement`).
- **Components.**
  - The cart sidebar (`CartSidebar`) and the filter panel (`FilterPanel`).
  - The cookie banner (`CookieConsent`) and the PayPal button (`PaypalButton`).
  - The image component (`OptimizedImage`) and the two countdowns
    (`Countdowns`).
- **Service worker.** Request routing, cache trimming and activation clean-up
  (`ServiceWorker`).
- **Serverless handlers.** Each handler is a total function from the request,
  the configuration and the replies of the outside services to a status, a
  body and the list of calls it makes. The handlers are:
  - payment intent (`PaymentIntent`);
  - checkout session (`CheckoutSession`);
  - mock payment check (`VerifyPayment`);
  - Stripe webhook (`StripeWebhook`);
  - PayPal webhook (`PaypalWebhook`);
  - Discord notifier (`NotifyDiscord`);
  - newsletter sign-up (`NewsletterSubscribe`).

Shared modules model what the code borrows from JavaScript:

- `Seqs`: `Array.prototype.filter` — what it keeps, in which order, and how
  filters combine.
- `Text`: characters, case mapping, trimming, `indexOf`, `split` and `join`.
- `Numbers`: decimal text, `toFixed(2)`, `Number()` and `parseFloat`.
- `JsValue` and `Http`: JSON values, truthiness, property access, `String()`,
  requests and responses.
- `Optional`: the option type.
- `RegexLiteral`: how a regular-expression literal is lexed.

Numbers are exact: prices are `real`, and `Math.floor` and `Math.round` are
`Floor` on reals. Clocks, random draws, fresh ids and the replies of Stripe,
PayPal, Resend, Discord and Upstash are parameters.

## Model

| member | source | states |
|---|---|---|
| AuthStore.Login | src/store/authStore.ts:65-80 | the signed-in user has id "1" and the given e-mail; the name is the text before the first '@' (all of it when there is none); there are no addresses and no orders |
| AuthStore.Register | src/store/authStore.ts:83-98 | the id is the clock reading in decimal; a missing e-mail or name becomes ""; the phone is kept as given; the address and order lists start empty |
| AuthStore.Logout | src/store/authStore.ts:101-103 | no user, not authenticated |
| AuthStore.ApplyUserPatch | src/store/authStore.ts:108 | every key the patch gives replaces the user's value and every other key is kept (a phone only when one is given); an empty patch changes nothing |
| AuthStore.UserPatchLaws | src/store/authStore.ts:108 | applying the same patch twice is applying it once, and a patch giving every key of a user (with a phone) turns any user into that user |
| AuthStore.UpdateProfile | src/store/authStore.ts:105-110 | without a user nothing changes; with one, the user becomes the patched user and the signed-in flag is kept |
| AuthStore.UpdateProfileTwice | src/store/authStore.ts:105-110 | updating the profile twice with the same patch is updating it once |
| AuthStore.AddAddress | src/store/authStore.ts:112-126 | without a user nothing changes; with one, exactly one address is appended, carrying the given fields and the fresh id, and the earlier addresses are unchanged |
| AuthStore.RemoveAddress | src/store/authStore.ts:128-138 | without a user nothing changes; with one, every address with a different id is kept as often as it occurs and in its order, and every address with that id is gone |
| AuthStore.DropAppended | src/store/authStore.ts:112-138 | removing by its id an address just appended, whose id no other address has, gives back the earlier list |
| AuthStore.AddThenRemove | src/store/authStore.ts:112-138 | removing the address just added, under an id no earlier address has, gives back the original account |
| AuthStore.AddressPatchLaws | src/store/authStore.ts:146-148 | applying the same address patch twice is applying it once, and a patch giving every key of an address turns any address into that one |
| AuthStore.PatchAddresses | src/store/authStore.ts:146-148 | same length; at each position an address with that id is patched and any other is unchanged |
| AuthStore.UpdateAddress | src/store/authStore.ts:140-152 | without a user nothing changes; with one, at each position only an address with that id is patched and the list keeps its length |
| AuthStore.UpdateAddressTwice | src/store/authStore.ts:140-152 | updating an address twice with the same patch is updating it once |
| AuthStore.OperationsKeepCoherent | src/store/authStore.ts:65-152 | every operation keeps "authenticated exactly when a user is present" |
| CartStore.FloorPrice | src/store/cartStore.ts:26 | the normalised price is a whole number of cents, never above the given price and less than a cent below it |
| CartStore.RoundCents | src/store/cartStore.ts:54 | `Math.round(price * 100)` lies within half a cent of the exact cents |
| CartStore.RoundCentsOfWholeCents | src/store/cartStore.ts:26-54 | for a price that is whole cents, rounding gives the exact cents |
| CartStore.CentsSumExact | src/store/cartStore.ts:52-56 | when every price is whole cents, the rounded-cents total equals the exact sum of price × 100 × quantity |
| CartStore.FindVariant | src/store/cartStore.ts:30-34 | the first line with the same product, colour and size, or the end of the list when there is none |
| CartStore.AddItem | src/store/cartStore.ts:23-57 | the totals agree with the lines; with no matching line, exactly one new line is appended; with a matching line, the number of lines stays the same |
| CartStore.AddItemMerges | src/store/cartStore.ts:36-43 | merging raises the matching line's quantity by the added amount and leaves every other line, and every other field of that line, unchanged |
| CartStore.AddItemFloorsPrice | src/store/cartStore.ts:24-28 | the appended line carries the fresh id and a whole-cents price, never above the given one and less than a cent below it |
| CartStore.AddItemTotals | src/store/cartStore.ts:52-56 | the item total grows by the added quantity, and the price total grows by that quantity times the receiving line's price in cents |
| CartStore.AddItemValid | src/store/cartStore.ts:23-57 | with a fresh id, adding keeps the cart invariant: consistent totals, unique ids, whole-cents prices |
| CartStore.RemoveItem | src/store/cartStore.ts:59-65 | every line with a different id is kept as often as it occurs and in its order, every line with that id is gone, the cart is unchanged when no line has the id, and the totals agree with the lines left |
| CartStore.DropKeeps | src/store/cartStore.ts:59-65 | dropping lines keeps the ids distinct and every price in whole cents |
| CartStore.RemoveItemValid | src/store/cartStore.ts:59-65 | removing keeps the cart invariant |
| CartStore.UpdateQuantity | src/store/cartStore.ts:68-82 | a quantity of zero or less is exactly `removeItem`; a positive one changes only the quantity of the lines with that id and keeps the length; the totals agree with the lines |
| CartStore.UpdateQuantityValid | src/store/cartStore.ts:68-82 | updating a quantity keeps the cart invariant |
| CartStore.ClearCart | src/store/cartStore.ts:84-86 | no lines, zero items, zero price, and the invariant holds |
| CartStore.GetItemById | src/store/cartStore.ts:88-90 | nothing exactly when no line has the id; otherwise the first line of the cart with that id, as `find` returns it even when two lines share an id |
| CartStore.FindById | src/store/cartStore.ts:89 | the first line with the id, or nothing when there is none |
| CartStore.ValidTotalIsExact | src/store/cartStore.ts:52-56 | in a valid cart, totalPrice × 100 is the exact sum of price × 100 × quantity |
| ProductStore.Overlay | src/store/productStore.ts:83 | each filter key is the patch's when the patch has the key, and the current one otherwise |
| ProductStore.OverlayLaws | src/store/productStore.ts:82-85 | overlaying `{}` changes nothing, overlaying a patch twice equals overlaying it once, and overlaying onto `{}` gives the patch |
| ProductStore.RunStagesIsFilter | src/store/productStore.ts:94-134 | running the active filter steps one after another is one `filter` by "passes every active step" |
| ProductStore.MatchesIsPassesAll | src/store/productStore.ts:96-134 | the reference predicate (search text, category, price range, rating, stock, shared tag) is exactly "passes every active step" |
| ProductStore.StagedIsMatching | src/store/productStore.ts:94-134 | the filter steps keep exactly the products matching the reference predicate, in their original order |
| ProductStore.BeforeStrictOrder | src/store/productStore.ts:137-156 | each comparator's "sorts first" relation is irreflexive and transitive |
| ProductStore.Insert | src/store/productStore.ts:137-156 | inserting into a sorted list gives a sorted permutation with one more element |
| ProductStore.InsertTies | src/store/productStore.ts:137-156 | the inserted product lands after every product it ties with under the comparator, and the products tied with any given one keep their order |
| ProductStore.SortKeepsTiedList | src/store/productStore.ts:137-156 | a list in which every product ties with every other comes back unchanged, as a stable sort leaves it |
| ProductStore.SortProducts | src/store/productStore.ts:137-156 | the result is a sorted permutation of the input, and the sort is stable: for every product, the products tied with it under the comparator appear in the result in their input order |
| ProductStore.FilterProducts | src/store/productStore.ts:92-160 | the result is a permutation of the matching products, sorted by the chosen order and never longer than the catalogue; a product is listed exactly when it is in the catalogue and matches; products that tie under the order keep their catalogue order |
| ProductStore.FilterProductsSound | src/store/productStore.ts:96-134 | every listed product contains the lower-cased query in its lower-cased name, description or a tag; has the chosen category; lies within the price bounds; has at least the rating; is in stock when asked; and shares a tag when tags are chosen |
| ProductStore.SortedPair | src/store/productStore.ts:137-156 | in a sorted list, every earlier product is, by the chosen order, no later than every later one |
| ProductStore.PopularOrder | src/store/productStore.ts:150-156 | under 'popular', every popular product comes before every other, and products equal in popularity are in non-increasing review count |
| ProductStore.PriceAndRatingOrder | src/store/productStore.ts:137-149 | 'price-asc' gives non-decreasing prices; 'price-desc', 'rating' and 'newest' give non-increasing price, rating and date |
| ProductStore.InitialInSync | src/store/productStore.ts:66-70 | the initial visible list is the one the initial settings derive |
| ProductStore.Refilter | src/store/productStore.ts:92-160 | the visible list is recomputed from the settings, and nothing else changes |
| ProductStore.SetProducts | src/store/productStore.ts:73-75 | the catalogue and the visible list both become the given list, unfiltered, and the settings are kept |
| ProductStore.SetSearchQuery | src/store/productStore.ts:77-80 | the query is stored, the visible list is recomputed, and the other settings are kept |
| ProductStore.SetFilters | src/store/productStore.ts:82-85 | the given keys overlay the current filters and the keys not given are kept; the visible list is recomputed |
| ProductStore.SetSortBy | src/store/productStore.ts:87-90 | the order is stored and the visible list is recomputed |
| ProductStore.GetProductById | src/store/productStore.ts:162-164 | nothing exactly when no product has the id; otherwise the first catalogue product with that id, as `find` returns: no earlier product has it |
| ProductStore.SliceTo | src/store/productStore.ts:173 | `slice(0, limit)`: a prefix of the list, of length `min(limit, length)`, or counted back from the end for a negative limit |
| ProductStore.GetRelatedProducts | src/store/productStore.ts:166-174 | empty for an unknown id; at most `limit` products (4 by default), each in the catalogue, in the same category and with another id; fewer than `limit` only when no other candidate exists; the result is a subsequence of the catalogue, so its products keep catalogue order and none is repeated beyond its catalogue occurrences |
| ProductStore.RelatedIsSlicedFilter | src/store/productStore.ts:166-174 | for a known id the result is `slice(0, limit)` of the catalogue filtered to the other products of that category |
| ProductStore.RelatedDistinct | src/store/productStore.ts:166-174 | in a catalogue with distinct ids no related product is listed twice |
| ProductStore.AddProduct | src/store/productStore.ts:176-184 | the product with the fresh id is appended at the end, the query, filters and sort order are kept, and the visible list is recomputed |
| ProductStore.ApplyPatch | src/store/productStore.ts:189 | each of the fourteen keys takes the patch's value when given and keeps the product's otherwise; an empty patch changes nothing |
| ProductStore.PatchLaws | src/store/productStore.ts:189 | patching twice with the same patch is patching once; two patches in a row are one patch where the later key wins; a patch giving every key makes any product that product |
| ProductStore.PatchById | src/store/productStore.ts:188-190 | same length; the products with that id are patched and the others are unchanged |
| ProductStore.UpdateProduct | src/store/productStore.ts:186-193 | the catalogue keeps its length; at each position only a product with that id is patched; the query, filters and sort order are kept, and the visible list is recomputed |
| ProductStore.UpdateProductTwice | src/store/productStore.ts:186-193 | updating a product twice with the same patch is updating it once |
| ProductStore.DeleteProduct | src/store/productStore.ts:195-200 | every product with a different id keeps its multiplicity and its order, every product with that id is dropped, the id is no longer found, a catalogue without the id is unchanged; the query, filters and sort order are kept, and the visible list is recomputed |
| ProductStore.DeleteKeepsOthers | src/store/productStore.ts:162-200 | after a deletion, looking up any other id finds a product exactly when it did before |
| OrderAmount.QuantityOrOne | src/App.tsx:249 | `quantity \|\| 1`: a zero quantity counts as one and any other is kept |
| OrderAmount.FloorCents | src/App.tsx:248 | the floored cents are at most the exact cents and less than one cent below them |
| OrderAmount.OrderCents | src/App.tsx:253-261 | the amount sent to the payment provider is the rounded subtotal plus 299 cents of shipping unless shipping is free, plus 299 cents for gift wrapping |
| OrderAmount.EuroTotal | src/App.tsx:2180 | the euro total shown at checkout exceeds the cart total by €2.99 of shipping below €30 and by €2.99 for gift wrapping |
| OrderAmount.StripeBridgeCents | src/App.tsx:2180 | `Math.round(total * 100)` lies within half a cent of the euro total in cents |
| OrderAmount.SubtotalsOfWholeCents | src/App.tsx:245-257 | when every price is whole cents and no quantity is zero, the floored and the rounded subtotal both equal the cart's exact cents |
| OrderAmount.RoundWholeCents | src/App.tsx:2180 | rounding a total that is a whole number of cents gives exactly those cents |
| OrderAmount.ChargesAgree | src/App.tsx:245-261 | for a consistent cart of whole-cent prices and no zero quantity, shipping is free exactly when the cart total is at least €30, and the two charge computations (rounded cents and euro total) agree to the cent |
| OrderAmount.ZeroQuantityDiverges | src/App.tsx:249-256 | a line of quantity 0 is charged once in the order amount (1299 cents) while the cart total counts it as nothing (299 cents) |
| CartSidebar.Remaining | src/components/CartSidebar.tsx:48 | the amount still missing for free delivery is never negative, is zero exactly at €30 or more, and brings the total to at least €30 |
| CartSidebar.ProgressWidth | src/components/CartSidebar.tsx:53 | the progress bar is at most 100%, full exactly at €30 or more, and never negative for a non-negative total |
| CartSidebar.ProgressMatchesRemaining | src/components/CartSidebar.tsx:48-53 | the bar's width and the remaining amount describe the same progress |
| CartSidebar.Render | src/components/CartSidebar.tsx:31-124 | nothing is shown when closed; the free-delivery promotion shows exactly when there are items, the empty state exactly when there are none; the checkout button shows the euro total with two decimals |
| CartSidebar.CheckoutShowsCharge | src/components/CartSidebar.tsx:124 | for a consistent cart of whole-cent prices and no zero quantity, the checkout button shows exactly the amount charged, in euros with two decimals |
| CheckoutForm.EmailPatternIsShape | src/App.tsx:415 | the regular expression `^[^\s@]+@[^\s@]+\.[^\s@]+$` holds exactly when the text has no whitespace and a single '@' that is not first, followed by a part with a '.' that is neither its first nor its last character |
| CheckoutForm.ValidateEmail | src/App.tsx:413-419 | accepted exactly when the pattern holds and the lower-cased text after the '@' is one of the seven listed domains |
| CheckoutForm.AcceptsListedDomain | src/App.tsx:413-419 | a plain local part at any listed domain is accepted |
| CheckoutForm.DomainCaseIgnored | src/App.tsx:417 | two domains that lower-case to the same text are accepted or refused together |
| CheckoutForm.RefusesOtherDomain | src/App.tsx:414-418 | a well-formed address at an unlisted domain is refused |
| CheckoutForm.CleanPhone | src/App.tsx:470 | spaces, dashes and brackets are removed, every other character is kept as often as it occurs and in its order |
| CheckoutForm.EmailRule | src/App.tsx:426-428 | the e-mail is flagged exactly when it is refused |
| CheckoutForm.NameRule | src/App.tsx:431-435 | no problem exactly when the trimmed text has at least two characters and every character is a letter (Lithuanian included) or whitespace; "only letters" exactly when it is long enough but has another character |
| CheckoutForm.AddressRule | src/App.tsx:445-447 | no problem exactly when the trimmed address has at least five characters; never a "malformed" problem |
| CheckoutForm.PostalRule | src/App.tsx:457-461 | no problem exactly for five digits; "missing" exactly for empty text |
| CheckoutForm.PhoneRule | src/App.tsx:464-472 | no problem exactly when the cleaned phone is an optional '+' and 9 to 15 digits; "missing" exactly for empty text |
| CheckoutForm.Flag | src/App.tsx:421-507 | no problem leaves the errors alone; a problem adds its field with that problem; other fields keep their entries |
| CheckoutForm.FlagAll | src/App.tsx:421-507 | a field is flagged exactly when its rule reports a problem, with that problem; the card fields are never flagged |
| CheckoutForm.ValidateForm | src/App.tsx:421-507 | the errors hold exactly the fields whose rule fails, each with its problem; the card number, expiry and CVV are never checked |
| CheckoutForm.FormAccepted | src/App.tsx:421-507 | the form has no errors exactly when the e-mail is accepted; name, surname and city are at least two letters; the address is at least five characters; the postal code is five digits; and the cleaned phone matches |
| CheckoutForm.NothingFlagged | src/App.tsx:421-507 | the errors are empty exactly when every rule passes |
| CheckoutForm.DigitsOf | src/App.tsx:521 | only digits remain, the result is no longer than the input, and text that is all digits is unchanged |
| CheckoutForm.DigitsOfKeepsDigits | src/App.tsx:521 | every digit of the input is kept as often as it occurs and in its order, and nothing else |
| CheckoutForm.GroupsOfFour | src/App.tsx:523 | spaces stand exactly at every fifth position, one between each group of four digits |
| CheckoutForm.GroupsOfFourDigits | src/App.tsx:523 | removing the spaces gives back the digits |
| CheckoutForm.FormatCardNumber | src/App.tsx:520-525 | the formatted text holds the first sixteen digits of the input, in order, with a space at exactly every fifth position and a digit everywhere else; its length is the number of digits kept plus one space per full group of four followed by more, so at most nineteen and no trailing space |
| CheckoutForm.FormatCardNumberIdempotent | src/App.tsx:520-525 | formatting a formatted card number changes nothing |
| CheckoutForm.FormatExpiry | src/App.tsx:527-533 | fewer than two digits are returned as they are; otherwise the first two digits, a '/', then the next digits up to four in all, so the text is the digit count plus one, at most five |
| CheckoutForm.FormatExpiryIdempotent | src/App.tsx:527-533 | formatting a formatted expiry changes nothing |
| CheckoutForm.DigitsAround | src/App.tsx:527-533 | digits on both sides of one non-digit separator give back the two digit runs joined |
| CheckoutForm.FormatPhone | src/App.tsx:535-538 | every digit, '+', whitespace, dash and bracket is kept as often as it occurs and in its order, every other character is removed, and a phone made only of those is unchanged |
| Engagement.Drop | src/App.tsx:588 | `filter(id => id !== productId)`: the id is gone, every other id is kept as often as it occurs and in its order, and a list without the id is unchanged |
| Engagement.DropKeepsDistinct | src/App.tsx:588 | dropping an id from a list without repeats leaves a list without repeats |
| Engagement.AddToRecentlyViewed | src/App.tsx:587-589 | the product comes first and nowhere else, followed by the earlier list without it, in order, cut to three entries in all |
| Engagement.RecentlyViewedIdempotent | src/App.tsx:587-589 | viewing the same product twice in a row gives the same list as viewing it once |
| Engagement.RecentlyViewedDistinct | src/App.tsx:587-589 | the list never holds a product twice |
| Engagement.Tick | src/App.tsx:674-686 | each second takes one second off a running timer and keeps the minutes and seconds below 60; at 0:00:00 it restarts at 0:45:00 |
| Engagement.TicksCountDown | src/App.tsx:674-686 | `n` ticks, no more than the seconds left, take exactly `n` seconds off |
| Engagement.CountdownRestarts | src/App.tsx:674-686 | one tick after reaching zero the timer shows 0:45:00 again |
| Engagement.TicksSplit | src/App.tsx:674-686 | `a + b` ticks are `a` ticks followed by `b` ticks |
| Engagement.UpdateViewers | src/App.tsx:689-691 | the count is `max(5, prev + floor(6r) - 3)`: never below 5, never below the drawn step, and equal to the step unless that is below 5; so it moves by at most three down or two up, or is 5 |
| Engagement.LiveViewersBounded | src/App.tsx:689-691 | from a count of at least 5, after any number of updates the count stays at least 5, at most two higher per update and at most three lower per update |
| Engagement.Recent | src/App.tsx:1260-1264 | each timestamp younger than the window is kept as often as it occurs and in its order, every older one is dropped |
| Engagement.RecentIsFilter | src/App.tsx:1260-1264 | the recent attempts are the `filter` by age, and together with the older ones they account for every attempt |
| Engagement.RecentNested | src/App.tsx:1260-1264 | counting attempts in a short window within those of a longer window is counting them in the short window |
| Engagement.Gate | src/App.tsx:1263-1283 | the request is let through exactly when fewer than 3 attempts fall in the last minute, fewer than 10 in the last hour, fewer than 15 in the last day, and the address was neither kept permanently nor recorded in the last day; otherwise the first limit reached, checked per minute, per hour, per day and then for a known address, gives its own refusal |
| Engagement.SubmitNewsletter | src/App.tsx:1249-1319 | an invalid address changes nothing; otherwise the limiter's refusal is the outcome when it refuses; else a network failure is a network error, a 409 a duplicate and any other reply a success; a success adds the attempt time to the day's attempts, sets exactly this address's time in the e-mail log, and appends the address to the permanent list unless it is there already; any other outcome only saves the attempts of the last day; permanent addresses are never forgotten |
| Engagement.PermanentKept | src/App.tsx:1277-1319 | no sequence of submissions takes an address off the permanent list |
| Engagement.SubmitReachesServer | src/App.tsx:1249-1296 | the request is sent exactly when the address is accepted and the limiter lets it through |
| Engagement.ThirdInMinuteBlocks | src/App.tsx:1263-1268 | with three attempts in the last minute, the next one is refused by the per-minute limit whatever the address |
| Engagement.SubscribedThenRefused | src/App.tsx:1277-1319 | after an address is subscribed, whatever is submitted in between, trying the same address again at any later time and with any reply never subscribes it |
| Countdowns.FloorOfQuotient | src/components/UrgencyTimer.tsx:30-32 | the floor of a floating quotient of whole numbers is their integer quotient |
| Countdowns.FloorOfRem | src/components/ChristmasCountdown.tsx:31-33 | the floor of a floating remainder `x % m` is the integer remainder of the floor of `x` |
| Countdowns.UrgencyLeft | src/components/UrgencyTimer.tsx:23-36 | all zeros once the end has passed; otherwise hours below 24 and minutes and seconds below 60 that add back up, to within a second, to the time left in the current day |
| Countdowns.UrgencyParts | src/components/UrgencyTimer.tsx:30-32 | the three floating expressions give hours, minutes and seconds in range that rebuild the time left in the day to within a second |
| Countdowns.NextViewers | src/components/UrgencyTimer.tsx:40-42 | the count is `max(3, prev + floor(6r) - 3)`: never below 3, never below the drawn step, and equal to the step unless that is below 3; so it moves by at most three down or two up, or is 3, which happens only from 6 or fewer |
| Countdowns.InitialViewers | src/components/UrgencyTimer.tsx:20 | the starting viewer count is between 5 and 24 |
| Countdowns.InitialStock | src/components/UrgencyTimer.tsx:21 | the starting stock is between 1 and 10 |
| Countdowns.ViewersBounded | src/components/UrgencyTimer.tsx:40-42 | after any number of updates the count stays between 3 and the start plus two per update |
| Countdowns.ChristmasLeft | src/components/ChristmasCountdown.tsx:23-37 | all zeros once Christmas has passed; otherwise the days are the whole days left and the hours, minutes and seconds are the whole hours, minutes and seconds left reduced modulo 24, 60 and 60 |
| Countdowns.ChristmasParts | src/components/ChristmasCountdown.tsx:30-33 | each floating expression equals the integer unit it stands for |
| Countdowns.ChristmasReconstructs | src/components/ChristmasCountdown.tsx:28-34 | the four units are in range and add back up to the time left to within a second |
| Countdowns.NextGifts | src/components/ChristmasCountdown.tsx:44-46 | each update adds 0, 1 or 2 gifts |
| Countdowns.GiftsNeverDecrease | src/components/ChristmasCountdown.tsx:44-46 | the gift count never goes down and grows by at most two per update |
| CookieConsent.Mount | src/components/CookieConsent.tsx:11-25 | the banner shows exactly when no choice is stored; the preferences start as necessary only, with the panel closed |
| CookieConsent.TogglePreference | src/components/CookieConsent.tsx:63-69 | the necessary switch cannot be changed; analytics and marketing flip and nothing else changes |
| CookieConsent.ToggleTwice | src/components/CookieConsent.tsx:63-69 | toggling the same switch twice gives back the preferences |
| CookieConsent.Decide | src/components/CookieConsent.tsx:27-61 | a decision stores the chosen record and hides the banner and the panel |
| CookieConsent.Step | src/components/CookieConsent.tsx:27-69 | accepting stores all three on, rejecting stores necessary only, saving stores the current preferences; each hides the banner and the dialog; closing the banner only hides the banner, opening and closing the preferences only show and hide the dialog; other events store nothing and only a toggle changes the preferences |
| CookieConsent.StepKeepsNecessary | src/components/CookieConsent.tsx:13-69 | necessary cookies stay on, in the preferences and in any stored choice, after any event |
| CookieConsent.RunKeepsNecessary | src/components/CookieConsent.tsx:13-69 | necessary cookies stay on after any sequence of events |
| CookieConsent.HiddenStaysHidden | src/components/CookieConsent.tsx:22-71 | once hidden, the banner is never shown again during the visit |
| FilterPanel.SlotOf | src/components/SearchAndFilter.tsx:133 | an absent amount becomes `undefined`, a present one is kept |
| FilterPanel.UpdateFilter | src/components/SearchAndFilter.tsx:47-52 | only the edited key changes; an empty category and an unticked stock box become `undefined` |
| FilterPanel.ClearingEditsSwitchOff | src/components/SearchAndFilter.tsx:47-52 | choosing no category, unticking the stock box or emptying a price bound switches that filter off |
| FilterPanel.UpdateTags | src/components/SearchAndFilter.tsx:54-64 | a chosen tag is removed, another one is appended; every other tag is kept; no other key changes; an empty list becomes `undefined` |
| FilterPanel.ToggleTwice | src/components/SearchAndFilter.tsx:54-64 | toggling the same tag twice gives back the same set of tags |
| FilterPanel.ApplyFilters | src/components/SearchAndFilter.tsx:35-38 | the local filters overlay the store's, the visible list is recomputed, and the catalogue, query and order are kept |
| FilterPanel.ClearFiltersAsWritten | src/components/SearchAndFilter.tsx:40-45 | the local filters become empty and the query '', but the store's filters are kept |
| FilterPanel.ClearFiltersKeepsFiltering | src/components/SearchAndFilter.tsx:40-45 | after clearing as written, a store filtering on one category still hides a product of another |
| FilterPanel.ClearFilters | src/components/SearchAndFilter.tsx:40-45 | the corrected clear empties the local and the store filters and the query, keeping the catalogue and the order |
| FilterPanel.ClearFiltersShowsAll | src/components/SearchAndFilter.tsx:40-45 | after the corrected clear, every product of the catalogue is listed again |
| ServiceWorker.RouteOf | public/service-worker.js:60-115 | a request is left to the browser exactly when it is not a GET, not http(s), a document, an .html or .xml path in any case, or a sweater image; otherwise it goes to the image, API, static or dynamic strategy, in that order of precedence |
| ServiceWorker.HtmlPagesBypassed | public/service-worker.js:75-77 | a path ending in ".html" or ".HTML" is never intercepted |
| ServiceWorker.PngIsImage | public/service-worker.js:97-100 | an intercepted URL ending in ".PNG" takes the image strategy |
| ServiceWorker.Handle | public/service-worker.js:118-237 | images and static assets are served from their own cache on a hit (a static hit also starts a background refresh); otherwise, and for API and other requests always, a network answer is what is served; when the network fails images give 404, static assets any cached copy or 404, API and other requests any cached copy or 503; a cache is written only after an ok network answer, and a failed network starts only a background refresh |
| ServiceWorker.TrimmedWrites | public/service-worker.js:129-216 | an ok image answer is cached and the image cache trimmed to 60, an ok page answer is cached and the dynamic cache trimmed to 50, and an ok API answer is cached without trimming |
| ServiceWorker.Delete | public/service-worker.js:271 | the key is gone and every other key is kept, in order |
| ServiceWorker.DeleteFirst | public/service-worker.js:270-272 | deleting the first of distinct keys leaves the rest in order |
| ServiceWorker.DeleteAbsent | public/service-worker.js:270-272 | deleting a missing key changes nothing |
| ServiceWorker.LimitCacheSize | public/service-worker.js:263-274 | a cache within the limit is unchanged; a larger one keeps exactly its newest `maxItems` keys, in order |
| ServiceWorker.StaleCaches | public/service-worker.js:44-53 | the caches deleted are exactly those named "christmas-shop-…" other than the three current ones, in their listed order |
| ServiceWorker.ActivationKeeps | public/service-worker.js:40-57 | a cache survives activation exactly when it is one of the three current caches or not one of the shop's |
| ServiceWorker.OldVersionDeleted | public/service-worker.js:4-7 | every cache of version 0 is deleted on activation |
| PaymentIntent.OrEmpty | api/create-payment-intent.js:26-31 | a truthy value is kept and any other becomes "" |
| PaymentIntent.Metadata | api/create-payment-intent.js:25-32 | the metadata has exactly the six customer keys, each holding the request's value when truthy and "" otherwise |
| PaymentIntent.ErrorMessage | api/create-payment-intent.js:43 | the error's message when there is one, "Unknown error" otherwise; never empty |
| PaymentIntent.Handle | api/create-payment-intent.js:6-46 | 405 for anything but POST; 500 without a secret key; 400 "Invalid amount" exactly when the amount is not a non-zero number, with no call; otherwise one call creating an intent for the amount in euros with the metadata, answered by 200 with the client secret or 500 with the error's message |
| PaymentIntent.ProviderCalledIff | api/create-payment-intent.js:6-38 | the provider is called at most once, and exactly when the request is a POST, the key is set and the amount is a non-zero number |
| PaymentIntent.NegativeAmountPasses | api/create-payment-intent.js:19-35 | a negative amount passes the check and is sent to the provider as it is |
| CheckoutSession.ProductName | api/create-checkout-session.js:43 | the first line of the items text, or 'Užsakymas' when that is empty or there are no items; never empty and never several lines; no name (the call throws) for items that are neither text nor missing |
| CheckoutSession.ProductNameIsFirstLine | api/create-checkout-session.js:43 | for items text whose first line is not empty, the product name is that line |
| CheckoutSession.ReturnUrl | api/create-checkout-session.js:49-50 | a given URL is used; otherwise the request's origin, or the shop's address when there is none, followed by "/?status=" and the status |
| CheckoutSession.Handle | api/create-checkout-session.js:6-73 | 405, 500 and 400 as for the payment intent; otherwise at most one call, for one item at the amount in euros named after the first line of the items, with both return URLs and the customer's e-mail; the metadata holds each of the six customer values or `''` when falsy, and `order_id`; 200 with the session's id and url exactly when that call succeeds; a thrown error gives 500 with its message; items that cannot be split give 500 before any call |
| VerifyPayment.Handle | api/verify-payment.ts:5-29 | 405 for anything but POST; 400 when the order number or amount is missing; 200 "paid" with the order number exactly when both are present and the amount reads as a positive number; never any other status, never a call |
| VerifyPayment.WholeAmountPaid | api/verify-payment.ts:11-25 | a positive whole amount with an order number is reported paid |
| StripeWebhook.OrderNumber | api/stripe-webhook.js:38 | the metadata's `order_id` when it is set, otherwise "ORD-", the clock reading, "-" and a number below 1000 |
| StripeWebhook.AmountShowsCents | api/stripe-webhook.js:39 | an amount of whole cents is shown with two decimals and reads back as those cents in euros |
| StripeWebhook.EuroTextOfCents | api/stripe-webhook.js:39 | `(cents / 100).toFixed(2)` is the cents written with two decimals |
| StripeWebhook.BuildEmbed | api/stripe-webhook.js:41-58 | the embed has the paid-order title and green colour and nine fields: the order number, the amount in euros, a spacer, then the six customer fields, each "-" when empty |
| StripeWebhook.Handle | api/stripe-webhook.js:20-72 | 405 for anything but POST; 400 with the verification error; 200 "OK" exactly for a verified event; the announcement is posted exactly for a verified `payment_intent.succeeded` event |
| StripeWebhook.IntentAnnouncement | api/stripe-webhook.js:36-50 | a payment created by the payment-intent endpoint has no `order_id`, so its announcement shows a generated "ORD-…" number, and each customer field shows what the shop sent, or "-" when that was empty |
| PaypalWebhook.ApiBase | api/paypal-webhook.js:17-21 | the configured API base when set; otherwise the sandbox address exactly when the environment is "sandbox", and the live address in every other case |
| PaypalWebhook.First | api/paypal-webhook.js:99 | `purchase_units?.[0]`: the first element of an array, and `undefined` for a missing value |
| PaypalWebhook.ItemOf | api/paypal-webhook.js:105-109 | each forwarded item is an object with exactly a name, a quantity and a price, the name copied from the order |
| PaypalWebhook.MapItems | api/paypal-webhook.js:104-109 | the items map one to one, in order, and the mapping fails exactly when some item is null or missing |
| PaypalWebhook.SplitFullName | api/paypal-webhook.js:113-115 | the name has no space; a full name without a space is all name; otherwise name, a space and surname give back the full name |
| PaypalWebhook.SplitAtFirstSpace | api/paypal-webhook.js:113-115 | `split(' ')` of a name without a space is that name alone; otherwise its first piece, a space and the rest joined by spaces give back the name |
| PaypalWebhook.WithShipping | api/paypal-webhook.js:110-119 | the address, city and postal code are always set; a known name is kept |
| PaypalWebhook.AddressText | api/paypal-webhook.js:117 | the address is the present address lines, in order, joined by ", " |
| PaypalWebhook.NamedFromShipping | api/paypal-webhook.js:112-116 | without a known name, a shipping full name gives the name and the surname; otherwise the customer is unchanged |
| PaypalWebhook.ShippingAddress | api/paypal-webhook.js:117-119 | the customer's address is the joined address lines, the city `admin_area_2` and the postal code `postal_code`, each `''` when missing |
| PaypalWebhook.ShippingKeepsNames | api/paypal-webhook.js:110-119 | the name, surname and email are those of the naming step |
| PaypalWebhook.ShippingNameSplit | api/paypal-webhook.js:112-116 | a customer without a name takes the shipping name's first word as name and the rest as surname, which together give back the full name |
| PaypalWebhook.TakeTotal | api/paypal-webhook.js:127-139 | a total already found is kept; otherwise the holder's amount is taken when it is truthy |
| PaypalWebhook.ReadApprovedOrder | api/paypal-webhook.js:97-120 | reading the order makes no call; a nullish order changes nothing; otherwise a total already found is kept and a missing one is taken from the order's first purchase unit, and the items and shipping details are those of that unit unless an item cannot be read |
| PaypalWebhook.ApprovedStep | api/paypal-webhook.js:80-124 | nothing happens unless the event is an approved order with purchase units; then exactly one call, the order lookup by the event's id, is made; the total is the first found in the event's purchase unit and then the looked-up order; the customer is the payer's name, surname and e-mail, completed from the order's shipping details, and the items are the order's, when the lookup answered ok; the step never notifies |
| PaypalWebhook.StopAt | api/paypal-webhook.js:149-150 | `find` stops at the first wanted or null link, having passed only links that are neither |
| PaypalWebhook.FindLink | api/paypal-webhook.js:149-150 | the first wanted link when it comes before any null link; no link when none is wanted and none is null; a throw exactly when a null link comes first |
| PaypalWebhook.OrderLinkPreferred | api/paypal-webhook.js:149-151 | the capture's order is looked up through the first 'up' link pointing at an order, even after another 'up' link |
| PaypalWebhook.UpLinkFallback | api/paypal-webhook.js:149-151 | without a link to an order, the first 'up' link is followed |
| PaypalWebhook.ReadLinkedOrder | api/paypal-webhook.js:155-172 | reading the linked order makes no call and keeps the total; a nullish order changes nothing; otherwise the items and shipping details are those of its first purchase unit unless an item cannot be read, in which case nothing changes |
| PaypalWebhook.AfterLookup | api/paypal-webhook.js:96-118 | a lookup that did not answer ok leaves the customer and items as they were; item objects stay objects |
| PaypalWebhook.FollowedHref | api/paypal-webhook.js:146-153 | an order link is followed only after a capture lookup that answered ok, and only when the link is truthy |
| PaypalWebhook.PayerCustomer | api/paypal-webhook.js:85-90 | an approval's customer has exactly the name, surname and e-mail keys |
| PaypalWebhook.CaptureStep | api/paypal-webhook.js:142-179 | nothing happens unless the event is a completed capture with an id; then the capture is looked up, and when that answered ok with a truthy order link the link is fetched too, in that order; the customer and items are those read from the linked order when it answered ok; the total is kept and the step never notifies |
| PaypalWebhook.OrderNumber | api/paypal-webhook.js:73 | the resource id, else the invoice id, else "" |
| PaypalWebhook.Prepared | api/paypal-webhook.js:73-139 | before the capture step nothing notifies, every item is an object, the total already follows the full precedence; an approval has made the order lookup and taken the payer and the order's customer and items, any other event has made no call and gathered nothing |
| PaypalWebhook.Gather | api/paypal-webhook.js:73-179 | collecting the order data never notifies, every item gathered is an object, and the total is the first one found among the event's purchase unit and the looked-up order (approvals), `resource.amount`, then the event's purchase unit again; for an approval the calls are the order lookup and the customer and items those of the payer and the order; for a capture the calls are the capture lookup and the followed link, and the customer and items those of the linked order; any other event makes no call and gathers no customer or items |
| PaypalWebhook.TotalOrder | api/paypal-webhook.js:126-139 | the approval step's total, `resource.amount` and the purchase-unit fallback are tried in this order |
| PaypalWebhook.TotalFromAppend | api/paypal-webhook.js:100-135 | a total from an earlier holder wins over any later one |
| PaypalWebhook.FetchedOrderWins | api/paypal-webhook.js:97-130 | for an approval whose event has no amount, the looked-up order's amount is the total, ahead of `resource.amount` |
| PaypalWebhook.ApprovalTotalFirst | api/paypal-webhook.js:80-85 | an approved order's total is the first purchase unit's amount whenever that is present; later lookups never replace it |
| PaypalWebhook.CaptureTotal | api/paypal-webhook.js:127-130 | a completed capture's total is its own amount whenever that is present |
| PaypalWebhook.Forward | api/paypal-webhook.js:181-202 | 400 "No total in webhook payload" exactly when no total was found, and then nothing is forwarded; otherwise the payload goes to the shop's `/api/notify-discord` with the resource's order number, and the answer is 200 "OK" exactly when that call does not fail |
| PaypalWebhook.Authorized | api/paypal-webhook.js:28-202 | 401 exactly when the token request is refused, after only that request; 400 "Invalid signature" after the token and check calls when the check is not ok or not SUCCESS; a notification only after an accepted signature; a 200 forwards a payload the relay accepts |
| PaypalWebhook.Handle | api/paypal-webhook.js:3-204 | 405 for anything but POST; 500 without the three PayPal settings; then as `Authorized`, including 400 "Invalid signature" for a rejected check |
| PaypalWebhook.RelayAcceptsForwarded | api/paypal-webhook.js:187-197 | whatever PayPal event is forwarded, the relay accepts it and posts one embed with PayPal's colour and title, succeeding exactly when delivery does |
| NotifyDiscord.WebhookTarget | api/notify-discord.ts:2-11 | the configured webhook when it is set and not empty, otherwise the built-in fallback |
| NotifyDiscord.ReadPayload | api/notify-discord.ts:14-20 | missing items default to `[]` and a missing customer to `{}`; present values are kept, even `null` |
| NotifyDiscord.LineAmount | api/notify-discord.ts:57-59 | the line amount is "NaN" whenever the price or the quantity is not a number, and otherwise the product of the two with two decimals |
| NotifyDiscord.ProductTextOfCents | api/notify-discord.ts:57-59 | a price of whole cents times a whole quantity shows exactly the cents of the product |
| NotifyDiscord.ItemLines | api/notify-discord.ts:54-60 | one line per item, in order |
| NotifyDiscord.ItemsText | api/notify-discord.ts:52-62 | "-" unless the items are a non-empty array; otherwise the item lines joined by the line break |
| NotifyDiscord.ColorLines | api/notify-discord.ts:66-72 | at most one line per item, each starting with "•", and no line exactly when no item has a colour |
| NotifyDiscord.ColorLinesOfColored | api/notify-discord.ts:66-72 | the colour lines are the coloured items, in order, each shown as its name and colour |
| NotifyDiscord.JoinStartsWith | api/notify-discord.ts:73 | joining lines whose first is not empty gives text starting with that line's first character |
| NotifyDiscord.ColorsText | api/notify-discord.ts:65-74 | "-" exactly when the items are not a non-empty array or no item has a colour; otherwise the colour lines joined by the line break |
| NotifyDiscord.AddressLine | api/notify-discord.ts:46 | the address line starts with the address (or a dash) and a comma, ends with a space and the postal code when there is one, and holds the city (or nothing) in between |
| NotifyDiscord.OrderFields | api/notify-discord.ts:34-49 | the order number (when truthy), the total, the spacer, the four customer fields with dashes for missing values, and the address line, in this order |
| NotifyDiscord.BuildEmbed | api/notify-discord.ts:26-85 | PayPal's colour and title exactly for provider "paypal", Stripe's otherwise; ten fields with an order number, nine without, the order number first when present; then the total in euros; the name, surname, e-mail and phone, each a dash when missing; the address line; the last two are the items and the colours |
| NotifyDiscord.Respond | api/notify-discord.ts:5-97 | 405 for anything but POST; 400 "Invalid payload" without a truthy total and an object customer; one embed posted to the webhook exactly when the payload is valid and every listed item is readable; `{ ok: true }` exactly when that post succeeds, 500 "Failed to notify" otherwise |
| NotifyDiscord.SpacerIntended | api/notify-discord.ts:39 | with the intended spelling the spacer field is one zero-width space |
| NotifyDiscord.SpacerAsWritten | api/notify-discord.ts:39 | as written, the spacer field shows six visible characters: a backslash, then `u200B` |
| NotifyDiscord.ItemLinesRecoverable | api/notify-discord.ts:52-62 | with the intended line break, splitting the items field at line feeds gives back the item lines |
| NotifyDiscord.ItemLinesRunTogetherAsWritten | api/notify-discord.ts:61 | as written, two item lines are joined by a backslash and an `n` into one line |
| NewsletterSubscribe.WebhookTarget | api/newsletter-subscribe.ts:84 | the newsletter webhook when set, else the general Discord webhook when set, else the built-in fallback, which is used exactly when neither is set |
| NewsletterSubscribe.Key | api/newsletter-subscribe.ts:41 | the key is "nl:email:" followed by the address |
| NewsletterSubscribe.FromAddress | api/newsletter-subscribe.ts:60 | the configured sender when set, otherwise Resend's onboarding sender |
| NewsletterSubscribe.MailFor | api/newsletter-subscribe.ts:59-66 | the mail goes to the shop's inbox only, with the fixed subject, and its text is the fixed prefix followed by the address |
| NewsletterSubscribe.Announcement | api/newsletter-subscribe.ts:88-97 | the embed has the newsletter title and blue colour and a single field holding the address, not inline |
| NewsletterSubscribe.LookupResult | api/newsletter-subscribe.ts:7-16 | no value exactly when the call throws; a truthy value only from an ok reply's `result`, and an ok reply's truthy `result` is that value |
| NewsletterSubscribe.Reserved | api/newsletter-subscribe.ts:18-27 | no value exactly when the call throws; true exactly when an ok reply's `result` is "OK" |
| NewsletterSubscribe.Normalise | api/newsletter-subscribe.ts:37 | for an address of the right shape, trimming and lower-casing is lower-casing |
| NewsletterSubscribe.Deliver | api/newsletter-subscribe.ts:53-103 | 500 "Missing RESEND_API_KEY" without the key; otherwise the mail is sent first; 200 exactly when Resend accepts it, and then the Discord announcement follows; a refusal gives 502 with the error and its details, a thrown call 500 "Server error"; earlier calls are kept |
| NewsletterSubscribe.Subscribe | api/newsletter-subscribe.ts:39-103 | without Redis the address goes straight to delivery; with Redis the lookup comes first, the reservation follows exactly when the lookup finds nothing, and delivery only after a confirmed reservation; 409 exactly when the address is found or the reservation is refused |
| NewsletterSubscribe.Handle | api/newsletter-subscribe.ts:29-107 | 405 for anything but POST; 400 "Invalid email" exactly when the value is missing or fails the pattern; 500 "Server error" for a passing value that is not text; otherwise deduplication and delivery of the lower-cased address; no call is made for anything else |
| NewsletterSubscribe.NoRedisNoDeduplication | api/newsletter-subscribe.ts:39-51 | without Redis there is no lookup, no reservation and never a 409 |
| NewsletterSubscribe.MailOnlyAfterReservation | api/newsletter-subscribe.ts:39-75 | the mail is sent only with the Resend key and, with Redis, only as the third call, after a clear lookup and a confirmed reservation of the same address |
| NewsletterSubscribe.SuccessDelivers | api/newsletter-subscribe.ts:53-103 | a 200 means the lower-cased address was mailed to the shop and then announced on Discord, and Resend accepted the mail |
| NewsletterSubscribe.ClientCheckedAddressAccepted | api/newsletter-subscribe.ts:33-37 | every address the storefront's own check accepts passes the server's check and is deduplicated in lower case |
| NewsletterSubscribe.HandleSignUp | api/newsletter-subscribe.ts:33-37 | an address of the right shape goes to deduplication in lower case |
| NewsletterSubscribe.WrappedAddressIsServerError | api/newsletter-subscribe.ts:33-105 | an address wrapped in a one-element array passes the pattern test but gets the generic 500 "Server error" |
| NewsletterSubscribe.StoreReplies | api/newsletter-subscribe.ts:7-27 | a working store reports a held key as found, and an unheld key as clear and then reserved |
| NewsletterSubscribe.After | api/newsletter-subscribe.ts:47 | the store keeps its keys and holds every key reserved by the calls |
| NewsletterSubscribe.FirstSignUp | api/newsletter-subscribe.ts:39-51 | against a working store, a sign-up is refused exactly when its key is held, and one that is not refused leaves its key held, whatever became of the mail |
| NewsletterSubscribe.RepeatRefused | api/newsletter-subscribe.ts:39-51 | once a sign-up got past deduplication, any later sign-up of the same address in any letter case is refused with 409 |
| OptimizedImage.Render | src/components/OptimizedImage.tsx:18-37 | a source not on images.unsplash.com gives a plain image; an Unsplash source that does not parse as a URL throws; otherwise a picture keeping the original image whose AVIF and WebP sources are the URL with `fm=avif` and `fm=webp` added to its query |
| OptimizedImage.FormatKeepsParams | src/components/OptimizedImage.tsx:22-26 | the format sources keep every query parameter of the original URL, in order, and add the format parameter last |
| RegexLiteral.DoubledBackslashCloses | api/paypal-webhook.js:150 | in a regular-expression literal, an escaped backslash followed by '/' ends the literal at that '/' |
| RegexLiteral.EscapedSlashContinues | api/paypal-webhook.js:150 | an escaped '/' does not end the literal: it ends at the next plain '/' |
| RegexLiteral.Lex | api/paypal-webhook.js:150 | a lexed literal's body is the text between the opening '/' and the closing '/' |
| RegexLiteral.AsWrittenLiteralDoesNotParse | api/paypal-webhook.js:150 | `/checkout\\/orders/` lexes as a ten-character body ending in a backslash followed by the flags `orders`, which are not valid flags: a syntax error |
| RegexLiteral.IntendedLiteralParses | api/paypal-webhook.js:150 | `/checkout\/orders/` lexes with no flags, and its body matches the text "checkout/orders" |
| PaypalButton.AmountTextIsFixed | src/components/PayPalButton.tsx:13 | the amount text is the rounded cents written in euros with two decimals |
| PaypalButton.AmountReadsBack | src/components/PayPalButton.tsx:13 | the amount text reads back as the rounded cents in euros |
| PaypalButton.CreateOrder | src/components/PayPalButton.tsx:27-35 | the order has exactly one purchase unit |
| PaypalButton.OrderChargesCents | src/components/PayPalButton.tsx:13-35 | the order PayPal is asked to create charges exactly the whole cents the button was given |
| PaypalButton.RenderNow | src/components/PayPalButton.tsx:14-50 | nothing happens unless the SDK and the container are both present; then the container is emptied and the buttons are drawn, in that order |
| PaypalButton.Appends | src/components/PayPalButton.tsx:58-64 | the script is counted at most once per action |
| PaypalButton.AppendsConcat | src/components/PayPalButton.tsx:58-64 | the insertions of two action lists add up |
| PaypalButton.Mount | src/components/PayPalButton.tsx:52-71 | with the SDK loaded the buttons render; otherwise the first button appends the script, unless a tag is already there, and sets the flag, and every later one schedules one retry after 300 ms |
| PaypalButton.Cleanup | src/components/PayPalButton.tsx:73-76 | the container is emptied exactly when it exists |
| PaypalButton.ScriptAppendedAtMostOnce | src/components/PayPalButton.tsx:9-71 | however many buttons mount, in whatever page states, PayPal's script is appended at most once, and never once the flag is set |
| Seqs.Filter | src/store/cartStore.ts:61 | every element `filter` returns passes the test, the result never grows, and it is the identity when every element passes |
| Seqs.FilterCounts | src/store/cartStore.ts:61 | `filter` keeps each element that passes exactly as often as it occurs and drops every other one |
| Seqs.FilterOrder | src/store/cartStore.ts:61 | the elements `filter` keeps stay in their original order |
| Seqs.PrefixIsSubsequence | src/store/productStore.ts:171-173 | a leading slice of a subsequence is still a subsequence |
| Seqs.FilterAppend | src/store/authStore.ts:112-138 | filtering a concatenation is concatenating the filtered pieces |
| Seqs.FilterCompose | src/store/productStore.ts:94-134 | two filters in a row are one filter by the conjunction of their tests |
| Seqs.FilterSplits | src/App.tsx:1260-1264 | a filter and its complement together keep every element exactly once |
| Seqs.FilterPairwise | src/App.tsx:588 | dropping elements keeps any relation between earlier and later elements, so distinct entries stay distinct |
| Text.KeepChars | src/App.tsx:521 | the characters kept all pass the test, the result never grows, and a text whose every character passes is unchanged |
| Text.KeepCharsIsFilter | src/App.tsx:521 | keeping characters selects exactly what the general `filter` selects |
| Text.IndexOf | src/App.tsx:417 | the position found holds the character and no earlier position does; the length means it does not occur |
| Text.Split | api/create-checkout-session.js:43 | `split` gives at least one piece, no piece holds the separator, and the first piece is the text before the first separator |
| Text.JoinSplit | src/App.tsx:417 | joining the pieces of a split with the same character gives back the text |
| Text.SplitJoin | api/paypal-webhook.js:113-115 | splitting a join of pieces that do not hold the separator gives back those pieces |
| Text.LowerAppend | api/newsletter-subscribe.ts:37 | `toLowerCase` works character by character, so it distributes over concatenation |
| Text.Trim | src/App.tsx:431 | `trim` drops exactly the leading and the trailing whitespace: all-whitespace text becomes empty, and otherwise the text between the first and the last non-whitespace character remains |
| Numbers.DigitsValueOfNatToString | src/store/authStore.ts:117 | the decimal text of a number reads back as that number |
| Numbers.DigitsValueOfPadDigits | src/components/CartSidebar.tsx:73 | a zero-padded number reads back as that number |
| Numbers.ToFixed2OfCents | src/App.tsx:2240 | `toFixed(2)` of whole cents divided by 100 is the euros, a point and the two-digit cents |
| Numbers.ToFixed2Negative | api/stripe-webhook.js:39 | `toFixed(2)` of negative cents is a minus sign before the text of their magnitude |
| Numbers.ToNumberOfFixedCents | src/App.tsx:1487 | `Number` of a two-decimal amount text gives back the amount exactly |
| Numbers.ParseFloatOfIntToString | api/verify-payment.ts:17 | `parseFloat(String(i))` of an integer is that integer |
| Numbers.NumberToStringOfInt | api/verify-payment.ts:17 | `String` of an integral number is its plain decimal text |
| JsValue.ParseFloatValueOfWhole | api/verify-payment.ts:17 | `parseFloat(String(v))` of a whole number value is that number |
| JsValue.Or | api/create-checkout-session.js:56-62 | JavaScript's "or" of two values is the first when it is truthy and the second otherwise |

## Left out

- Floating point: prices and amounts are exact reals, so the IEEE-754 rounding of `price * 100` and of `toFixed` on binary fractions is not modelled; `toFixed(2)` rounds the exact value half up.
- The Stripe and PayPal charge is built from rounded cents per line (`src/App.tsx:253-261`), not from the floored cents of the unused subtotal. A line of quantity 0 is charged once there, while the cart total ignores it (`OrderAmount.ZeroQuantityDiverges`).
- The newsletter handler reserves the address in Redis before it checks for the Resend key, so a sign-up that fails for want of the key still blocks a later repeat (409). A refused set-if-absent also gives 409. An address sent inside an array fails at `trim` and gives 500. All three follow the code.
- PayPal webhook: the currency is read from the order but never sent on, so it is not modelled; the access-token exchange and the `Authorization` header are reduced to "the token call succeeded or not".
- URL parsing (`new URL`) is an input: whether the text parses, and its origin, path and query.
- Clocks, `Date.now()`, `Math.random()` and the Christmas date in local time are parameters; timers are steps.
- Text is a sequence of code points; UTF-16 code units are not modelled. `toLowerCase` is modelled for ASCII, Latin-1, Latin Extended-A and the Kelvin sign.
- `Number()` and `parseFloat` handle signs, digits and one decimal point; exponents, `Infinity`, hexadecimal and binary prefixes are not modelled.
- The service worker's Cache API, its asynchrony and the 5-second fetch timeout are replaced by inputs (cache hits, network replies, a timeout as a network failure); the `install` and `message` events are not modelled.
- The Stripe signature check is an input (valid or not); the raw-body buffering is not modelled.
- The built-in Discord webhook addresses and the PayPal client id are credentials and appear only as abstract values (`BuiltInFallback`, `AppendSdkScript`).
- The Discord call made by the newsletter handler has its outcome ignored, as the code swallows it.
- The Redis 24-hour expiry of a reservation, concurrency between requests, and the atomicity of Redis commands are not modelled.
- React rendering, styling and `localStorage` persistence are not modelled; the stores are their state transitions.
- The PayPal webhook rows model the order-link pattern as evidently intended; as written, the module's regular expression literal is a syntax error (see Findings), so the file never loads and every request to it fails before the handler runs.
- The Discord embeds' `timestamp` (`new Date().toISOString()` in the relay, the Stripe webhook and the newsletter announcement) is a clock reading and is not modelled.
- PayPal's `onApprove` capture and its alerts are not modelled. Of the engine's `TypeError` messages only the one the Stripe checkout handler returns for non-text `items` ("items?.split is not a function") is modelled; other throws are modelled as a failure without their text.
- Product: of the 25 fields of a product, the 14 that the filters, the sort, the related-products lookup and the cart read are modelled; the image lists, discount text, features, colours, sizes, size groups, size label and the four per-variant price lists are left out, and so are patches that set them, since no modelled operation reads them.
- The profile, address and product patches are optional per key, so a patch carrying a key whose value is `undefined`, which `{...x, ...patch}` would copy over the old value, cannot be expressed; no caller passes one.
- Display-only parts (snowfall, social proof, exit-intent popup, comparison table, thank-you and auth modals, the Stripe card section, the legacy `Checkout.jsx`, build scripts) are outside this model.
- The card-field rules behind `useStripeElements = true` can never run, so they are not modelled.
- PaypalButton.AmountTextIsFixed: stated for non-negative rounded cents; negative amounts are covered by `Numbers.ToFixed2Negative`.
- PaypalButton.CreateOrder: its contract only fixes the number of purchase units; what the unit charges is `PaypalButton.OrderChargesCents`.

## Findings

| source | as written | input that shows it | evidently intended | confidence | as-written member | corrected member |
|---|---|---|---|---|---|---|
| src/components/SearchAndFilter.tsx:40-45 | "clear all" calls `setFilters({})`, which overlays nothing on the store's filters, so they stay in force | a store filtering on category "A" with a product of category "B" in the catalogue | clearing sets the store's filters to empty and every product is listed | not executed | FilterPanel.ClearFiltersKeepsFiltering | FilterPanel.ClearFiltersShowsAll |
| api/notify-discord.ts:39 | the spacer field is written with a doubled backslash, so it is the six visible characters backslash, u, 2, 0, 0, B | any order notification | a single zero-width space | not executed | NotifyDiscord.SpacerAsWritten | NotifyDiscord.SpacerIntended |
| api/notify-discord.ts:61 | the item lines are joined with a doubled backslash, so the separator is a backslash and an `n`, not a line break | an order with two items | one item per line | not executed | NotifyDiscord.ItemLinesRunTogetherAsWritten | NotifyDiscord.ItemLinesRecoverable |
| api/paypal-webhook.js:150 | the literal `/checkout\\/orders/` ends after the escaped backslash, so `orders` is read as its flags and the file is a syntax error | loading the module | a literal matching the text "checkout/orders" | not executed | RegexLiteral.AsWrittenLiteralDoesNotParse | RegexLiteral.IntendedLiteralParses |

=== FILE: account.dfy ===
/** The account store (`src/store/authStore.ts`): a mock sign-in that
    builds the user record locally, the profile overlay and the address
    book. The clock reading that `Date.now()` supplies is a parameter, and
    ids built from it are its decimal text. */
module AuthStore {
  import opened Text
  import opened Optional
  import opened Numbers
  import opened Seqs
  import CartStore

  datatype Address = Address(
    id: string,
    name: string,
    street: string,
    city: string,
    postalCode: string,
    country: string,
    phone: string,
    isDefault: bool)

  /** `Omit<Address, 'id'>`: what `addAddress` receives. */
  datatype NewAddress = NewAddress(
    name: string,
    street: string,
    city: string,
    postalCode: string,
    country: string,
    phone: string,
    isDefault: bool)

  /** `Partial<Address>`. */
  datatype AddressPatch = AddressPatch(
    id: Option<string>,
    name: Option<string>,
    street: Option<string>,
    city: Option<string>,
    postalCode: Option<string>,
    country: Option<string>,
    phone: Option<string>,
    isDefault: Option<bool>)

  const NoAddressChange: AddressPatch := AddressPatch(None, None, None, None, None, None, None, None)

  datatype OrderStatus = Pending | Processing | Shipped | Delivered | Cancelled

  datatype Order = Order(
    id: string,
    items: seq<CartStore.CartItem>,
    total: real,
    status: OrderStatus,
    shippingAddress: Address,
    paymentMethod: string,
    createdAt: int,
    trackingNumber: Option<string>)

  datatype User = User(
    id: string,
    email: string,
    name: string,
    phone: Option<string>,
    addresses: seq<Address>,
    orders: seq<Order>,
    createdAt: int)

  /** `Partial<User>`. */
  datatype UserPatch = UserPatch(
    id: Option<string>,
    email: Option<string>,
    name: Option<string>,
    phone: Option<string>,
    addresses: Option<seq<Address>>,
    orders: Option<seq<Order>>,
    createdAt: Option<int>)

  const NoUserChange: UserPatch := UserPatch(None, None, None, None, None, None, None)

  datatype Auth = Auth(user: Option<User>, isAuthenticated: bool)

  /** The initial, signed-out state. */
  const SignedOut: Auth := Auth(None, false)

  /** The store is signed in exactly when it holds a user. */
  predicate Coherent(a: Auth) {
    a.isAuthenticated <==> a.user.Some?
  }

  /** `login`: any password succeeds; the user is `'1'`, named after the
      part of the email before its first '@'. */
  function Login(email: string, password: string, now: int): (r: Auth)
    ensures r.isAuthenticated && r.user.Some?
    ensures r.user.value.id == "1" && r.user.value.email == email
    ensures '@' !in r.user.value.name && StartsWith(email, r.user.value.name)
    ensures |r.user.value.name| < |email| ==> email[|r.user.value.name|] == '@'
    ensures r.user.value.addresses == [] && r.user.value.orders == []
  {
    var name := Split(email, '@')[0];
    Auth(Some(User("1", email, name, None, [], [], now)), true)
  }

  /** `x || ''` for an optional string. */
  function OrEmpty(x: Option<string>): (r: string)
    ensures x.Some? && x.value != "" ==> r == x.value
    ensures x.None? ==> r == ""
  {
    if x.Some? then x.value else ""
  }

  /** `register`: the id is the clock's decimal text; a missing email or
      name becomes '', the phone is kept as given. */
  function Register(data: UserPatch, now: nat): (r: Auth)
    ensures r.isAuthenticated && r.user.Some?
    ensures AllDigits(r.user.value.id) && DigitsValue(r.user.value.id) == now
    ensures data.email.None? ==> r.user.value.email == ""
    ensures data.email.Some? ==> r.user.value.email == data.email.value
    ensures data.name.None? ==> r.user.value.name == ""
    ensures data.name.Some? ==> r.user.value.name == data.name.value
    ensures r.user.value.phone == data.phone
    ensures r.user.value.addresses == [] && r.user.value.orders == []
  {
    DigitsValueOfNatToString(now);
    Auth(Some(User(NatToString(now), OrEmpty(data.email), OrEmpty(data.name), data.phone, [], [], now)), true)
  }

  /** `logout`. */
  function Logout(a: Auth): (r: Auth)
    ensures r.user.None? && !r.isAuthenticated
  {
    SignedOut
  }

  /** `{ ...user, ...patch }`: every key the patch gives replaces the
      user's value, every other key is kept. */
  function ApplyUserPatch(u: User, p: UserPatch): (r: User)
    ensures p == NoUserChange ==> r == u
    ensures r.id == p.id.GetOr(u.id) && r.createdAt == p.createdAt.GetOr(u.createdAt)
    ensures r.email == p.email.GetOr(u.email) && r.name == p.name.GetOr(u.name)
    ensures r.phone == (if p.phone.Some? then p.phone else u.phone)
    ensures r.addresses == p.addresses.GetOr(u.addresses) && r.orders == p.orders.GetOr(u.orders)
  {
    User(p.id.GetOr(u.id), p.email.GetOr(u.email), p.name.GetOr(u.name),
         if p.phone.Some? then p.phone else u.phone,
         p.addresses.GetOr(u.addresses), p.orders.GetOr(u.orders), p.createdAt.GetOr(u.createdAt))
  }

  /** The patch giving every key of `u`. */
  function FullUserPatch(u: User): UserPatch {
    UserPatch(Some(u.id), Some(u.email), Some(u.name), u.phone, Some(u.addresses), Some(u.orders), Some(u.createdAt))
  }

  /** The same patch twice is the patch once, and a patch giving every key
      (a phone included) replaces the user outright. */
  lemma UserPatchLaws(u: User, v: User, p: UserPatch)
    ensures ApplyUserPatch(ApplyUserPatch(u, p), p) == ApplyUserPatch(u, p)
    ensures v.phone.Some? ==> ApplyUserPatch(u, FullUserPatch(v)) == v
  {
  }

  /** `updateProfile`: a no-op when signed out. */
  function UpdateProfile(a: Auth, p: UserPatch): (r: Auth)
    ensures a.user.None? ==> r == a
    ensures a.user.Some? ==> r.user == Some(ApplyUserPatch(a.user.value, p))
    ensures r.isAuthenticated == a.isAuthenticated
  {
    match a.user
    case None => a
    case Some(u) => a.(user := Some(ApplyUserPatch(u, p)))
  }

  /** Replace the signed-in user's address list (nothing when signed out). */
  function WithAddresses(a: Auth, addresses: seq<Address>): (r: Auth)
    ensures a.user.None? ==> r == a
    ensures a.user.Some? ==> r.user == Some(a.user.value.(addresses := addresses))
    ensures r.isAuthenticated == a.isAuthenticated
  {
    match a.user
    case None => a
    case Some(u) => a.(user := Some(u.(addresses := addresses)))
  }

  /** The address `addAddress` appends. */
  function AddressOf(n: NewAddress, id: string): Address {
    Address(id, n.name, n.street, n.city, n.postalCode, n.country, n.phone, n.isDefault)
  }

  /** `addAddress`: one new address with the clock's id at the end. */
  function AddAddress(a: Auth, n: NewAddress, now: nat): (r: Auth)
    ensures a.user.None? ==> r == a
    ensures a.user.Some? ==> (r.user.Some?
                              && r.user.value == a.user.value.(addresses := r.user.value.addresses))
    ensures a.user.Some? ==> (|r.user.value.addresses| == |a.user.value.addresses| + 1
                              && r.user.value.addresses[..|a.user.value.addresses|] == a.user.value.addresses)
    ensures a.user.Some? ==>
      var added := r.user.value.addresses[|a.user.value.addresses|];
      && added.id == NatToString(now) && added.name == n.name && added.street == n.street
      && added.city == n.city && added.postalCode == n.postalCode
      && added.country == n.country && added.phone == n.phone && added.isDefault == n.isDefault
  {
    match a.user
    case None => a
    case Some(u) => WithAddresses(a, u.addresses + [AddressOf(n, NatToString(now))])
  }

  /** Appending an address with a new id and then dropping that id gives
      back the list. */
  lemma DropAppended(xs: seq<Address>, x: Address)
    requires forall j :: 0 <= j < |xs| ==> xs[j].id != x.id
    ensures Filter(xs + [x], (y: Address) => y.id != x.id) == xs
  {
    FilterAppend(xs, [x], (y: Address) => y.id != x.id);
    assert [x][1..] == [];
  }

  /** `removeAddress`: drops exactly the addresses with that id. */
  function RemoveAddress(a: Auth, id: string): (r: Auth)
    ensures a.user.None? ==> r == a
    ensures a.user.Some? ==> (r.user.Some?
                              && r.user.value == a.user.value.(addresses := r.user.value.addresses))
    ensures a.user.Some? ==> forall x ::
      multiset(r.user.value.addresses)[x] == if x.id != id then multiset(a.user.value.addresses)[x] else 0
    ensures a.user.Some? ==> IsSubsequence(r.user.value.addresses, a.user.value.addresses)
  {
    match a.user
    case None => a
    case Some(u) =>
      var keep := (x: Address) => x.id != id;
      FilterCounts(u.addresses, keep);
      FilterOrder(u.addresses, keep);
      WithAddresses(a, Filter(u.addresses, keep))
  }

  /** Removing an address just added, whose id was new, restores the
      address book. */
  lemma AddThenRemove(a: Auth, n: NewAddress, now: nat)
    requires a.user.Some?
    requires forall j :: 0 <= j < |a.user.value.addresses| ==> a.user.value.addresses[j].id != NatToString(now)
    ensures RemoveAddress(AddAddress(a, n, now), NatToString(now)) == a
  {
    var u := a.user.value;
    DropAppended(u.addresses, AddressOf(n, NatToString(now)));
  }

  /** `{ ...address, ...patch }`: every key the patch gives replaces the
      address's value, every other key is kept. */
  function ApplyAddressPatch(x: Address, p: AddressPatch): (r: Address)
    ensures p == NoAddressChange ==> r == x
    ensures r.id == p.id.GetOr(x.id) && r.name == p.name.GetOr(x.name) && r.street == p.street.GetOr(x.street)
    ensures r.city == p.city.GetOr(x.city) && r.postalCode == p.postalCode.GetOr(x.postalCode)
    ensures r.country == p.country.GetOr(x.country) && r.phone == p.phone.GetOr(x.phone)
    ensures r.isDefault == p.isDefault.GetOr(x.isDefault)
  {
    Address(p.id.GetOr(x.id), p.name.GetOr(x.name), p.street.GetOr(x.street), p.city.GetOr(x.city),
            p.postalCode.GetOr(x.postalCode), p.country.GetOr(x.country), p.phone.GetOr(x.phone),
            p.isDefault.GetOr(x.isDefault))
  }

  /** The patch giving every key of `x`. */
  function FullAddressPatch(x: Address): AddressPatch {
    AddressPatch(Some(x.id), Some(x.name), Some(x.street), Some(x.city), Some(x.postalCode),
                 Some(x.country), Some(x.phone), Some(x.isDefault))
  }

  /** The same patch twice is the patch once, and a patch giving every key
      replaces the address outright. */
  lemma AddressPatchLaws(x: Address, y: Address, p: AddressPatch)
    ensures ApplyAddressPatch(ApplyAddressPatch(x, p), p) == ApplyAddressPatch(x, p)
    ensures ApplyAddressPatch(x, FullAddressPatch(y)) == y
  {
  }

  /** The list with every address whose id is `id` patched. */
  function PatchAddresses(xs: seq<Address>, id: string, p: AddressPatch): (r: seq<Address>)
    ensures |r| == |xs|
    ensures forall j :: 0 <= j < |xs| ==> r[j] == if xs[j].id == id then ApplyAddressPatch(xs[j], p) else xs[j]
  {
    if xs == [] then []
    else [if xs[0].id == id then ApplyAddressPatch(xs[0], p) else xs[0]] + PatchAddresses(xs[1..], id, p)
  }

  /** `updateAddress`: only the addresses with that id change; the list
      keeps its length. */
  function UpdateAddress(a: Auth, id: string, p: AddressPatch): (r: Auth)
    ensures a.user.None? ==> r == a
    ensures a.user.Some? ==> (r.user.Some?
                              && r.user.value == a.user.value.(addresses := r.user.value.addresses))
    ensures a.user.Some? ==>
      var before := a.user.value.addresses;
      var after := r.user.value.addresses;
      && |after| == |before|
      && forall j :: 0 <= j < |before| ==>
           after[j] == if before[j].id == id then ApplyAddressPatch(before[j], p) else before[j]
  {
    match a.user
    case None => a
    case Some(u) => WithAddresses(a, PatchAddresses(u.addresses, id, p))
  }

  /** Repeating an address update changes nothing more, even when it gives
      the address a new id. */
  lemma UpdateAddressTwice(a: Auth, id: string, p: AddressPatch)
    ensures UpdateAddress(UpdateAddress(a, id, p), id, p) == UpdateAddress(a, id, p)
  {
    if a.user.Some? {
      var xs := a.user.value.addresses;
      var once := PatchAddresses(xs, id, p);
      var twice := PatchAddresses(once, id, p);
      forall j | 0 <= j < |once| ensures twice[j] == once[j] {
        if xs[j].id == id {
          AddressPatchLaws(xs[j], xs[j], p);
        }
      }
      assert twice == once;
      assert UpdateAddress(a, id, p).user.value.addresses == once;
    }
  }

  /** Repeating a profile update changes nothing more. */
  lemma UpdateProfileTwice(a: Auth, p: UserPatch)
    ensures UpdateProfile(UpdateProfile(a, p), p) == UpdateProfile(a, p)
  {
    if a.user.Some? {
      UserPatchLaws(a.user.value, a.user.value, p);
    }
  }

  /** Every operation keeps "signed in exactly when a user is held". */
  lemma OperationsKeepCoherent(a: Auth, email: string, password: string, data: UserPatch, now: nat,
                               up: UserPatch, n: NewAddress, id: string, ap: AddressPatch)
    requires Coherent(a)
    ensures Coherent(Login(email, password, now)) && Coherent(Register(data, now)) && Coherent(Logout(a))
    ensures Coherent(UpdateProfile(a, up)) && Coherent(AddAddress(a, n, now))
    ensures Coherent(RemoveAddress(a, id)) && Coherent(UpdateAddress(a, id, ap))
  {
  }
}

=== FILE: cart.dfy ===
/** The shopping cart store (`src/store/cartStore.ts`): lines keyed by an id,
    merged by product and variant, with item and price totals recomputed in
    whole cents after every change. Prices are exact reals; the line id a
    new line receives (`Date.now()` in the source) is a parameter. */
module CartStore {
  import opened Optional
  import opened Seqs

  /** One cart line (`CartItem`). */
  datatype CartItem = CartItem(
    id: string,
    productId: int,
    name: string,
    price: real,
    quantity: int,
    image: string,
    selectedColor: Option<string>,
    selectedSize: Option<string>)

  /** What `addItem` receives: a line without its id. */
  datatype NewItem = NewItem(
    productId: int,
    name: string,
    price: real,
    quantity: int,
    image: string,
    selectedColor: Option<string>,
    selectedSize: Option<string>)

  datatype Cart = Cart(items: seq<CartItem>, totalItems: int, totalPrice: real)

  /** The initial and the cleared cart. */
  const Empty: Cart := Cart([], 0, 0.0)

  /** `p` is a whole number of cents. */
  predicate WholeCents(p: real) {
    (p * 100.0).Floor as real == p * 100.0
  }

  /** `Math.floor(p * 100) / 100`: the price cut down to whole cents. */
  function FloorPrice(p: real): (r: real)
    ensures r <= p < r + 0.01
    ensures WholeCents(r)
  {
    var c := (p * 100.0).Floor;
    assert c as real / 100.0 * 100.0 == c as real;
    c as real / 100.0
  }

  /** `Math.round(p * 100)`: the nearest whole cent, halves rounded up. */
  function RoundCents(p: real): (c: int)
    ensures c as real - 0.5 <= p * 100.0 < c as real + 0.5
  {
    (p * 100.0 + 0.5).Floor
  }

  /** Rounding is exact on a price that is already whole cents. */
  lemma RoundCentsOfWholeCents(p: real)
    requires WholeCents(p)
    ensures RoundCents(p) as real == p * 100.0
  {
    var f := (p * 100.0).Floor;
    assert p * 100.0 + 0.5 == f as real + 0.5;
    assert (f as real + 0.5).Floor == f;
  }

  /** `items.reduce((sum, it) => sum + it.quantity, 0)`. */
  function QuantitySum(items: seq<CartItem>): int {
    if items == [] then 0 else items[0].quantity + QuantitySum(items[1..])
  }

  /** `items.reduce((sum, it) => sum + Math.round(it.price * 100) * it.quantity, 0)`. */
  function CentsSum(items: seq<CartItem>): int {
    if items == [] then 0
    else RoundCents(items[0].price) * items[0].quantity + CentsSum(items[1..])
  }

  /** The exact value of the lines in cents, with no rounding at all. */
  function ExactCents(items: seq<CartItem>): real {
    if items == [] then 0.0
    else items[0].price * 100.0 * items[0].quantity as real + ExactCents(items[1..])
  }

  /** The cart holding `items`, with both totals recomputed from them. */
  function WithTotals(items: seq<CartItem>): (c: Cart)
    ensures c.items == items
    ensures Consistent(c)
  {
    Cart(items, QuantitySum(items), CentsSum(items) as real / 100.0)
  }

  /** The totals the store keeps agree with its lines. */
  predicate Consistent(c: Cart) {
    c.totalItems == QuantitySum(c.items) && c.totalPrice * 100.0 == CentsSum(c.items) as real
  }

  predicate UniqueIds(items: seq<CartItem>) {
    forall i, j :: 0 <= i < j < |items| ==> items[i].id != items[j].id
  }

  predicate AllWholeCents(items: seq<CartItem>) {
    forall i :: 0 <= i < |items| ==> WholeCents(items[i].price)
  }

  /** The invariant every cart the store builds satisfies. */
  predicate Valid(c: Cart) {
    Consistent(c) && UniqueIds(c.items) && AllWholeCents(c.items)
  }

  /** When every price is whole cents the rounded total is the exact one. */
  lemma {:induction false} CentsSumExact(items: seq<CartItem>)
    requires AllWholeCents(items)
    ensures CentsSum(items) as real == ExactCents(items)
  {
    if items != [] {
      RoundCentsOfWholeCents(items[0].price);
      CentsSumExact(items[1..]);
    }
  }

  /** `line` holds the same product in the same colour and size as `item`. */
  predicate SameVariant(line: CartItem, item: NewItem) {
    line.productId == item.productId
    && line.selectedColor == item.selectedColor
    && line.selectedSize == item.selectedSize
  }

  /** Index of the first line matching `item`'s variant, or `|items|`. */
  function FindVariant(items: seq<CartItem>, item: NewItem): (k: nat)
    ensures k <= |items|
    ensures k < |items| ==> SameVariant(items[k], item)
    ensures forall j :: 0 <= j < k ==> !SameVariant(items[j], item)
  {
    if items == [] then 0
    else if SameVariant(items[0], item) then 0
    else 1 + FindVariant(items[1..], item)
  }

  /** Every line whose id is `id` gains `q` units. */
  function BumpById(items: seq<CartItem>, id: string, q: int): (r: seq<CartItem>)
    ensures |r| == |items|
    ensures forall j :: 0 <= j < |items| ==>
      r[j] == if items[j].id == id then items[j].(quantity := items[j].quantity + q) else items[j]
  {
    if items == [] then []
    else
      [if items[0].id == id then items[0].(quantity := items[0].quantity + q) else items[0]]
      + BumpById(items[1..], id, q)
  }

  /** The line `addItem` appends: the item, its price floored to cents, and the id. */
  function NewLine(item: NewItem, id: string): CartItem {
    CartItem(id, item.productId, item.name, FloorPrice(item.price), item.quantity,
             item.image, item.selectedColor, item.selectedSize)
  }

  /** `addItem`: merge into the first line of the same variant, or append. */
  function AddItem(c: Cart, item: NewItem, freshId: string): (r: Cart)
    ensures Consistent(r)
    ensures FindVariant(c.items, item) == |c.items| ==> r.items == c.items + [NewLine(item, freshId)]
    ensures FindVariant(c.items, item) < |c.items| ==> |r.items| == |c.items|
  {
    var k := FindVariant(c.items, item);
    if k < |c.items| then WithTotals(BumpById(c.items, c.items[k].id, item.quantity))
    else WithTotals(c.items + [NewLine(item, freshId)])
  }

  /** Merging into a cart with unique ids changes exactly one line, and only
      its quantity. */
  lemma AddItemMerges(c: Cart, item: NewItem, freshId: string)
    requires UniqueIds(c.items)
    requires FindVariant(c.items, item) < |c.items|
    ensures var k := FindVariant(c.items, item);
      var r := AddItem(c, item, freshId);
      && |r.items| == |c.items|
      && r.items[k] == c.items[k].(quantity := c.items[k].quantity + item.quantity)
      && (forall j :: 0 <= j < |c.items| && j != k ==> r.items[j] == c.items[j])
  {
  }

  /** The stored price never exceeds the given one and is less than a cent below it. */
  lemma AddItemFloorsPrice(c: Cart, item: NewItem, freshId: string)
    requires FindVariant(c.items, item) == |c.items|
    ensures var r := AddItem(c, item, freshId);
      && r.items[|c.items|].price <= item.price < r.items[|c.items|].price + 0.01
      && WholeCents(r.items[|c.items|].price)
      && r.items[|c.items|].id == freshId
  {
  }

  /** The sum of a quantity over lines that differ in one line only. */
  lemma {:induction false} QuantitySumUpdate(items: seq<CartItem>, k: nat, line: CartItem)
    requires k < |items|
    ensures QuantitySum(items[k := line]) == QuantitySum(items) - items[k].quantity + line.quantity
    ensures CentsSum(items[k := line])
      == CentsSum(items) - RoundCents(items[k].price) * items[k].quantity + RoundCents(line.price) * line.quantity
  {
    if k > 0 {
      QuantitySumUpdate(items[1..], k - 1, line);
      assert items[k := line][1..] == items[1..][k - 1 := line];
    }
  }

  lemma {:induction false} SumsAppend(a: seq<CartItem>, b: seq<CartItem>)
    ensures QuantitySum(a + b) == QuantitySum(a) + QuantitySum(b)
    ensures CentsSum(a + b) == CentsSum(a) + CentsSum(b)
  {
    if a == [] {
      assert a + b == b;
    } else {
      SumsAppend(a[1..], b);
      assert (a + b)[1..] == a[1..] + b;
    }
  }

  /** After `addItem` on a consistent cart with unique ids, the item total
      grows by the added quantity and the price total by that quantity at
      the price of the line that received it. */
  lemma AddItemTotals(c: Cart, item: NewItem, freshId: string)
    requires Consistent(c) && UniqueIds(c.items)
    ensures var r := AddItem(c, item, freshId);
      var k := FindVariant(c.items, item);
      var unit := if k < |c.items| then c.items[k].price else FloorPrice(item.price);
      && r.totalItems == c.totalItems + item.quantity
      && r.totalPrice * 100.0 == c.totalPrice * 100.0 + (RoundCents(unit) * item.quantity) as real
  {
    var k := FindVariant(c.items, item);
    if k < |c.items| {
      MergedTotals(c, item, freshId, k);
    } else {
      SumsAppend(c.items, [NewLine(item, freshId)]);
    }
  }

  lemma MergedTotals(c: Cart, item: NewItem, freshId: string, k: nat)
    requires Consistent(c) && UniqueIds(c.items)
    requires k == FindVariant(c.items, item) && k < |c.items|
    ensures var r := AddItem(c, item, freshId);
      && r.totalItems == c.totalItems + item.quantity
      && r.totalPrice * 100.0 == c.totalPrice * 100.0 + (RoundCents(c.items[k].price) * item.quantity) as real
  {
    AddItemMergedIs(c, item, freshId, k);
    BumpedTotals(c, k, item.quantity);
  }

  lemma AddItemMergedIs(c: Cart, item: NewItem, freshId: string, k: nat)
    requires UniqueIds(c.items)
    requires k == FindVariant(c.items, item) && k < |c.items|
    ensures AddItem(c, item, freshId) == WithTotals(c.items[k := c.items[k].(quantity := c.items[k].quantity + item.quantity)])
  {
    BumpUnique(c.items, k, item.quantity);
  }

  /** The totals of a consistent cart with one line's quantity raised. */
  lemma BumpedTotals(c: Cart, k: nat, q: int)
    requires Consistent(c) && k < |c.items|
    ensures var r := WithTotals(c.items[k := c.items[k].(quantity := c.items[k].quantity + q)]);
      && r.totalItems == c.totalItems + q
      && r.totalPrice * 100.0 == c.totalPrice * 100.0 + (RoundCents(c.items[k].price) * q) as real
  {
    var line := c.items[k].(quantity := c.items[k].quantity + q);
    var items := c.items[k := line];
    var d := RoundCents(c.items[k].price) * q;
    QuantitySumUpdate(c.items, k, line);
    assert CentsSum(items) == CentsSum(c.items) + d by {
      MulAdd(RoundCents(c.items[k].price), c.items[k].quantity, q);
    }
    assert CentsSum(items) as real == CentsSum(c.items) as real + d as real;
  }

  /** With unique ids, bumping by the id of line `k` changes line `k` only. */
  lemma BumpUnique(items: seq<CartItem>, k: nat, q: int)
    requires UniqueIds(items) && k < |items|
    ensures BumpById(items, items[k].id, q) == items[k := items[k].(quantity := items[k].quantity + q)]
  {
  }

  lemma MulAdd(u: int, a: int, b: int)
    ensures u * (a + b) == u * a + u * b
  {
  }

  /** `addItem` keeps the store's invariant when the new id is unused. */
  lemma AddItemValid(c: Cart, item: NewItem, freshId: string)
    requires Valid(c)
    requires forall j :: 0 <= j < |c.items| ==> c.items[j].id != freshId
    ensures Valid(AddItem(c, item, freshId))
  {
    var k := FindVariant(c.items, item);
    var r := AddItem(c, item, freshId);
    if k < |c.items| {
      assert forall j :: 0 <= j < |r.items| ==> r.items[j].id == c.items[j].id && r.items[j].price == c.items[j].price;
    } else {
      assert forall j :: 0 <= j < |c.items| ==> r.items[j] == c.items[j];
    }
  }

  /** Dropping lines keeps ids unique and prices whole. */
  lemma DropKeeps(items: seq<CartItem>, id: string)
    requires UniqueIds(items) && AllWholeCents(items)
    ensures UniqueIds(Filter(items, (x: CartItem) => x.id != id))
    ensures AllWholeCents(Filter(items, (x: CartItem) => x.id != id))
  {
    var keep := (x: CartItem) => x.id != id;
    var distinctIds := (a: CartItem, b: CartItem) => a.id != b.id;
    assert Pairwise(items, distinctIds);
    FilterPairwise(items, keep, distinctIds);
    FilterMembers(items, keep);
    var r := Filter(items, keep);
    forall i | 0 <= i < |r| ensures WholeCents(r[i].price) {
      var k :| 0 <= k < |items| && items[k] == r[i];
    }
  }

  /** `removeItem`: drop every line with that id, keep the others in their
      order, and recompute the totals. */
  function RemoveItem(c: Cart, id: string): (r: Cart)
    ensures Consistent(r)
    ensures forall x :: multiset(r.items)[x] == if x.id != id then multiset(c.items)[x] else 0
    ensures IsSubsequence(r.items, c.items)
    ensures (forall j :: 0 <= j < |c.items| ==> c.items[j].id != id) ==> r.items == c.items
  {
    var keep := (x: CartItem) => x.id != id;
    FilterCounts(c.items, keep);
    FilterOrder(c.items, keep);
    WithTotals(Filter(c.items, keep))
  }

  lemma RemoveItemValid(c: Cart, id: string)
    requires Valid(c)
    ensures Valid(RemoveItem(c, id))
  {
    DropKeeps(c.items, id);
  }

  /** Every line whose id is `id` gets quantity `q`. */
  function SetQuantity(items: seq<CartItem>, id: string, q: int): (r: seq<CartItem>)
    ensures |r| == |items|
    ensures forall j :: 0 <= j < |items| ==>
      r[j] == if items[j].id == id then items[j].(quantity := q) else items[j]
  {
    if items == [] then []
    else [if items[0].id == id then items[0].(quantity := q) else items[0]] + SetQuantity(items[1..], id, q)
  }

  /** `updateQuantity`: a quantity of zero or less removes the line;
      otherwise only the quantity of the lines with that id changes. */
  function UpdateQuantity(c: Cart, id: string, q: int): (r: Cart)
    ensures Consistent(r)
    ensures q <= 0 ==> r == RemoveItem(c, id)
    ensures q > 0 ==> |r.items| == |c.items|
    ensures q > 0 ==> forall j :: 0 <= j < |c.items| ==>
      r.items[j] == if c.items[j].id == id then c.items[j].(quantity := q) else c.items[j]
  {
    if q <= 0 then RemoveItem(c, id)
    else WithTotals(SetQuantity(c.items, id, q))
  }

  lemma UpdateQuantityValid(c: Cart, id: string, q: int)
    requires Valid(c)
    ensures Valid(UpdateQuantity(c, id, q))
  {
    if q <= 0 {
      RemoveItemValid(c, id);
    } else {
      var r := UpdateQuantity(c, id, q);
      assert forall j :: 0 <= j < |r.items| ==> r.items[j].id == c.items[j].id && r.items[j].price == c.items[j].price;
    }
  }

  /** `clearCart`. */
  function ClearCart(c: Cart): (r: Cart)
    ensures r.items == [] && r.totalItems == 0 && r.totalPrice == 0.0
    ensures Valid(r)
  {
    Empty
  }

  /** `getItemById`: the first line with that id, if any. */
  function GetItemById(c: Cart, id: string): (r: Option<CartItem>)
    ensures r.None? <==> forall j :: 0 <= j < |c.items| ==> c.items[j].id != id
    ensures r.Some? ==> r.value in c.items && r.value.id == id
    ensures r.Some? ==> exists j :: 0 <= j < |c.items| && c.items[j] == r.value && FirstWithId(c.items, id, j)
  {
    FindById(c.items, id)
  }

  /** No line before index `j` has that id. */
  predicate FirstWithId(items: seq<CartItem>, id: string, j: int)
    requires 0 <= j <= |items|
  {
    forall i :: 0 <= i < j ==> items[i].id != id
  }

  /** The first line in `items` with that id. */
  function FindById(items: seq<CartItem>, id: string): (r: Option<CartItem>)
    ensures r.None? <==> forall j :: 0 <= j < |items| ==> items[j].id != id
    ensures r.Some? ==> r.value.id == id
    ensures r.Some? ==> exists j :: 0 <= j < |items| && items[j] == r.value && FirstWithId(items, id, j)
  {
    if items == [] then None
    else if items[0].id == id then Some(items[0])
    else
      var r := FindById(items[1..], id);
      if r.Some? then
        var j :| 0 <= j < |items[1..]| && items[1..][j] == r.value && FirstWithId(items[1..], id, j);
        assert items[j + 1] == r.value;
        assert FirstWithId(items, id, j + 1);
        r
      else r
  }

  /** The total a valid cart shows is the exact value of its lines. */
  lemma ValidTotalIsExact(c: Cart)
    requires Valid(c)
    ensures c.totalPrice * 100.0 == ExactCents(c.items)
  {
    CentsSumExact(c.items);
  }
}

=== FILE: catalog.dfy ===
/** The product catalogue store (`src/store/productStore.ts`): the product
    list, the search / filter / sort pipeline that derives the visible list,
    related products and the edit operations. Dates are millisecond
    timestamps; the id `addProduct` assigns (`Date.now()`) is a parameter. */
module ProductStore {
  import opened Text
  import opened Optional
  import opened Seqs

  datatype Product = Product(
    id: int,
    name: string,
    price: real,
    originalPrice: real,
    image: string,
    rating: real,
    reviews: int,
    description: string,
    category: string,
    tags: seq<string>,
    stock: int,
    isNew: bool,
    isPopular: bool,
    createdAt: int)

  /** One key of a JavaScript object literal: not present, present and
      `undefined`, or present with a value. Spreading an object copies the
      keys that are present, including the `undefined` ones. */
  datatype Slot<T> = Absent | Undef | Has(value: T) {
    /** The value as read by `obj.key`, with `undefined` as `None`. */
    function Read(): (r: Option<T>)
      ensures r.Some? <==> Has?
    {
      if Has? then Some(value) else None
    }

    /** The value, or `default` when there is none. */
    function ValueOr(default: T): (r: T)
      ensures Has? ==> r == value
    {
      if Has? then value else default
    }
  }

  /** `{ ...base, ...over }` for one key. */
  function OverlaySlot<T>(base: Slot<T>, over: Slot<T>): (r: Slot<T>)
    ensures over.Absent? ==> r == base
    ensures !over.Absent? ==> r == over
  {
    if over.Absent? then base else over
  }

  /** `ProductFilter`, also used for `Partial<ProductFilter>`. */
  datatype Filters = Filters(
    category: Slot<string>,
    minPrice: Slot<real>,
    maxPrice: Slot<real>,
    rating: Slot<real>,
    inStock: Slot<bool>,
    tags: Slot<seq<string>>)

  /** `{}`. */
  const NoFilters: Filters := Filters(Absent, Absent, Absent, Absent, Absent, Absent)

  /** `{ ...current, ...patch }`. */
  function Overlay(current: Filters, patch: Filters): (r: Filters)
    ensures r.category == OverlaySlot(current.category, patch.category)
    ensures r.minPrice == OverlaySlot(current.minPrice, patch.minPrice)
    ensures r.maxPrice == OverlaySlot(current.maxPrice, patch.maxPrice)
    ensures r.rating == OverlaySlot(current.rating, patch.rating)
    ensures r.inStock == OverlaySlot(current.inStock, patch.inStock)
    ensures r.tags == OverlaySlot(current.tags, patch.tags)
  {
    Filters(
      OverlaySlot(current.category, patch.category),
      OverlaySlot(current.minPrice, patch.minPrice),
      OverlaySlot(current.maxPrice, patch.maxPrice),
      OverlaySlot(current.rating, patch.rating),
      OverlaySlot(current.inStock, patch.inStock),
      OverlaySlot(current.tags, patch.tags))
  }

  /** Overlaying nothing changes nothing, and overlaying the same keys
      twice is the same as once. */
  lemma OverlayLaws(current: Filters, patch: Filters)
    ensures Overlay(current, NoFilters) == current
    ensures Overlay(Overlay(current, patch), patch) == Overlay(current, patch)
    ensures Overlay(NoFilters, patch) == patch
  {
  }

  datatype SortBy = PriceAsc | PriceDesc | ByRating | Newest | Popular

  // ---------------------------------------------------------------------
  // Filtering

  /** A stage that runs only when `active` is a filter by `!active || keep`. */
  lemma StageAsFilter(ps: seq<Product>, active: bool, keep: Product -> bool, k: Product -> bool)
    requires forall x :: k(x) == (!active || keep(x))
    ensures (if active then Filter(ps, keep) else ps) == Filter(ps, k)
  {
    if active {
      FilterSame(ps, keep, k);
    } else {
      assert forall i :: 0 <= i < |ps| ==> k(ps[i]);
    }
  }

  /** `text.toLowerCase().includes(lq)` for an already lowercased query. */
  predicate HasText(text: string, lq: string) {
    Contains(Lower(text), lq)
  }

  /** The search test, with `lq` the lowercased query: name, description or
      one of the tags contains it. */
  predicate SearchHit(p: Product, lq: string) {
    HasText(p.name, lq) || HasText(p.description, lq)
    || exists i | 0 <= i < |p.tags| :: HasText(p.tags[i], lq)
  }

  /** `filters.category` is truthy. */
  predicate CategoryActive(f: Filters) {
    f.category.Has? && f.category.value != ""
  }

  /** `filters.inStock` is truthy. */
  predicate InStockActive(f: Filters) {
    f.inStock == Has(true)
  }

  /** `filters.tags && filters.tags.length > 0`. */
  predicate TagsActive(f: Filters) {
    f.tags.Has? && |f.tags.value| > 0
  }

  predicate SharesTag(p: Product, wanted: seq<string>) {
    exists i | 0 <= i < |wanted| :: wanted[i] in p.tags
  }

  /** The reference definition: a product is listed exactly when it passes
      every active test. */
  predicate Matches(p: Product, query: string, f: Filters) {
    (query == "" || SearchHit(p, Lower(query)))
    && (!CategoryActive(f) || p.category == f.category.value)
    && (!f.minPrice.Has? || p.price >= f.minPrice.value)
    && (!f.maxPrice.Has? || p.price <= f.maxPrice.value)
    && (!f.rating.Has? || p.rating >= f.rating.value)
    && (!InStockActive(f) || p.stock > 0)
    && (!TagsActive(f) || SharesTag(p, f.tags.value))
  }

  /** One filter step of `filterProducts`: it runs only when `active`. */
  datatype Stage = Stage(active: bool, test: Product -> bool)

  /** The filter steps of `filterProducts`, in source order. */
  function Stages(query: string, f: Filters): (st: seq<Stage>)
    ensures |st| == 7
  {
    var lq := Lower(query);
    [ Stage(query != "", (p: Product) => SearchHit(p, lq)),
      Stage(CategoryActive(f), (p: Product) => p.category == f.category.ValueOr("")),
      Stage(f.minPrice.Has?, (p: Product) => p.price >= f.minPrice.ValueOr(0.0)),
      Stage(f.maxPrice.Has?, (p: Product) => p.price <= f.maxPrice.ValueOr(0.0)),
      Stage(f.rating.Has?, (p: Product) => p.rating >= f.rating.ValueOr(0.0)),
      Stage(InStockActive(f), (p: Product) => p.stock > 0),
      Stage(TagsActive(f), (p: Product) => SharesTag(p, f.tags.ValueOr([]))) ]
  }

  /** Run the steps one after another, each on the previous one's output. */
  function RunStages(ps: seq<Product>, st: seq<Stage>): seq<Product>
    decreases |st|
  {
    if st == [] then ps
    else RunStages(if st[0].active then Filter(ps, st[0].test) else ps, st[1..])
  }

  /** `p` passes every active step. */
  predicate PassesAll(p: Product, st: seq<Stage>) {
    forall i | 0 <= i < |st| :: !st[i].active || st[i].test(p)
  }

  lemma PassesAllCons(x: Product, st: seq<Stage>)
    requires st != []
    ensures PassesAll(x, st) == ((!st[0].active || st[0].test(x)) && PassesAll(x, st[1..]))
  {
    if (!st[0].active || st[0].test(x)) && PassesAll(x, st[1..]) {
      forall i | 0 <= i < |st| ensures !st[i].active || st[i].test(x) {
        if i > 0 { assert st[i] == st[1..][i - 1]; }
      }
    }
  }

  /** Running the steps in turn is one filter by "passes every step". */
  lemma {:induction false} RunStagesIsFilter(ps: seq<Product>, st: seq<Stage>)
    ensures RunStages(ps, st) == Filter(ps, (p: Product) => PassesAll(p, st))
    decreases |st|
  {
    if st == [] {
      FilterSame(ps, (p: Product) => PassesAll(p, st), (_: Product) => true);
    } else {
      var k0 := (p: Product) => !st[0].active || st[0].test(p);
      StageAsFilter(ps, st[0].active, st[0].test, k0);
      var ps1 := Filter(ps, k0);
      RunStagesIsFilter(ps1, st[1..]);
      forall x ensures PassesAll(x, st) == (k0(x) && PassesAll(x, st[1..])) {
        PassesAllCons(x, st);
      }
      FilterCompose(ps, k0, (p: Product) => PassesAll(p, st[1..]), (p: Product) => PassesAll(p, st));
    }
  }

  /** The reference predicate is "passes every step". */
  lemma MatchesIsPassesAll(p: Product, query: string, f: Filters)
    ensures Matches(p, query, f) == PassesAll(p, Stages(query, f))
  {
    var st := Stages(query, f);
    if Matches(p, query, f) {
      forall i | 0 <= i < 7 ensures !st[i].active || st[i].test(p) {
      }
    }
    if PassesAll(p, st) {
      assert !st[0].active || st[0].test(p);
      assert !st[1].active || st[1].test(p);
      assert !st[2].active || st[2].test(p);
      assert !st[3].active || st[3].test(p);
      assert !st[4].active || st[4].test(p);
      assert !st[5].active || st[5].test(p);
      assert !st[6].active || st[6].test(p);
    }
  }

  /** The filter steps select exactly the matching products, in order. */
  lemma StagedIsMatching(ps: seq<Product>, query: string, f: Filters)
    ensures RunStages(ps, Stages(query, f)) == Filter(ps, (p: Product) => Matches(p, query, f))
  {
    RunStagesIsFilter(ps, Stages(query, f));
    forall x ensures PassesAll(x, Stages(query, f)) == Matches(x, query, f) {
      MatchesIsPassesAll(x, query, f);
    }
    FilterSame(ps, (p: Product) => PassesAll(p, Stages(query, f)), (p: Product) => Matches(p, query, f));
  }

  // ---------------------------------------------------------------------
  // Sorting

  /** The comparator of `filterProducts` returns a negative number: `a`
      belongs before `b`. */
  predicate Before(order: SortBy, a: Product, b: Product) {
    match order
    case PriceAsc => a.price < b.price
    case PriceDesc => a.price > b.price
    case ByRating => a.rating > b.rating
    case Newest => a.createdAt > b.createdAt
    case Popular =>
      (a.isPopular && !b.isPopular) || (a.isPopular == b.isPopular && a.reviews > b.reviews)
  }

  lemma BeforeStrictOrder(order: SortBy, a: Product, b: Product, c: Product)
    ensures !Before(order, a, a)
    ensures Before(order, a, b) && Before(order, b, c) ==> Before(order, a, c)
  {
  }

  /** Neither product sorts before the other: the comparator returns 0. */
  predicate Tied(order: SortBy, a: Product, b: Product) {
    !Before(order, a, b) && !Before(order, b, a)
  }

  /** Being tied is an equivalence that the comparator cannot tell apart. */
  lemma TiedEquivalence(order: SortBy, a: Product, b: Product, c: Product)
    ensures Tied(order, a, a)
    ensures Tied(order, a, b) ==> Tied(order, b, a)
    ensures Tied(order, a, b) && Tied(order, b, c) ==> Tied(order, a, c)
    ensures Tied(order, a, b) && Before(order, a, c) ==> Before(order, b, c)
  {
  }

  /** The test "is tied with `p`", as a filter. */
  function TiedTo(order: SortBy, p: Product): (keep: Product -> bool)
    ensures forall q :: keep(q) <==> Tied(order, p, q)
  {
    (q: Product) => Tied(order, p, q)
  }

  predicate Sorted(order: SortBy, s: seq<Product>) {
    forall i, j :: 0 <= i < j < |s| ==> !Before(order, s[j], s[i])
  }

  /** A head that nothing in a sorted tail belongs before keeps it sorted. */
  lemma PrependSorted(order: SortBy, h: Product, t: seq<Product>)
    requires Sorted(order, t)
    requires forall j :: 0 <= j < |t| ==> !Before(order, t[j], h)
    ensures Sorted(order, [h] + t)
  {
    var r := [h] + t;
    forall i, j | 0 <= i < j < |r| ensures !Before(order, r[j], r[i]) {
      assert r[j] == t[j - 1];
      if i > 0 {
        assert r[i] == t[i - 1];
      }
    }
  }

  /** Put `x` after every element it does not belong before. */
  function Insert(order: SortBy, x: Product, s: seq<Product>): (r: seq<Product>)
    requires Sorted(order, s)
    ensures multiset(r) == multiset(s) + multiset{x}
    ensures |r| == |s| + 1
    ensures Sorted(order, r)
  {
    if s == [] then [x]
    else if Before(order, x, s[0]) then
      forall j | 0 <= j < |s| ensures !Before(order, s[j], x) {
        if Before(order, s[j], x) { BeforeStrictOrder(order, s[j], x, s[0]); }
      }
      PrependSorted(order, x, s);
      [x] + s
    else
      var tail := s[1..];
      assert Sorted(order, tail);
      var rest := Insert(order, x, tail);
      assert s == [s[0]] + tail;
      forall j | 0 <= j < |rest| ensures !Before(order, rest[j], s[0]) {
        assert rest[j] in multiset(rest);
        if rest[j] != x {
          assert rest[j] in multiset(tail);
          var k :| 0 <= k < |tail| && tail[k] == rest[j];
          assert s[k + 1] == rest[j];
        }
      }
      PrependSorted(order, s[0], rest);
      [s[0]] + rest
  }

  /** When `x` sorts before the head of a sorted list, nothing in the list
      is tied with `x`, nor with anything tied with `x`. */
  lemma NoneTiedAfter(order: SortBy, x: Product, s: seq<Product>, p: Product)
    requires Sorted(order, s) && s != [] && Before(order, x, s[0]) && Tied(order, p, x)
    ensures Filter(s, TiedTo(order, p)) == []
  {
    var keep := TiedTo(order, p);
    forall j | 0 <= j < |s| ensures !keep(s[j]) {
      if keep(s[j]) {
        TiedEquivalence(order, x, p, s[j]);
        TiedEquivalence(order, s[j], x, s[0]);
        assert j != 0 && Before(order, s[j], s[0]);
        assert false;
      }
    }
    FilterNone(s, keep);
  }

  /** Putting the same element in front of two lists keeps an equation
      between their filtered forms. */
  lemma ConsTies(h: Product, a: seq<Product>, b: seq<Product>, extra: seq<Product>, keep: Product -> bool)
    requires Filter(a, keep) == Filter(b, keep) + extra
    ensures Filter([h] + a, keep) == Filter([h] + b, keep) + extra
  {
    assert ([h] + a)[0] == h && ([h] + a)[1..] == a;
    assert ([h] + b)[0] == h && ([h] + b)[1..] == b;
    if keep(h) {
      assert [h] + (Filter(b, keep) + extra) == ([h] + Filter(b, keep)) + extra;
    }
  }

  /** Inserting `x` puts it after every element tied with it: among the
      products tied with any `p`, `x` comes last. */
  lemma {:induction false} InsertTies(order: SortBy, x: Product, s: seq<Product>, p: Product)
    requires Sorted(order, s)
    ensures Filter(Insert(order, x, s), TiedTo(order, p))
         == Filter(s, TiedTo(order, p)) + if Tied(order, p, x) then [x] else []
    decreases |s|
  {
    var keep := TiedTo(order, p);
    if s == [] {
    } else if Before(order, x, s[0]) {
      assert Insert(order, x, s) == [x] + s;
      FilterAppend([x], s, keep);
      if Tied(order, p, x) {
        NoneTiedAfter(order, x, s, p);
      }
    } else {
      var tail := s[1..];
      assert Sorted(order, tail);
      assert Insert(order, x, s) == [s[0]] + Insert(order, x, tail);
      assert s == [s[0]] + tail;
      InsertTies(order, x, tail, p);
      ConsTies(s[0], Insert(order, x, tail), tail, if Tied(order, p, x) then [x] else [], keep);
    }
  }

  /** `Array.prototype.sort` with the comparator of `by`: a stable sort, so
      equal elements keep their input order. */
  function SortProducts(order: SortBy, s: seq<Product>): (r: seq<Product>)
    ensures multiset(r) == multiset(s)
    ensures |r| == |s|
    ensures Sorted(order, r)
    ensures forall p :: Filter(r, TiedTo(order, p)) == Filter(s, TiedTo(order, p))
  {
    if s == [] then []
    else
      var init := s[..|s| - 1];
      var last := s[|s| - 1];
      assert s == init + [last];
      var sorted := SortProducts(order, init);
      forall p ensures Filter(Insert(order, last, sorted), TiedTo(order, p)) == Filter(s, TiedTo(order, p)) {
        InsertTies(order, last, sorted, p);
        FilterAppend(init, [last], TiedTo(order, p));
      }
      Insert(order, last, sorted)
  }

  /** A list whose products all tie comes back as it was. */
  lemma SortKeepsTiedList(order: SortBy, s: seq<Product>)
    requires forall i, j :: 0 <= i < |s| && 0 <= j < |s| ==> Tied(order, s[i], s[j])
    ensures SortProducts(order, s) == s
  {
    if s != [] {
      var r := SortProducts(order, s);
      var keep := TiedTo(order, s[0]);
      forall i | 0 <= i < |r| ensures keep(r[i]) {
        assert r[i] in multiset(s);
      }
      assert Filter(r, keep) == r;
      assert Filter(s, keep) == s;
    }
  }

  /** `filterProducts`: the matching products in comparator order. */
  function FilterProducts(ps: seq<Product>, query: string, f: Filters, order: SortBy): (r: seq<Product>)
    ensures multiset(r) == multiset(Filter(ps, (p: Product) => Matches(p, query, f)))
    ensures |r| <= |ps|
    ensures Sorted(order, r)
    ensures forall p :: p in r <==> p in ps && Matches(p, query, f)
    ensures forall p :: Filter(r, TiedTo(order, p))
                     == Filter(Filter(ps, (q: Product) => Matches(q, query, f)), TiedTo(order, p))
  {
    StagedIsMatching(ps, query, f);
    var r := SortProducts(order, RunStages(ps, Stages(query, f)));
    FilterMembers(ps, (p: Product) => Matches(p, query, f));
    assert forall p :: p in r <==> p in multiset(r);
    r
  }

  /** What each listed product satisfies, spelled out per filter. */
  lemma FilterProductsSound(ps: seq<Product>, query: string, f: Filters, order: SortBy, p: Product)
    requires p in FilterProducts(ps, query, f, order)
    ensures p in ps
    ensures query != "" ==> (HasText(p.name, Lower(query)) || HasText(p.description, Lower(query))
                             || exists t :: t in p.tags && HasText(t, Lower(query)))
    ensures CategoryActive(f) ==> p.category == f.category.value
    ensures f.minPrice.Has? ==> p.price >= f.minPrice.value
    ensures f.maxPrice.Has? ==> p.price <= f.maxPrice.value
    ensures f.rating.Has? ==> p.rating >= f.rating.value
    ensures InStockActive(f) ==> p.stock > 0
    ensures TagsActive(f) ==> exists t :: t in f.tags.value && t in p.tags
  {
    if query != "" && !HasText(p.name, Lower(query)) && !HasText(p.description, Lower(query)) {
      var i :| 0 <= i < |p.tags| && HasText(p.tags[i], Lower(query));
      assert p.tags[i] in p.tags;
    }
    if TagsActive(f) {
      var i :| 0 <= i < |f.tags.value| && f.tags.value[i] in p.tags;
      assert f.tags.value[i] in f.tags.value;
    }
  }

  lemma SortedPair(order: SortBy, r: seq<Product>, i: int, j: int)
    requires Sorted(order, r) && 0 <= i < j < |r|
    ensures order == Popular ==> (r[j].isPopular ==> r[i].isPopular)
    ensures order == Popular ==> (r[i].isPopular == r[j].isPopular ==> r[i].reviews >= r[j].reviews)
    ensures order == PriceAsc ==> r[i].price <= r[j].price
    ensures order == PriceDesc ==> r[i].price >= r[j].price
    ensures order == ByRating ==> r[i].rating >= r[j].rating
    ensures order == Newest ==> r[i].createdAt >= r[j].createdAt
  {
    assert !Before(order, r[j], r[i]);
  }

  /** Under 'popular' every popular product precedes every other one, and
      products of equal popularity are in non-increasing review order. */
  lemma PopularOrder(ps: seq<Product>, query: string, f: Filters, i: int, j: int)
    requires var r := FilterProducts(ps, query, f, Popular); 0 <= i < j < |r|
    ensures var r := FilterProducts(ps, query, f, Popular);
      && (r[j].isPopular ==> r[i].isPopular)
      && (r[i].isPopular == r[j].isPopular ==> r[i].reviews >= r[j].reviews)
  {
    SortedPair(Popular, FilterProducts(ps, query, f, Popular), i, j);
  }

  /** The price and rating orders. */
  lemma PriceAndRatingOrder(ps: seq<Product>, query: string, f: Filters, i: int, j: int)
    requires 0 <= i < j
    ensures var r := FilterProducts(ps, query, f, PriceAsc); j < |r| ==> r[i].price <= r[j].price
    ensures var r := FilterProducts(ps, query, f, PriceDesc); j < |r| ==> r[i].price >= r[j].price
    ensures var r := FilterProducts(ps, query, f, ByRating); j < |r| ==> r[i].rating >= r[j].rating
    ensures var r := FilterProducts(ps, query, f, Newest); j < |r| ==> r[i].createdAt >= r[j].createdAt
  {
    var r1 := FilterProducts(ps, query, f, PriceAsc);
    if j < |r1| { SortedPair(PriceAsc, r1, i, j); }
    var r2 := FilterProducts(ps, query, f, PriceDesc);
    if j < |r2| { SortedPair(PriceDesc, r2, i, j); }
    var r3 := FilterProducts(ps, query, f, ByRating);
    if j < |r3| { SortedPair(ByRating, r3, i, j); }
    var r4 := FilterProducts(ps, query, f, Newest);
    if j < |r4| { SortedPair(Newest, r4, i, j); }
  }

  // ---------------------------------------------------------------------
  // The store

  datatype Store = Store(
    products: seq<Product>,
    filteredProducts: seq<Product>,
    searchQuery: string,
    filters: Filters,
    sortBy: SortBy)

  /** The initial store. */
  const Initial: Store := Store([], [], "", NoFilters, Popular)

  /** The visible list is the one the current settings derive. */
  predicate InSync(s: Store) {
    s.filteredProducts == FilterProducts(s.products, s.searchQuery, s.filters, s.sortBy)
  }

  lemma InitialInSync()
    ensures InSync(Initial)
  {
  }

  /** `filterProducts` applied to the store. */
  function Refilter(s: Store): (r: Store)
    ensures InSync(r)
    ensures r.products == s.products && r.searchQuery == s.searchQuery
    ensures r.filters == s.filters && r.sortBy == s.sortBy
  {
    s.(filteredProducts := FilterProducts(s.products, s.searchQuery, s.filters, s.sortBy))
  }

  /** `setProducts`: the visible list becomes the new list as given,
      without filtering or sorting. */
  function SetProducts(s: Store, products: seq<Product>): (r: Store)
    ensures r.products == products && r.filteredProducts == products
    ensures r.searchQuery == s.searchQuery && r.filters == s.filters && r.sortBy == s.sortBy
  {
    s.(products := products, filteredProducts := products)
  }

  /** `setSearchQuery`. */
  function SetSearchQuery(s: Store, query: string): (r: Store)
    ensures InSync(r)
    ensures r.searchQuery == query && r.products == s.products
    ensures r.filters == s.filters && r.sortBy == s.sortBy
  {
    Refilter(s.(searchQuery := query))
  }

  /** `setFilters`: the given keys overlay the current ones. */
  function SetFilters(s: Store, patch: Filters): (r: Store)
    ensures InSync(r)
    ensures r.filters == Overlay(s.filters, patch)
    ensures r.products == s.products && r.searchQuery == s.searchQuery && r.sortBy == s.sortBy
  {
    Refilter(s.(filters := Overlay(s.filters, patch)))
  }

  /** `setSortBy`. */
  function SetSortBy(s: Store, order: SortBy): (r: Store)
    ensures InSync(r)
    ensures r.sortBy == order && r.products == s.products
    ensures r.searchQuery == s.searchQuery && r.filters == s.filters
  {
    Refilter(s.(sortBy := order))
  }

  /** Index of the first product with id `id`, or `|ps|`. */
  function FindProduct(ps: seq<Product>, id: int): (k: nat)
    ensures k <= |ps|
    ensures k < |ps| ==> ps[k].id == id
    ensures forall j :: 0 <= j < k ==> ps[j].id != id
  {
    if ps == [] then 0 else if ps[0].id == id then 0 else 1 + FindProduct(ps[1..], id)
  }

  /** `getProductById`: the first product with that id. */
  function GetProductById(s: Store, id: int): (r: Option<Product>)
    ensures r.None? <==> forall j :: 0 <= j < |s.products| ==> s.products[j].id != id
    ensures r.Some? ==> r.value in s.products && r.value.id == id
    ensures r.Some? ==> exists k :: 0 <= k < |s.products| && s.products[k] == r.value
                                   && forall j :: 0 <= j < k ==> s.products[j].id != id
  {
    var k := FindProduct(s.products, id);
    if k < |s.products| then Some(s.products[k]) else None
  }

  /** `arr.slice(0, limit)`: a negative limit counts back from the end. */
  function SliceTo(ps: seq<Product>, limit: int): (r: seq<Product>)
    ensures 0 <= limit ==> |r| == if limit < |ps| then limit else |ps|
    ensures limit < 0 ==> |r| == if |ps| + limit > 0 then |ps| + limit else 0
    ensures r == ps[..|r|]
  {
    var end := if limit < 0 then (if |ps| + limit > 0 then |ps| + limit else 0)
               else if limit < |ps| then limit else |ps|;
    ps[..end]
  }

  /** The test `getRelatedProducts` filters with: another product of the
      same category. */
  function IsRelated(productId: int, category: string): (keep: Product -> bool)
    ensures forall p :: keep(p) <==> p.id != productId && p.category == category
  {
    (p: Product) => p.id != productId && p.category == category
  }

  /** `getRelatedProducts(productId, limit = 4)`: the leading products of
      the same category other than the product itself; either `limit` of
      them or all of them. */
  function GetRelatedProducts(s: Store, productId: int, limit: Option<int>): (r: seq<Product>)
    ensures GetProductById(s, productId).None? ==> r == []
    ensures 0 <= limit.GetOr(4) ==> |r| <= limit.GetOr(4)
    ensures forall p :: p in r ==>
      (p in s.products && p.id != productId && p.category == GetProductById(s, productId).value.category)
    ensures GetProductById(s, productId).Some? && 0 <= limit.GetOr(4) && |r| < limit.GetOr(4) ==>
      forall p :: (p in s.products && p.id != productId
                   && p.category == GetProductById(s, productId).value.category) ==> p in r
    ensures IsSubsequence(r, s.products)
  {
    match GetProductById(s, productId)
    case None => []
    case Some(product) =>
      var keep := IsRelated(productId, product.category);
      var related := Filter(s.products, keep);
      FilterMembers(s.products, keep);
      FilterOrder(s.products, keep);
      var r := SliceTo(related, limit.GetOr(4));
      PrefixIsSubsequence(related, s.products, |r|);
      assert forall p :: p in r ==> p in related;
      assert 0 <= limit.GetOr(4) && |r| < limit.GetOr(4) ==> r == related;
      r
  }

  /** The related products are the first `limit` of the catalogue's other
      products in the same category, in catalogue order. */
  lemma RelatedIsSlicedFilter(s: Store, productId: int, limit: Option<int>)
    requires GetProductById(s, productId).Some?
    ensures GetRelatedProducts(s, productId, limit)
         == SliceTo(Filter(s.products, IsRelated(productId, GetProductById(s, productId).value.category)), limit.GetOr(4))
  {
  }

  /** In a catalogue with distinct ids the related products have distinct
      ids too: no product is listed twice. */
  lemma RelatedDistinct(s: Store, productId: int, limit: Option<int>)
    requires Pairwise(s.products, (a: Product, b: Product) => a.id != b.id)
    ensures var r := GetRelatedProducts(s, productId, limit);
      forall i, j :: 0 <= i < j < |r| ==> r[i].id != r[j].id
  {
    var distinct := (a: Product, b: Product) => a.id != b.id;
    if GetProductById(s, productId).Some? {
      var keep := IsRelated(productId, GetProductById(s, productId).value.category);
      var related := Filter(s.products, keep);
      FilterPairwise(s.products, keep, distinct);
      var r := GetRelatedProducts(s, productId, limit);
      assert r == related[..|r|];
      forall i, j | 0 <= i < j < |r| ensures r[i].id != r[j].id {
        assert r[i] == related[i] && r[j] == related[j];
        assert distinct(related[i], related[j]);
      }
    }
  }

  /** `addProduct`: the product with the fresh id goes at the end. */
  function AddProduct(s: Store, data: Product, freshId: int): (r: Store)
    ensures r.products == s.products + [data.(id := freshId)]
    ensures InSync(r)
    ensures r.searchQuery == s.searchQuery && r.filters == s.filters && r.sortBy == s.sortBy
  {
    Refilter(s.(products := s.products + [data.(id := freshId)]))
  }

  /** `Partial<Product>`: the keys given to `updateProduct`. */
  datatype ProductPatch = ProductPatch(
    id: Option<int>,
    name: Option<string>,
    price: Option<real>,
    originalPrice: Option<real>,
    image: Option<string>,
    rating: Option<real>,
    reviews: Option<int>,
    description: Option<string>,
    category: Option<string>,
    tags: Option<seq<string>>,
    stock: Option<int>,
    isNew: Option<bool>,
    isPopular: Option<bool>,
    createdAt: Option<int>)

  const EmptyPatch: ProductPatch :=
    ProductPatch(None, None, None, None, None, None, None, None, None, None, None, None, None, None)

  /** `{ ...product, ...updates }`: every key the patch gives replaces the
      product's value, every other key is kept. */
  function ApplyPatch(p: Product, u: ProductPatch): (r: Product)
    ensures u == EmptyPatch ==> r == p
    ensures r.id == u.id.GetOr(p.id) && r.name == u.name.GetOr(p.name)
    ensures r.price == u.price.GetOr(p.price) && r.originalPrice == u.originalPrice.GetOr(p.originalPrice)
    ensures r.image == u.image.GetOr(p.image) && r.rating == u.rating.GetOr(p.rating)
    ensures r.reviews == u.reviews.GetOr(p.reviews) && r.description == u.description.GetOr(p.description)
    ensures r.category == u.category.GetOr(p.category) && r.tags == u.tags.GetOr(p.tags)
    ensures r.stock == u.stock.GetOr(p.stock) && r.isNew == u.isNew.GetOr(p.isNew)
    ensures r.isPopular == u.isPopular.GetOr(p.isPopular) && r.createdAt == u.createdAt.GetOr(p.createdAt)
  {
    Product(
      u.id.GetOr(p.id), u.name.GetOr(p.name), u.price.GetOr(p.price),
      u.originalPrice.GetOr(p.originalPrice), u.image.GetOr(p.image),
      u.rating.GetOr(p.rating), u.reviews.GetOr(p.reviews),
      u.description.GetOr(p.description), u.category.GetOr(p.category),
      u.tags.GetOr(p.tags), u.stock.GetOr(p.stock), u.isNew.GetOr(p.isNew),
      u.isPopular.GetOr(p.isPopular), u.createdAt.GetOr(p.createdAt))
  }

  /** The patch giving every key of `p`. */
  function FullPatch(p: Product): ProductPatch {
    ProductPatch(Some(p.id), Some(p.name), Some(p.price), Some(p.originalPrice), Some(p.image),
                 Some(p.rating), Some(p.reviews), Some(p.description), Some(p.category), Some(p.tags),
                 Some(p.stock), Some(p.isNew), Some(p.isPopular), Some(p.createdAt))
  }

  /** `{ ...{ ...p, ...u }, ...v }`: the later patch wins key by key. */
  function ThenPatch(u: ProductPatch, v: ProductPatch): ProductPatch {
    ProductPatch(
      if v.id.Some? then v.id else u.id, if v.name.Some? then v.name else u.name,
      if v.price.Some? then v.price else u.price,
      if v.originalPrice.Some? then v.originalPrice else u.originalPrice,
      if v.image.Some? then v.image else u.image, if v.rating.Some? then v.rating else u.rating,
      if v.reviews.Some? then v.reviews else u.reviews,
      if v.description.Some? then v.description else u.description,
      if v.category.Some? then v.category else u.category, if v.tags.Some? then v.tags else u.tags,
      if v.stock.Some? then v.stock else u.stock, if v.isNew.Some? then v.isNew else u.isNew,
      if v.isPopular.Some? then v.isPopular else u.isPopular,
      if v.createdAt.Some? then v.createdAt else u.createdAt)
  }

  /** The laws of the spread: the same patch twice is the patch once, two
      patches in a row are their key-by-key merge, and a patch giving every
      key replaces the product outright. */
  lemma PatchLaws(p: Product, q: Product, u: ProductPatch, v: ProductPatch)
    ensures ApplyPatch(ApplyPatch(p, u), u) == ApplyPatch(p, u)
    ensures ApplyPatch(ApplyPatch(p, u), v) == ApplyPatch(p, ThenPatch(u, v))
    ensures ApplyPatch(q, FullPatch(p)) == p
  {
  }

  /** Patch every product whose id is `id`. */
  function PatchById(ps: seq<Product>, id: int, u: ProductPatch): (r: seq<Product>)
    ensures |r| == |ps|
    ensures forall j :: 0 <= j < |ps| ==> r[j] == if ps[j].id == id then ApplyPatch(ps[j], u) else ps[j]
  {
    if ps == [] then []
    else [if ps[0].id == id then ApplyPatch(ps[0], u) else ps[0]] + PatchById(ps[1..], id, u)
  }

  /** `updateProduct`: only the products with that id change, and the list
      keeps its length. */
  function UpdateProduct(s: Store, id: int, u: ProductPatch): (r: Store)
    ensures |r.products| == |s.products|
    ensures forall j :: 0 <= j < |s.products| ==>
      r.products[j] == if s.products[j].id == id then ApplyPatch(s.products[j], u) else s.products[j]
    ensures InSync(r)
    ensures r.searchQuery == s.searchQuery && r.filters == s.filters && r.sortBy == s.sortBy
  {
    Refilter(s.(products := PatchById(s.products, id, u)))
  }

  /** Repeating an update changes nothing more, even when the update gives
      the product a new id. */
  lemma UpdateProductTwice(s: Store, id: int, u: ProductPatch)
    ensures UpdateProduct(UpdateProduct(s, id, u), id, u) == UpdateProduct(s, id, u)
  {
    var once := PatchById(s.products, id, u);
    var twice := PatchById(once, id, u);
    forall j | 0 <= j < |once| ensures twice[j] == once[j] {
      if s.products[j].id == id {
        PatchLaws(s.products[j], s.products[j], u, u);
      }
    }
    assert twice == once;
    var first := UpdateProduct(s, id, u);
    assert first == Refilter(s.(products := once));
    assert UpdateProduct(first, id, u) == Refilter(first.(products := twice));
  }

  /** `deleteProduct`: exactly the products with that id are dropped. */
  function DeleteProduct(s: Store, id: int): (r: Store)
    ensures forall x :: multiset(r.products)[x] == if x.id != id then multiset(s.products)[x] else 0
    ensures (forall j :: 0 <= j < |s.products| ==> s.products[j].id != id) ==> r.products == s.products
    ensures IsSubsequence(r.products, s.products)
    ensures GetProductById(r, id).None?
    ensures InSync(r)
    ensures r.searchQuery == s.searchQuery && r.filters == s.filters && r.sortBy == s.sortBy
  {
    var keep := (p: Product) => p.id != id;
    var kept := Filter(s.products, keep);
    FilterCounts(s.products, keep);
    FilterOrder(s.products, keep);
    FilterMembers(s.products, keep);
    Refilter(s.(products := kept))
  }

  /** Deleting then looking up other ids finds what was there before. */
  lemma DeleteKeepsOthers(s: Store, id: int, other: int)
    requires other != id
    ensures GetProductById(DeleteProduct(s, id), other).Some? <==> GetProductById(s, other).Some?
  {
    var kept := Filter(s.products, (p: Product) => p.id != id);
    FilterMembers(s.products, (p: Product) => p.id != id);
    if GetProductById(s, other).Some? {
      var p := GetProductById(s, other).value;
      assert p in kept;
    }
  }
}

=== FILE: checkout.dfy ===
/** The order amounts computed in `src/App.tsx`: the free-shipping test on
    floored cents, the amount charged through PayPal on rounded cents, and
    the amount handed to the Stripe bridge, computed from the cart's euro
    total instead. */
module OrderAmount {
  import opened CartStore

  /** `Number(it.quantity || 1)`: a zero quantity counts as one. */
  function QuantityOrOne(q: int): (r: int)
    ensures q != 0 ==> r == q
    ensures q == 0 ==> r == 1
  {
    if q == 0 then 1 else q
  }

  /** `Math.floor(Number(it.price) * 100)`. */
  function FloorCents(p: real): (c: int)
    ensures c as real <= p * 100.0 < c as real + 1.0
  {
    (p * 100.0).Floor
  }

  /** `subtotalCentsFloor`. */
  function SubtotalCentsFloor(items: seq<CartItem>): int {
    if items == [] then 0
    else FloorCents(items[0].price) * QuantityOrOne(items[0].quantity) + SubtotalCentsFloor(items[1..])
  }

  /** The rounded-cents subtotal inside `orderCents`. */
  function SubtotalCentsRound(items: seq<CartItem>): int {
    if items == [] then 0
    else RoundCents(items[0].price) * QuantityOrOne(items[0].quantity) + SubtotalCentsRound(items[1..])
  }

  /** The free-shipping threshold in cents. */
  const FreeShippingCents: int := 3000

  /** The shipping and gift-wrap fees in cents. */
  const ShippingCents: int := 299
  const GiftWrapCents: int := 299

  /** `isFreeShipping`: the floored subtotal reaches €30.00. */
  predicate IsFreeShipping(items: seq<CartItem>) {
    SubtotalCentsFloor(items) >= FreeShippingCents
  }

  /** `orderCents`: rounded subtotal, shipping unless free, gift wrap if chosen. */
  function OrderCents(items: seq<CartItem>, giftWrapping: bool): (c: int)
    ensures c - SubtotalCentsRound(items) == (if IsFreeShipping(items) then 0 else 299) + (if giftWrapping then 299 else 0)
  {
    SubtotalCentsRound(items)
    + (if IsFreeShipping(items) then 0 else ShippingCents)
    + (if giftWrapping then GiftWrapCents else 0)
  }

  /** The euro total shown on the checkout button and used by the Stripe
      bridge: €2.99 shipping below €30, €2.99 gift wrap when chosen. */
  function EuroTotal(totalPrice: real, giftWrapping: bool): (t: real)
    ensures t - totalPrice == (if totalPrice >= 30.0 then 0.0 else 2.99) + (if giftWrapping then 2.99 else 0.0)
  {
    totalPrice + (if totalPrice >= 30.0 then 0.0 else 2.99) + (if giftWrapping then 2.99 else 0.0)
  }

  /** `Math.round(EuroTotal * 100)`, the Stripe bridge's `amountCents`. */
  function StripeBridgeCents(totalPrice: real, giftWrapping: bool): (c: int)
    ensures c as real - 0.5 <= EuroTotal(totalPrice, giftWrapping) * 100.0 < c as real + 0.5
  {
    RoundCents(EuroTotal(totalPrice, giftWrapping))
  }

  predicate NoZeroQuantity(items: seq<CartItem>) {
    forall i :: 0 <= i < |items| ==> items[i].quantity != 0
  }

  /** On whole-cent prices with no zero quantity, floored and rounded
      subtotals are both the cart's own cents total. */
  lemma {:induction false} SubtotalsOfWholeCents(items: seq<CartItem>)
    requires AllWholeCents(items) && NoZeroQuantity(items)
    ensures SubtotalCentsFloor(items) == CentsSum(items)
    ensures SubtotalCentsRound(items) == CentsSum(items)
  {
    if items != [] {
      RoundCentsOfWholeCents(items[0].price);
      SubtotalsOfWholeCents(items[1..]);
    }
  }

  /** A whole number of cents plus whole-cent fees rounds to itself. */
  lemma RoundWholeCents(total: real, cents: int)
    requires total * 100.0 == cents as real
    ensures RoundCents(total) == cents
  {
    assert (cents as real + 0.5).Floor == cents;
  }

  /** For a consistent cart with whole-cent prices and no zero quantity,
      PayPal and the Stripe bridge are charged the same amount and the two
      free-shipping tests agree. */
  lemma ChargesAgree(c: Cart, giftWrapping: bool)
    requires Consistent(c) && AllWholeCents(c.items) && NoZeroQuantity(c.items)
    ensures IsFreeShipping(c.items) <==> c.totalPrice >= 30.0
    ensures OrderCents(c.items, giftWrapping) == StripeBridgeCents(c.totalPrice, giftWrapping)
    ensures EuroTotal(c.totalPrice, giftWrapping) * 100.0 == OrderCents(c.items, giftWrapping) as real
  {
    SubtotalsOfWholeCents(c.items);
    var t := EuroTotal(c.totalPrice, giftWrapping);
    assert t * 100.0 == OrderCents(c.items, giftWrapping) as real;
    RoundWholeCents(t, OrderCents(c.items, giftWrapping));
  }

  /** A line with quantity 0 is charged once through PayPal but not at all
      in the cart's own total. */
  lemma ZeroQuantityDiverges()
    ensures var line := CartItem("1", 1, "n", 10.0, 0, "", Optional.None, Optional.None);
      var c := WithTotals([line]);
      && c.totalPrice == 0.0
      && OrderCents(c.items, false) == 1299
      && StripeBridgeCents(c.totalPrice, false) == 299
  {
    var line := CartItem("1", 1, "n", 10.0, 0, "", Optional.None, Optional.None);
    assert RoundCents(10.0) == 1000;
    assert FloorCents(10.0) == 1000;
    assert RoundCents(2.99) == 299;
  }
}

/** The cart side panel (`src/components/CartSidebar.tsx`): what it shows
    for the cart's totals. */
module CartSidebar {
  import opened Optional
  import opened Numbers
  import OrderAmount
  import CartStore

  /** The figures the open panel shows. */
  datatype View = View(
    showPromo: bool,
    remaining: string,
    progressWidth: real,
    showEmpty: bool,
    orderTotal: string,
    checkoutTotal: string)

  /** `Math.max(0, 30 - totalPrice)`: how far the cart is from €30. */
  function Remaining(totalPrice: real): (r: real)
    ensures r >= 0.0
    ensures r == 0.0 <==> totalPrice >= 30.0
    ensures totalPrice + r >= 30.0
  {
    if 30.0 - totalPrice > 0.0 then 30.0 - totalPrice else 0.0
  }

  /** `Math.min(100, totalPrice / 30 * 100)`: the progress bar width in percent. */
  function ProgressWidth(totalPrice: real): (w: real)
    ensures w <= 100.0
    ensures w == 100.0 <==> totalPrice >= 30.0
    ensures totalPrice >= 0.0 ==> w >= 0.0
  {
    if 100.0 < totalPrice / 30.0 * 100.0 then 100.0 else totalPrice / 30.0 * 100.0
  }

  /** The bar and the remaining amount describe the same distance: the
      missing share of the bar is the remaining share of €30. */
  lemma ProgressMatchesRemaining(totalPrice: real)
    ensures ProgressWidth(totalPrice) == 100.0 - Remaining(totalPrice) / 30.0 * 100.0
  {
  }

  /** The panel: nothing when closed; otherwise the promotion block when
      the cart has items and the empty message exactly when it has none. */
  function Render(isOpen: bool, totalItems: int, totalPrice: real, giftWrapping: bool): (v: Option<View>)
    ensures !isOpen <==> v.None?
    ensures v.Some? ==> (v.value.showPromo <==> totalItems > 0)
    ensures v.Some? ==> (v.value.showEmpty <==> totalItems == 0)
    ensures v.Some? ==> v.value.checkoutTotal == ToFixed2(OrderAmount.EuroTotal(totalPrice, giftWrapping))
    ensures v.Some? ==> v.value.remaining == ToFixed2(Remaining(totalPrice))
  {
    if !isOpen then None
    else Some(View(
      totalItems > 0,
      ToFixed2(Remaining(totalPrice)),
      ProgressWidth(totalPrice),
      totalItems == 0,
      ToFixed2(totalPrice),
      ToFixed2(OrderAmount.EuroTotal(totalPrice, giftWrapping))))
  }

  /** For a consistent cart with whole-cent prices and no zero quantity, the
      checkout button shows exactly the amount PayPal is charged. */
  lemma CheckoutShowsCharge(c: CartStore.Cart, giftWrapping: bool)
    requires CartStore.Consistent(c) && CartStore.AllWholeCents(c.items) && OrderAmount.NoZeroQuantity(c.items)
    ensures Render(true, c.totalItems, c.totalPrice, giftWrapping).value.checkoutTotal
      == ToFixed2(OrderAmount.OrderCents(c.items, giftWrapping) as real / 100.0)
  {
    OrderAmount.ChargesAgree(c, giftWrapping);
    var t := OrderAmount.EuroTotal(c.totalPrice, giftWrapping);
    assert t == OrderAmount.OrderCents(c.items, giftWrapping) as real / 100.0;
  }
}

=== FILE: consent.dfy ===
/** The cookie banner (`src/components/CookieConsent.tsx`) as a state
    machine: the banner, the preferences dialog, the three switches and the
    consent record kept in browser storage (its ISO timestamp is not
    modelled). */
module CookieConsent {
  import opened Optional

  datatype Prefs = Prefs(necessary: bool, analytics: bool, marketing: bool)

  datatype Key = Necessary | Analytics | Marketing

  datatype Consent = Consent(
    showBanner: bool,
    showPreferences: bool,
    prefs: Prefs,
    stored: Option<Prefs>)

  /** The switches a fresh component starts with. */
  const DefaultPrefs: Prefs := Prefs(true, false, false)

  /** Mounting: the banner appears only when no consent is stored. */
  function Mount(stored: Option<Prefs>): (c: Consent)
    ensures c.showBanner <==> stored.None?
    ensures !c.showPreferences && c.prefs == Prefs(true, false, false)
    ensures c.stored == stored
  {
    Consent(stored.None?, false, DefaultPrefs, stored)
  }

  /** The user's actions on the banner and in the dialog. */
  datatype Event =
    | AcceptAll
    | RejectAll
    | SavePreferences
    | Toggle(key: Key)
    | CloseBanner
    | OpenPreferences
    | ClosePreferences

  /** `togglePreference`: the necessary switch cannot be changed. */
  function TogglePreference(p: Prefs, k: Key): (r: Prefs)
    ensures k == Necessary ==> r == p
    ensures k == Analytics ==> r == p.(analytics := !p.analytics)
    ensures k == Marketing ==> r == p.(marketing := !p.marketing)
  {
    match k
    case Necessary => p
    case Analytics => p.(analytics := !p.analytics)
    case Marketing => p.(marketing := !p.marketing)
  }

  /** Toggling the same switch twice changes nothing. */
  lemma ToggleTwice(p: Prefs, k: Key)
    ensures TogglePreference(TogglePreference(p, k), k) == p
  {
  }

  /** Store a consent record and hide both the banner and the dialog. */
  function Decide(c: Consent, record: Prefs): (r: Consent)
    ensures !r.showBanner && !r.showPreferences
    ensures r.stored == Some(record) && r.prefs == c.prefs
  {
    c.(stored := Some(record), showBanner := false, showPreferences := false)
  }

  /** One user action. */
  function Step(c: Consent, e: Event): (r: Consent)
    ensures e.AcceptAll? ==> r.stored == Some(Prefs(true, true, true))
    ensures e.RejectAll? ==> r.stored == Some(Prefs(true, false, false))
    ensures e.SavePreferences? ==> r.stored == Some(c.prefs)
    ensures e.AcceptAll? || e.RejectAll? || e.SavePreferences? ==> !r.showBanner && !r.showPreferences
    ensures !(e.AcceptAll? || e.RejectAll? || e.SavePreferences?) ==> r.stored == c.stored
    ensures e.Toggle? ==> r == c.(prefs := TogglePreference(c.prefs, e.key))
    ensures !e.Toggle? ==> r.prefs == c.prefs
    ensures e.CloseBanner? ==> r == c.(showBanner := false)
    ensures e.OpenPreferences? ==> r == c.(showPreferences := true)
    ensures e.ClosePreferences? ==> r == c.(showPreferences := false)
  {
    match e
    case AcceptAll => Decide(c, Prefs(true, true, true))
    case RejectAll => Decide(c, Prefs(true, false, false))
    case SavePreferences => Decide(c, c.prefs)
    case Toggle(k) => c.(prefs := TogglePreference(c.prefs, k))
    case CloseBanner => c.(showBanner := false)
    case OpenPreferences => c.(showPreferences := true)
    case ClosePreferences => c.(showPreferences := false)
  }

  /** The component renders nothing once the banner is hidden. */
  predicate Rendered(c: Consent) {
    c.showBanner
  }

  /** Run a sequence of actions. */
  function Run(c: Consent, es: seq<Event>): Consent
    decreases |es|
  {
    if es == [] then c else Run(Step(c, es[0]), es[1..])
  }

  /** Necessary cookies are on in the switches and in any stored record. */
  predicate NecessaryOn(c: Consent) {
    c.prefs.necessary && (c.stored.Some? ==> c.stored.value.necessary)
  }

  /** Every action keeps necessary cookies on. */
  lemma StepKeepsNecessary(c: Consent, e: Event)
    requires NecessaryOn(c)
    ensures NecessaryOn(Step(c, e))
  {
  }

  /** Whatever the user does after mounting, necessary cookies stay on,
      provided a previously stored record had them on. */
  lemma {:induction false} RunKeepsNecessary(c: Consent, es: seq<Event>)
    requires NecessaryOn(c)
    ensures NecessaryOn(Run(c, es))
    decreases |es|
  {
    if es != [] {
      StepKeepsNecessary(c, es[0]);
      RunKeepsNecessary(Step(c, es[0]), es[1..]);
    }
  }

  /** Once a decision is taken the banner stays hidden for the rest of the
      visit: no action shows it again. */
  lemma {:induction false} HiddenStaysHidden(c: Consent, es: seq<Event>)
    requires !c.showBanner
    ensures !Run(c, es).showBanner
    decreases |es|
  {
    if es != [] {
      HiddenStaysHidden(Step(c, es[0]), es[1..]);
    }
  }
}

=== FILE: countdowns.dfy ===
/** The two countdown widgets (`src/components/UrgencyTimer.tsx` and
    `src/components/ChristmasCountdown.tsx`): the remaining milliseconds
    split into days, hours, minutes and seconds, and the simulated viewer,
    stock and gift counters. Clock readings and random draws are inputs;
    arithmetic is exact. */
module Countdowns {

  const SecondMs: int := 1000
  const MinuteMs: int := 60 * 1000
  const HourMs: int := 60 * 60 * 1000
  const DayMs: int := 24 * 60 * 60 * 1000

  // ---------------------------------------------------------------------
  // JavaScript arithmetic on numbers

  /** A real between two consecutive integers has the lower one as floor. */
  lemma FloorIs(y: real, k: int)
    requires k as real <= y < k as real + 1.0
    ensures y.Floor == k
  {
  }

  /** Bounds on a product carry over to the quotient by a positive real. */
  lemma QuotientBetween(x: real, m: real, k: int)
    requires m > 0.0
    requires k as real * m <= x < (k as real + 1.0) * m
    ensures k as real <= x / m < k as real + 1.0
  {
    var y := x / m;
    assert y * m == x;
    CancelLe(k as real, y, m);
    CancelLt(y, k as real + 1.0, m);
  }

  lemma CancelLe(a: real, b: real, m: real)
    requires m > 0.0 && a * m <= b * m
    ensures a <= b
  {
    assert (b - a) * m >= 0.0;
  }

  lemma CancelLt(a: real, b: real, m: real)
    requires m > 0.0 && a * m < b * m
    ensures a < b
  {
    assert (b - a) * m > 0.0;
  }

  /** `Math.floor(a / b)` of two integers equals integer division. */
  lemma FloorOfQuotient(a: int, b: int)
    requires b > 0
    ensures (a as real / b as real).Floor == a / b
  {
    var q, r := a / b, a % b;
    assert a == q * b + r && 0 <= r < b;
    assert (q as real) * (b as real) <= a as real < (q as real + 1.0) * (b as real) by {
      assert (q * b) as real == (q as real) * (b as real);
      assert ((q + 1) * b) as real == (q as real + 1.0) * (b as real);
    }
    QuotientBetween(a as real, b as real, q);
    FloorIs(a as real / b as real, q);
  }

  /** `x % m` for a real `x` and a positive modulus: JavaScript keeps the
      sign of the dividend, truncating the quotient toward zero. */
  function Rem(x: real, m: real): real
    requires m > 0.0
  {
    x - m * Trunc(x / m) as real
  }

  /** The integer part of `y`, rounded toward zero. */
  function Trunc(y: real): (t: int)
    ensures y >= 0.0 ==> t as real <= y < t as real + 1.0
    ensures y < 0.0 ==> t as real - 1.0 < y <= t as real
  {
    if y >= 0.0 then y.Floor else -((-y).Floor)
  }

  /** Taking the remainder of a non-negative real, then the floor, is
      taking the floor, then the integer remainder. */
  lemma FloorOfRem(x: real, m: int)
    requires x >= 0.0 && m > 0
    ensures Rem(x, m as real).Floor == x.Floor % m
  {
    var q, r := FloorSplit(x, m);
    RemFloor(x, m as real, q, r);
  }

  /** The floor of `x` as a multiple of `m` plus a remainder, and the
      multiple bounding `x`. */
  lemma FloorSplit(x: real, m: int) returns (q: int, r: int)
    requires x >= 0.0 && m > 0
    ensures r == x.Floor % m
    ensures x.Floor as real == q as real * m as real + r as real
    ensures q as real * m as real <= x < (q as real + 1.0) * m as real
  {
    var f := x.Floor;
    q, r := f / m, f % m;
    var mr := m as real;
    var qr := q as real;
    assert f == q * m + r && 0 <= r < m;
    assert (f as real) == qr * mr + r as real by {
      assert (q * m) as real == qr * mr;
    }
    assert (qr + 1.0) * mr == qr * mr + mr;
  }

  lemma RemFloor(x: real, mr: real, q: int, r: int)
    requires x >= 0.0 && mr > 0.0 && 0 <= r
    requires x.Floor as real == q as real * mr + r as real
    requires q as real * mr <= x < (q as real + 1.0) * mr
    ensures Rem(x, mr).Floor == r
  {
    QuotientBetween(x, mr, q);
    FloorIs(x / mr, q);
    assert Trunc(x / mr) == q;
    var z := Rem(x, mr);
    assert z == x - mr * q as real;
    assert mr * q as real == q as real * mr;
    FloorIs(z, r);
  }

  /** Division by a product is division by one factor, then the other. */
  lemma DivDiv(a: int, b: int, c: int)
    requires a >= 0 && b > 0 && c > 0
    ensures a / (b * c) == (a / b) / c
  {
    var q1, r1 := a / b, a % b;
    var q, r2 := q1 / c, q1 % c;
    NestedParts(a, b, c, q1, r1, q, r2);
    DivUnique(a, b * c, q, r2 * b + r1);
  }

  lemma NestedParts(a: int, b: int, c: int, q1: int, r1: int, q: int, r2: int)
    requires b > 0 && c > 0
    requires a == q1 * b + r1 && 0 <= r1 < b
    requires q1 == q * c + r2 && 0 <= r2 < c
    ensures a == q * (b * c) + (r2 * b + r1)
    ensures 0 <= r2 * b + r1 < b * c
  {
    assert q1 * b == q * (b * c) + r2 * b by {
      Distrib(q * c, r2, b);
      MulAssoc(q, c, b);
      assert c * b == b * c;
    }
    assert r2 * b <= b * c - b by {
      Distrib(c - 1 - r2, r2, b);
      Distrib(c, -1, b);
      assert (c - 1 - r2) * b >= 0;
    }
  }

  lemma Distrib(x: int, y: int, z: int)
    ensures (x + y) * z == x * z + y * z
  {
  }

  lemma MulAssoc(x: int, y: int, z: int)
    ensures (x * y) * z == x * (y * z)
  {
  }

  lemma DivUnique(a: int, m: int, q: int, r: int)
    requires m > 0 && a == q * m + r && 0 <= r < m
    ensures a / m == q
  {
    var q', r' := a / m, a % m;
    assert q' * m + r' == q * m + r;
    if q' < q {
      MulAtLeast(q - q', m);
    } else if q' > q {
      MulAtLeast(q' - q, m);
    }
  }

  /** A positive multiple of `m` is at least `m`. */
  lemma MulAtLeast(k: int, m: int)
    requires k >= 1 && m > 0
    ensures k * m >= m
  {
    assert k * m == (k - 1) * m + m;
  }

  // ---------------------------------------------------------------------
  // Urgency timer

  datatype Clock = Clock(hours: int, minutes: int, seconds: int)

  /** The urgency timer's tick for `distance` milliseconds until the end:
      the hours, minutes and seconds within the current day, or all zeros
      once the end has passed. Whole days are dropped. */
  function UrgencyLeft(distance: int): (t: Clock)
    ensures distance <= 0 ==> t == Clock(0, 0, 0)
    ensures 0 <= t.hours < 24 && 0 <= t.minutes < 60 && 0 <= t.seconds < 60
    ensures distance > 0 ==>
      var inDay := distance % DayMs;
      var shown := t.hours * HourMs + t.minutes * MinuteMs + t.seconds * SecondMs;
      shown <= inDay < shown + SecondMs
  {
    if distance > 0 then
      var inDay := distance % DayMs;
      var inHour := distance % HourMs;
      var inMinute := distance % MinuteMs;
      var t := Clock(
        (inDay as real / HourMs as real).Floor,
        (inHour as real / MinuteMs as real).Floor,
        (inMinute as real / SecondMs as real).Floor);
      UrgencyParts(distance);
      t
    else Clock(0, 0, 0)
  }

  lemma UrgencyParts(distance: int)
    requires distance > 0
    ensures var inDay := distance % DayMs;
      var h := (inDay as real / HourMs as real).Floor;
      var m := ((distance % HourMs) as real / MinuteMs as real).Floor;
      var s := ((distance % MinuteMs) as real / SecondMs as real).Floor;
      && 0 <= h < 24 && 0 <= m < 60 && 0 <= s < 60
      && h * HourMs + m * MinuteMs + s * SecondMs <= inDay < h * HourMs + m * MinuteMs + s * SecondMs + SecondMs
  {
    var inDay := distance % DayMs;
    FloorOfQuotient(inDay, HourMs);
    FloorOfQuotient(distance % HourMs, MinuteMs);
    FloorOfQuotient(distance % MinuteMs, SecondMs);
    var h := inDay / HourMs;
    var m := (distance % HourMs) / MinuteMs;
    var s := (distance % MinuteMs) / SecondMs;
    assert inDay % HourMs == distance % HourMs by {
      ModOfMod(distance, HourMs, 24);
    }
    assert (distance % HourMs) % MinuteMs == distance % MinuteMs by {
      ModOfMod(distance, MinuteMs, 60);
    }
    assert inDay == h * HourMs + m * MinuteMs + (distance % MinuteMs);
  }

  /** Reducing modulo a multiple, then modulo the factor, is reducing
      modulo the factor. */
  lemma ModOfMod(a: int, m: int, k: int)
    requires m > 0 && k > 0
    ensures (a % (m * k)) % m == a % m
  {
    var q := a / (m * k);
    assert a == q * (m * k) + a % (m * k);
    assert q * (m * k) == (q * k) * m;
    ModAfterMultiple(a % (m * k), q * k, m);
  }

  lemma ModAfterMultiple(r: int, n: int, m: int)
    requires m > 0
    ensures (n * m + r) % m == r % m
  {
    var a := n * m + r;
    var q, s := r / m, r % m;
    assert a == (n + q) * m + s;
    DivUnique(a, m, n + q, s);
  }

  /** The viewer count every 30 seconds: a step of -3 to +2 from the draw
      `r` in [0, 1), never below 3. */
  function NextViewers(prev: int, r: real): (n: int)
    requires 0.0 <= r < 1.0
    ensures n >= 3
    ensures n >= prev + (r * 6.0).Floor - 3
    ensures n == prev + (r * 6.0).Floor - 3 || n == 3
    ensures n == 3 || prev - 3 <= n <= prev + 2
    ensures n == 3 ==> prev <= 6
  {
    var step := (r * 6.0).Floor;
    assert 0 <= step <= 5;
    if 3 > prev + step - 3 then 3 else prev + step - 3
  }

  /** The first viewer count, 5 to 24. */
  function InitialViewers(r: real): (n: int)
    requires 0.0 <= r < 1.0
    ensures 5 <= n <= 24
  {
    var k := (r * 20.0).Floor;
    assert 0 <= k < 20;
    k + 5
  }

  /** The first stock count, 1 to 10. */
  function InitialStock(r: real): (n: int)
    requires 0.0 <= r < 1.0
    ensures 1 <= n <= 10
  {
    var k := (r * 10.0).Floor;
    assert 0 <= k < 10;
    k + 1
  }

  predicate Draws(rs: seq<real>) {
    forall i :: 0 <= i < |rs| ==> 0.0 <= rs[i] < 1.0
  }

  /** The viewer count after the updates drawn `rs`, from `start`. */
  function ViewersAfter(start: int, rs: seq<real>): (n: int)
    requires Draws(rs)
    ensures rs != [] ==> n >= 3
    decreases |rs|
  {
    if rs == [] then start else NextViewers(ViewersAfter(start, rs[..|rs| - 1]), rs[|rs| - 1])
  }

  /** From any displayed count, the viewers stay between 3 and two more
      per update than where they started. */
  lemma {:induction false} ViewersBounded(start: int, rs: seq<real>)
    requires Draws(rs) && start >= 3
    ensures 3 <= ViewersAfter(start, rs) <= start + 2 * |rs|
    decreases |rs|
  {
    if rs != [] {
      ViewersBounded(start, rs[..|rs| - 1]);
    }
  }

  // ---------------------------------------------------------------------
  // Christmas countdown

  datatype Left = Left(days: int, hours: int, minutes: int, seconds: int)

  /** The Christmas countdown for `difference` milliseconds until midnight
      of 25 December: each unit from the matching floating quotient, the
      smaller ones reduced with `%`; all zeros once it has passed. */
  function ChristmasLeft(difference: int): (t: Left)
    ensures difference <= 0 ==> t == Left(0, 0, 0, 0)
    ensures difference > 0 ==>
      && t.days == difference / DayMs
      && t.hours == (difference / HourMs) % 24
      && t.minutes == (difference / MinuteMs) % 60
      && t.seconds == (difference / SecondMs) % 60
  {
    if difference > 0 then
      var d := difference as real;
      var t := Left(
        (d / DayMs as real).Floor,
        Rem(d / HourMs as real, 24.0).Floor,
        Rem(d / 1000.0 / 60.0, 60.0).Floor,
        Rem(d / 1000.0, 60.0).Floor);
      ChristmasParts(difference);
      t
    else Left(0, 0, 0, 0)
  }

  lemma ChristmasParts(difference: int)
    requires difference > 0
    ensures var d := difference as real;
      && (d / DayMs as real).Floor == difference / DayMs
      && Rem(d / HourMs as real, 24.0).Floor == (difference / HourMs) % 24
      && Rem(d / 1000.0 / 60.0, 60.0).Floor == (difference / MinuteMs) % 60
      && Rem(d / 1000.0, 60.0).Floor == (difference / SecondMs) % 60
  {
    var d := difference as real;
    FloorOfQuotient(difference, DayMs);
    FloorOfQuotient(difference, HourMs);
    FloorOfRem(d / HourMs as real, 24);
    assert d / 1000.0 / 60.0 == d / MinuteMs as real;
    FloorOfQuotient(difference, MinuteMs);
    FloorOfRem(d / MinuteMs as real, 60);
    FloorOfQuotient(difference, SecondMs);
    FloorOfRem(d / 1000.0, 60);
  }

  /** The four units put back together give the remaining time to within
      a second, and each lies in its range. */
  lemma ChristmasReconstructs(difference: int)
    requires difference > 0
    ensures var t := ChristmasLeft(difference);
      var shown := t.days * DayMs + t.hours * HourMs + t.minutes * MinuteMs + t.seconds * SecondMs;
      && 0 <= t.hours < 24 && 0 <= t.minutes < 60 && 0 <= t.seconds < 60 && t.days >= 0
      && shown <= difference < shown + SecondMs
  {
    UnitsReconstruct(difference);
  }

  /** Whole seconds, minutes, hours and days of `d` milliseconds, each
      smaller unit reduced, add back up to `d` to within a second. */
  lemma UnitsReconstruct(d: int)
    requires d >= 0
    ensures var shown := (d / DayMs) * DayMs + ((d / HourMs) % 24) * HourMs
                         + ((d / MinuteMs) % 60) * MinuteMs + ((d / SecondMs) % 60) * SecondMs;
      shown <= d < shown + SecondMs
  {
    var s := d / SecondMs;
    var m := d / MinuteMs;
    var h := d / HourMs;
    DivDiv(d, SecondMs, 60);
    DivDiv(d, MinuteMs, 60);
    DivDiv(d, HourMs, 24);
    assert m == s / 60 && h == m / 60 && d / DayMs == h / 24;
    assert s == m * 60 + s % 60;
    assert m == h * 60 + m % 60;
    assert h == (h / 24) * 24 + h % 24;
    assert s * SecondMs <= d < s * SecondMs + SecondMs;
  }

  /** One gift-counter update: 0, 1 or 2 more, from the draw `r`. */
  function NextGifts(prev: int, r: real): (n: int)
    requires 0.0 <= r < 1.0
    ensures prev <= n <= prev + 2
  {
    var k := (r * 3.0).Floor;
    assert 0 <= k < 3;
    prev + k
  }

  /** The gift counter after the updates drawn `rs`, from 0. */
  function GiftsAfter(rs: seq<real>): (n: int)
    requires Draws(rs)
    decreases |rs|
  {
    if rs == [] then 0 else NextGifts(GiftsAfter(rs[..|rs| - 1]), rs[|rs| - 1])
  }

  /** The gift counter never goes down, and rises by at most two per
      update. */
  lemma {:induction false} GiftsNeverDecrease(rs: seq<real>, i: nat, j: nat)
    requires Draws(rs) && i <= j <= |rs|
    ensures GiftsAfter(rs[..i]) <= GiftsAfter(rs[..j]) <= GiftsAfter(rs[..i]) + 2 * (j - i)
    decreases j - i
  {
    if i < j {
      GiftsNeverDecrease(rs, i, j - 1);
      assert rs[..j][..j - 1] == rs[..j - 1];
    }
  }
}

=== FILE: engagement.dfy ===
/** The engagement features of the shop page in `src/App.tsx`: the
    recently-viewed strip, the urgency countdown, the live-viewer counter and
    the newsletter form with its browser-side rate limiter. Clock readings,
    random draws and the server's reply are parameters. */
module Engagement {
  import opened Optional
  import opened Seqs
  import CheckoutForm
  import Countdowns

  // ---------------------------------------------------------------------
  // Recently viewed

  /** `prev.filter(id => id !== productId)`: every other id, as often as it
      occurs and in its order. */
  function Drop(xs: seq<int>, x: int): (r: seq<int>)
    ensures forall y :: multiset(r)[y] == if y != x then multiset(xs)[y] else 0
    ensures IsSubsequence(r, xs)
    ensures x !in xs ==> r == xs
  {
    var keep := (y: int) => y != x;
    FilterCounts(xs, keep);
    FilterOrder(xs, keep);
    Filter(xs, keep)
  }

  /** No id appears twice. */
  predicate Distinct(xs: seq<int>) {
    forall i, j :: 0 <= i < j < |xs| ==> xs[i] != xs[j]
  }

  lemma DropKeepsDistinct(xs: seq<int>, x: int)
    requires Distinct(xs)
    ensures Distinct(Drop(xs, x))
  {
    var differ := (a: int, b: int) => a != b;
    assert Pairwise(xs, differ);
    FilterPairwise(xs, (y: int) => y != x, differ);
    assert Pairwise(Drop(xs, x), differ);
  }

  /** `addToRecentlyViewed`: the id moves to the front, its earlier entry
      goes, and at most three ids are kept. */
  function AddToRecentlyViewed(prev: seq<int>, productId: int): (r: seq<int>)
    ensures |r| == if 1 + |Drop(prev, productId)| < 3 then 1 + |Drop(prev, productId)| else 3
    ensures r[0] == productId
    ensures productId !in r[1..]
    ensures r[1..] == Drop(prev, productId)[..|r| - 1]
  {
    FilterMembers(prev, (y: int) => y != productId);
    var all := [productId] + Drop(prev, productId);
    if |all| <= 3 then all else all[..3]
  }

  /** Viewing the same product twice in a row is the same as viewing it once. */
  lemma RecentlyViewedIdempotent(prev: seq<int>, productId: int)
    ensures AddToRecentlyViewed(AddToRecentlyViewed(prev, productId), productId)
         == AddToRecentlyViewed(prev, productId)
  {
    var once := AddToRecentlyViewed(prev, productId);
    assert Drop(once, productId) == once[1..] by {
      assert once == [productId] + once[1..];
      DropHeadFree(once[1..], productId);
    }
  }

  lemma DropHeadFree(xs: seq<int>, x: int)
    requires x !in xs
    ensures Drop([x] + xs, x) == xs
  {
    FilterAppend([x], xs, (y: int) => y != x);
    assert [x][1..] == [];
  }

  /** The strip never lists a product twice. */
  lemma RecentlyViewedDistinct(prev: seq<int>, productId: int)
    requires Distinct(prev)
    ensures Distinct(AddToRecentlyViewed(prev, productId))
  {
    DropKeepsDistinct(prev, productId);
    var r := AddToRecentlyViewed(prev, productId);
    var d := Drop(prev, productId);
    forall i, j | 0 <= i < j < |r| ensures r[i] != r[j] {
      if i == 0 {
        assert r[j] in r[1..];
      } else {
        assert r[i] == d[i - 1] && r[j] == d[j - 1];
      }
    }
  }

  // ---------------------------------------------------------------------
  // Urgency countdown

  datatype Countdown = Countdown(hours: int, minutes: int, seconds: int)

  /** The countdown the page starts with and restarts from: 0:45:00. */
  const Restart: Countdown := Countdown(0, 45, 0)

  /** Hours non-negative, minutes and seconds within 0..59. */
  predicate WellFormed(t: Countdown) {
    t.hours >= 0 && 0 <= t.minutes <= 59 && 0 <= t.seconds <= 59
  }

  function TotalSeconds(t: Countdown): int {
    t.hours * 3600 + t.minutes * 60 + t.seconds
  }

  /** One tick of the urgency timer: one second less with borrow, and a
      restart at 0:45:00 once it reaches 0:00:00. */
  function Tick(t: Countdown): (r: Countdown)
    requires WellFormed(t)
    ensures WellFormed(r)
    ensures TotalSeconds(t) > 0 ==> TotalSeconds(r) == TotalSeconds(t) - 1
    ensures TotalSeconds(t) == 0 ==> r == Restart
  {
    if t.seconds > 0 then t.(seconds := t.seconds - 1)
    else if t.minutes > 0 then t.(minutes := t.minutes - 1, seconds := 59)
    else if t.hours > 0 then Countdown(t.hours - 1, 59, 59)
    else Restart
  }

  /** `n` ticks. */
  function Ticks(t: Countdown, n: nat): (r: Countdown)
    requires WellFormed(t)
    ensures WellFormed(r)
    decreases n
  {
    if n == 0 then t else Ticks(Tick(t), n - 1)
  }

  /** Each tick before zero takes exactly one second off the reading. */
  lemma {:induction false} TicksCountDown(t: Countdown, n: nat)
    requires WellFormed(t) && n <= TotalSeconds(t)
    ensures TotalSeconds(Ticks(t, n)) == TotalSeconds(t) - n
    decreases n
  {
    if n > 0 {
      TicksCountDown(Tick(t), n - 1);
    }
  }

  /** Once it has counted down to zero the timer restarts: from any
      reading the next tick after reaching 0:00:00 shows 0:45:00. */
  lemma CountdownRestarts(t: Countdown)
    requires WellFormed(t)
    ensures Ticks(t, TotalSeconds(t) + 1) == Restart
  {
    var n := TotalSeconds(t);
    TicksCountDown(t, n);
    TicksSplit(t, n, 1);
  }

  lemma {:induction false} TicksSplit(t: Countdown, a: nat, b: nat)
    requires WellFormed(t)
    ensures Ticks(t, a + b) == Ticks(Ticks(t, a), b)
    decreases a
  {
    if a > 0 {
      assert Ticks(t, a + b) == Ticks(Tick(t), (a - 1) + b);
      assert Ticks(t, a) == Ticks(Tick(t), a - 1);
      TicksSplit(Tick(t), a - 1, b);
    }
  }

  // ---------------------------------------------------------------------
  // Live viewers

  /** `Math.max(5, prev + Math.floor(Math.random() * 6) - 3)`, with the
      random draw `r` in [0, 1). */
  function UpdateViewers(prev: int, r: real): (n: int)
    requires 0.0 <= r < 1.0
    ensures n >= 5
    ensures n >= prev + (r * 6.0).Floor - 3
    ensures n == prev + (r * 6.0).Floor - 3 || n == 5
    ensures prev - 3 <= n || n == 5
    ensures n <= prev + 2 || n == 5
  {
    var step := (r * 6.0).Floor;
    assert 0 <= step <= 5;
    if 5 > prev + step - 3 then 5 else prev + step - 3
  }

  /** The viewer count after the updates drawn `rs`, from `start`. */
  function LiveViewers(start: int, rs: seq<real>): (n: int)
    requires Countdowns.Draws(rs)
    ensures rs != [] ==> n >= 5
    decreases |rs|
  {
    if rs == [] then start else UpdateViewers(LiveViewers(start, rs[..|rs| - 1]), rs[|rs| - 1])
  }

  /** From any count of at least 5 the viewers stay at least 5, rise by at
      most two per update and fall by at most three per update. */
  lemma {:induction false} LiveViewersBounded(start: int, rs: seq<real>)
    requires Countdowns.Draws(rs) && start >= 5
    ensures 5 <= LiveViewers(start, rs) <= start + 2 * |rs|
    ensures LiveViewers(start, rs) >= start - 3 * |rs|
    decreases |rs|
  {
    if rs != [] {
      LiveViewersBounded(start, rs[..|rs| - 1]);
    }
  }

  // ---------------------------------------------------------------------
  // Newsletter form

  const MinuteMs: int := 60 * 1000
  const HourMs: int := 60 * 60 * 1000
  const DayMs: int := 24 * 60 * 60 * 1000

  /** What the form keeps in browser storage: submission times, the
      last-subscribed time per email and the permanent email list. */
  datatype Log = Log(attempts: seq<int>, emailLog: map<string, int>, permanent: seq<string>)

  /** The server's reply, or a network failure. */
  datatype Reply = Status(code: int) | NetworkFailure

  datatype Outcome =
    | InvalidEmail
    | TooManyPerMinute
    | TooManyPerHour
    | DailyLimit
    | AlreadySubscribed
    | ServerDuplicate
    | Subscribed
    | NetworkError

  /** `attempts.filter(t => now - t < window)`: each attempt younger than
      the window, as often as it occurs and in its order; with the older
      ones they make up all the attempts. */
  function Recent(ts: seq<int>, now: int, window: int): (r: seq<int>)
    ensures forall t :: multiset(r)[t] == if now - t < window then multiset(ts)[t] else 0
    ensures IsSubsequence(r, ts)
    ensures forall i :: 0 <= i < |r| ==> now - r[i] < window
  {
    if ts == [] then []
    else
      assert ts == [ts[0]] + ts[1..];
      var rest := Recent(ts[1..], now, window);
      if now - ts[0] < window then
        assert ([ts[0]] + rest)[1..] == rest;
        [ts[0]] + rest
      else rest
  }

  /** The recent attempts are the filter by age, so with the older ones
      they make up every attempt. */
  lemma {:induction false} RecentIsFilter(ts: seq<int>, now: int, window: int)
    ensures Recent(ts, now, window) == Filter(ts, (t: int) => now - t < window)
    ensures |Recent(ts, now, window)| + |Filter(ts, (t: int) => now - t >= window)| == |ts|
    decreases |ts|
  {
    if ts != [] {
      RecentIsFilter(ts[1..], now, window);
    }
    FilterSplits(ts, (t: int) => now - t < window, (t: int) => now - t >= window);
  }

  /** Filtering twice by nested windows is filtering by the smaller one. */
  lemma {:induction false} RecentNested(ts: seq<int>, now: int, small: int, big: int)
    requires small <= big
    ensures Recent(Recent(ts, now, big), now, small) == Recent(ts, now, small)
    decreases |ts|
  {
    if ts != [] {
      RecentNested(ts[1..], now, small, big);
    }
  }

  /** The email was subscribed from this browser: on the permanent list, or
      logged less than a day ago (a logged time of 0 is falsy and ignored). */
  predicate KnownEmail(log: Log, email: string, now: int) {
    email in log.permanent
    || (email in log.emailLog && log.emailLog[email] != 0 && now - log.emailLog[email] < DayMs)
  }

  /** The gate before the request is sent; `None` lets it through. */
  function Gate(day: seq<int>, log: Log, email: string, now: int): (o: Option<Outcome>)
    ensures o.None? <==>
      && |Recent(day, now, MinuteMs)| < 3
      && |Recent(day, now, HourMs)| < 10
      && |day| < 15
      && !KnownEmail(log, email, now)
    ensures |Recent(day, now, MinuteMs)| >= 3 ==> o == Some(TooManyPerMinute)
    ensures |Recent(day, now, MinuteMs)| < 3 && |Recent(day, now, HourMs)| >= 10 ==> o == Some(TooManyPerHour)
    ensures |Recent(day, now, MinuteMs)| < 3 && |Recent(day, now, HourMs)| < 10 && |day| >= 15 ==>
      o == Some(DailyLimit)
    ensures |Recent(day, now, MinuteMs)| < 3 && |Recent(day, now, HourMs)| < 10 && |day| < 15 ==>
      KnownEmail(log, email, now) ==> o == Some(AlreadySubscribed)
  {
    if |Recent(day, now, MinuteMs)| >= 3 then Some(TooManyPerMinute)
    else if |Recent(day, now, HourMs)| >= 10 then Some(TooManyPerHour)
    else if |day| >= 15 then Some(DailyLimit)
    else if KnownEmail(log, email, now) then Some(AlreadySubscribed)
    else None
  }

  /** The form's submit handler: the email check, the limiter, then the
      request; any reply but 409 counts as success and is recorded. The log
      is always saved back with attempts older than a day dropped. */
  function SubmitNewsletter(log: Log, email: string, now: int, reply: Reply): (r: (Outcome, Log))
    ensures !CheckoutForm.ValidateEmail(email) ==> r == (InvalidEmail, log)
    ensures r.0 == Subscribed ==>
      && r.1.attempts == Recent(log.attempts, now, DayMs) + [now]
      && email in r.1.emailLog && r.1.emailLog[email] == now
      && email in r.1.permanent
    ensures r.0 == Subscribed ==>
      && r.1.emailLog == log.emailLog[email := now]
      && (forall e :: e in r.1.permanent <==> e in log.permanent || e == email)
      && r.1.permanent == if email in log.permanent then log.permanent else log.permanent + [email]
    ensures r.0 != Subscribed && r.0 != InvalidEmail ==>
      r.1 == log.(attempts := Recent(log.attempts, now, DayMs))
    ensures CheckoutForm.ValidateEmail(email) ==>
      var gate := Gate(Recent(log.attempts, now, DayMs), log, email, now);
      && (gate.Some? ==> r.0 == gate.value)
      && (gate.None? && reply == NetworkFailure ==> r.0 == NetworkError)
      && (gate.None? && reply == Status(409) ==> r.0 == ServerDuplicate)
      && (gate.None? && reply.Status? && reply.code != 409 ==> r.0 == Subscribed)
    ensures forall e :: e in log.permanent ==> e in r.1.permanent
  {
    if !CheckoutForm.ValidateEmail(email) then (InvalidEmail, log)
    else
      var day := Recent(log.attempts, now, DayMs);
      var saved := log.(attempts := day);
      var gate := Gate(day, log, email, now);
      if gate.Some? then (gate.value, saved)
      else match reply
        case NetworkFailure => (NetworkError, saved)
        case Status(code) =>
          if code == 409 then (ServerDuplicate, saved)
          else
            var perm := if email in log.permanent then log.permanent else log.permanent + [email];
            (Subscribed, Log(day + [now], log.emailLog[email := now], perm))
  }

  /** The request goes out exactly when the email passes and the limiter
      lets it through. */
  lemma SubmitReachesServer(log: Log, email: string, now: int, reply: Reply)
    ensures var o := SubmitNewsletter(log, email, now, reply).0;
      (o == Subscribed || o == ServerDuplicate || o == NetworkError) <==>
        && CheckoutForm.ValidateEmail(email)
        && Gate(Recent(log.attempts, now, DayMs), log, email, now).None?
  {
  }

  /** Three submissions within a minute block the fourth, whatever the
      email. */
  lemma ThirdInMinuteBlocks(log: Log, email: string, now: int, reply: Reply)
    requires CheckoutForm.ValidateEmail(email)
    requires |Recent(log.attempts, now, MinuteMs)| >= 3
    ensures SubmitNewsletter(log, email, now, reply).0 == TooManyPerMinute
  {
    RecentNested(log.attempts, now, MinuteMs, DayMs);
  }

  /** One use of the form: the email typed, the clock and the reply. */
  datatype Submission = Submission(email: string, now: int, reply: Reply)

  /** The stored log after the submissions `subs`, in order. */
  function RunForm(log: Log, subs: seq<Submission>): Log
    decreases |subs|
  {
    if subs == [] then log
    else RunForm(SubmitNewsletter(log, subs[0].email, subs[0].now, subs[0].reply).1, subs[1..])
  }

  /** No submission takes an email off the permanent list. */
  lemma {:induction false} PermanentKept(log: Log, subs: seq<Submission>, e: string)
    requires e in log.permanent
    ensures e in RunForm(log, subs).permanent
    decreases |subs|
  {
    if subs != [] {
      PermanentKept(SubmitNewsletter(log, subs[0].email, subs[0].now, subs[0].reply).1, subs[1..], e);
    }
  }

  /** After a successful subscription the same email is never subscribed
      again from this browser, whatever is submitted in between and
      whenever it is tried: the form refuses it before any request. */
  lemma SubscribedThenRefused(log: Log, email: string, now: int, reply: Reply,
                              between: seq<Submission>, later: int, reply2: Reply)
    requires SubmitNewsletter(log, email, now, reply).0 == Subscribed
    ensures SubmitNewsletter(RunForm(SubmitNewsletter(log, email, now, reply).1, between), email, later, reply2).0
         != Subscribed
  {
    PermanentKept(SubmitNewsletter(log, email, now, reply).1, between, email);
  }
}

=== FILE: filter_panel.dfy ===
/** The search-and-filter panel (`src/components/SearchAndFilter.tsx`): a
    local copy of the catalogue filters edited by the form, pushed to the
    product store on "apply" and reset on "clear". Closing the panel is a
    display matter and is not modelled. */
module FilterPanel {
  import opened Optional
  import opened ProductStore
  import opened Seqs

  /** The form controls' `updateFilter` calls, with the values the call
      sites pass: the category select's text, `Number(text)` or `undefined`
      for the price boxes, the clicked rating, and `checked || undefined`. */
  datatype Edit =
    | Category(text: string)
    | MinPrice(amount: Option<real>)
    | MaxPrice(amount: Option<real>)
    | Rating(stars: real)
    | InStock(checked: bool)

  /** `value === '' ? undefined : value` followed by the spread: a key that
      is set to `undefined` stays present. */
  function SlotOf<T>(v: Option<T>): (s: Slot<T>)
    ensures s != Absent
    ensures v.None? <==> s == Undef
  {
    if v.Some? then Has(v.value) else Undef
  }

  /** `updateFilter(key, value)`: only the edited key changes. */
  function UpdateFilter(local: Filters, e: Edit): (r: Filters)
    ensures e.Category? ==> r == local.(category := if e.text == "" then Undef else Has(e.text))
    ensures e.MinPrice? ==> r == local.(minPrice := SlotOf(e.amount))
    ensures e.MaxPrice? ==> r == local.(maxPrice := SlotOf(e.amount))
    ensures e.Rating? ==> r == local.(rating := Has(e.stars))
    ensures e.InStock? ==> r == local.(inStock := if e.checked then Has(true) else Undef)
  {
    match e
    case Category(t) => local.(category := if t == "" then Undef else Has(t))
    case MinPrice(a) => local.(minPrice := SlotOf(a))
    case MaxPrice(a) => local.(maxPrice := SlotOf(a))
    case Rating(s) => local.(rating := Has(s))
    case InStock(c) => local.(inStock := if c then Has(true) else Undef)
  }

  /** Choosing "all categories" (the empty option) switches the category
      test off, and so does unticking "in stock". */
  lemma ClearingEditsSwitchOff(local: Filters)
    ensures !CategoryActive(UpdateFilter(local, Category("")))
    ensures !InStockActive(UpdateFilter(local, InStock(false)))
    ensures !UpdateFilter(local, MinPrice(None)).minPrice.Has?
    ensures !UpdateFilter(local, MaxPrice(None)).maxPrice.Has?
  {
  }

  /** `localFilters.tags || []`. */
  function CurrentTags(local: Filters): (ts: seq<string>)
    ensures local.tags.Has? ==> ts == local.tags.value
  {
    if local.tags.Has? then local.tags.value else []
  }

  /** `updateTags(tag)`: a present tag is removed, an absent one appended,
      and an empty list is stored as `undefined`. */
  function UpdateTags(local: Filters, tag: string): (r: Filters)
    ensures r == local.(tags := r.tags)
    ensures r.tags != Has([]) && r.tags != Absent
    ensures tag in CurrentTags(local) ==> tag !in CurrentTags(r)
    ensures tag !in CurrentTags(local) ==> CurrentTags(r) == CurrentTags(local) + [tag]
    ensures forall t :: t != tag ==> (t in CurrentTags(r) <==> t in CurrentTags(local))
  {
    var current := CurrentTags(local);
    FilterMembers(current, (t: string) => t != tag);
    var next := if tag in current then Filter(current, (t: string) => t != tag) else current + [tag];
    local.(tags := if |next| > 0 then Has(next) else Undef)
  }

  /** Toggling the same tag twice gives back the same set of tags. */
  lemma ToggleTwice(local: Filters, tag: string)
    ensures var r := UpdateTags(UpdateTags(local, tag), tag);
      forall t :: t in CurrentTags(r) <==> t in CurrentTags(local)
  {
  }

  /** `applyFilters`: the local filters go to the store unchanged. */
  function ApplyFilters(local: Filters, s: Store): (r: Store)
    ensures r.filters == Overlay(s.filters, local)
    ensures InSync(r)
    ensures r.products == s.products && r.searchQuery == s.searchQuery && r.sortBy == s.sortBy
  {
    SetFilters(s, local)
  }

  /** `clearFilters` as written: `setFilters({})` overlays no keys, so the
      store keeps its filters; only the query and the local copy reset. */
  function ClearFiltersAsWritten(s: Store): (r: (Filters, Store))
    ensures r.0 == NoFilters
    ensures r.1.filters == s.filters && r.1.searchQuery == ""
    ensures InSync(r.1)
  {
    OverlayLaws(s.filters, NoFilters);
    (NoFilters, SetSearchQuery(SetFilters(s, NoFilters), ""))
  }

  /** A store filtering on category "A" still hides a category "B" product
      after the as-written clear. */
  lemma ClearFiltersKeepsFiltering()
    ensures var p := Product(1, "n", 1.0, 1.0, "", 5.0, 0, "d", "B", [], 1, false, false, 0);
      var s := Store([p], [], "", NoFilters.(category := Has("A")), Popular);
      p !in ClearFiltersAsWritten(s).1.filteredProducts
  {
    var p := Product(1, "n", 1.0, 1.0, "", 5.0, 0, "d", "B", [], 1, false, false, 0);
    var s := Store([p], [], "", NoFilters.(category := Has("A")), Popular);
    assert !Matches(p, "", ClearFiltersAsWritten(s).1.filters);
  }

  /** `clearFilters` as intended: the store's filters are replaced by `{}`
      and the query by ''. */
  function ClearFilters(s: Store): (r: (Filters, Store))
    ensures r.0 == NoFilters
    ensures r.1.filters == NoFilters && r.1.searchQuery == ""
    ensures r.1.products == s.products && r.1.sortBy == s.sortBy
    ensures InSync(r.1)
  {
    (NoFilters, Refilter(s.(filters := NoFilters, searchQuery := "")))
  }

  /** After the intended clear every product is listed again. */
  lemma ClearFiltersShowsAll(s: Store)
    ensures multiset(ClearFilters(s).1.filteredProducts) == multiset(s.products)
  {
    var r := ClearFilters(s).1;
    assert forall p :: Matches(p, "", NoFilters);
  }
}

=== FILE: forms.dfy ===
/** The checkout form's client-side rules in `src/App.tsx`: the email
    whitelist, the per-field validation and the input formatters for card
    number, expiry and phone. */
module CheckoutForm {
  import opened Text
  import opened Optional
  import opened Seqs

  // ---------------------------------------------------------------------
  // Email

  /** The domains `validateEmail` accepts. */
  const ValidDomains: seq<string> :=
    ["gmail.com", "yahoo.com", "hotmail.com", "outlook.com", "yahoo.co.uk", "hotmail.co.uk", "outlook.co.uk"]

  /** `[^\s@]+`: neither whitespace nor '@'. */
  predicate Plain(t: string) {
    forall k :: 0 <= k < |t| ==> !IsWhitespace(t[k]) && t[k] != '@'
  }

  /** `/^[^\s@]+@[^\s@]+\.[^\s@]+$/`, read off the pattern: plain text, '@',
      plain text, '.', plain text. */
  predicate EmailPattern(s: string) {
    exists i, j | 0 < i && i + 1 < j && j + 1 < |s| ::
      s[i] == '@' && s[j] == '.' && Plain(s[..i]) && Plain(s[i + 1..j]) && Plain(s[j + 1..])
  }

  /** The same shape said directly: no whitespace, exactly one '@', not
      first, and a '.' strictly inside the part after it. */
  predicate EmailShape(s: string) {
    var k := IndexOf(s, '@');
    0 < k < |s| && NoWhitespace(s) && '@' !in s[k + 1..]
    && exists j | k + 1 < j < |s| - 1 :: s[j] == '.'
  }

  /** The first occurrence of `c` is at `i` when `c` is at `i` and nowhere before. */
  lemma IndexOfIs(s: string, c: char, i: nat)
    requires i < |s| && s[i] == c
    requires forall n :: 0 <= n < i ==> s[n] != c
    ensures IndexOf(s, c) == i
  {
  }

  /** Three plain pieces around an '@' at `i` and a '.' at `j`: no
      whitespace anywhere and no other '@'. */
  lemma PlainPieces(s: string, i: nat, j: nat)
    requires 0 < i && i + 1 < j && j + 1 < |s|
    requires Plain(s[..i]) && Plain(s[i + 1..j]) && Plain(s[j + 1..]) && s[j] == '.'
    ensures forall n :: 0 <= n < |s| ==> !IsWhitespace(s[n]) || n == i
    ensures forall n :: 0 <= n < |s| && n != i ==> s[n] != '@'
  {
    forall n | 0 <= n < |s| && n != i
      ensures !IsWhitespace(s[n]) && s[n] != '@'
    {
      if n < i {
        assert s[n] == s[..i][n];
      } else if i < n < j {
        assert s[n] == s[i + 1..j][n - i - 1];
      } else if j < n {
        assert s[n] == s[j + 1..][n - j - 1];
      }
    }
  }

  lemma PatternIsShape(s: string)
    requires EmailPattern(s)
    ensures EmailShape(s)
  {
    var i, j :| 0 < i && i + 1 < j && j + 1 < |s|
      && s[i] == '@' && s[j] == '.' && Plain(s[..i]) && Plain(s[i + 1..j]) && Plain(s[j + 1..]);
    PlainPieces(s, i, j);
    IndexOfIs(s, '@', i);
    var t := s[i + 1..];
    forall n | 0 <= n < |t| ensures t[n] != '@' {
      assert t[n] == s[i + 1 + n];
    }
    assert NoWhitespace(s);
  }

  lemma ShapeIsPattern(s: string)
    requires EmailShape(s)
    ensures EmailPattern(s)
  {
    var k := IndexOf(s, '@');
    var j :| k + 1 < j < |s| - 1 && s[j] == '.';
    forall n | k < n < |s| ensures s[n] != '@' {
      assert s[n] == s[k + 1..][n - k - 1];
    }
    assert Plain(s[..k]);
    assert Plain(s[k + 1..j]);
    assert Plain(s[j + 1..]);
  }

  lemma EmailPatternIsShape(s: string)
    ensures EmailPattern(s) <==> EmailShape(s)
  {
    if EmailPattern(s) {
      PatternIsShape(s);
    }
    if EmailShape(s) {
      ShapeIsPattern(s);
    }
  }

  /** The text after the first '@'. */
  function DomainPart(s: string): string
    requires IndexOf(s, '@') < |s|
  {
    s[IndexOf(s, '@') + 1..]
  }

  /** `validateEmail`: the pattern, then the lowercased
      `email.split('@')[1]` must be a listed domain. */
  function ValidateEmail(email: string): (ok: bool)
    ensures ok <==> EmailShape(email) && Lower(DomainPart(email)) in ValidDomains
  {
    EmailPatternIsShape(email);
    if !EmailPattern(email) then false
    else
      var parts := Split(email, '@');
      SplitAt(email, '@');
      SplitWithout(DomainPart(email), '@');
      Lower(parts[1]) in ValidDomains
  }

  /** Lowering leaves lower-case ASCII letters, digits and '.' alone. */
  lemma {:induction false} LowerOfLowerAscii(t: string)
    requires forall i :: 0 <= i < |t| ==> ('a' <= t[i] <= 'z') || t[i] == '.' || IsDigit(t[i])
    ensures Lower(t) == t
  {
    if t != [] {
      var rest := t[1..];
      LowerCharAscii(t[0]);
      LowerOfLowerAscii(rest);
      LowerCons(t, t[0], rest);
    }
  }

  lemma LowerCons(t: string, c: char, rest: string)
    requires t != [] && c == t[0] && rest == t[1..]
    requires LowerChar(c) == [c] && Lower(rest) == rest
    ensures Lower(t) == t
  {
    assert Lower(t) == [c] + rest;
  }

  lemma LowerCharAscii(c: char)
    requires ('a' <= c <= 'z') || c == '.' || IsDigit(c)
    ensures LowerChar(c) == [c]
  {
  }

  /** An address assembled from a plain local part and a domain with an
      interior dot passes the pattern, and its domain part is that domain:
      such an address is accepted exactly when the lowered domain is listed. */
  lemma ValidateEmailOfParts(local: string, domain: string, j: nat)
    requires |local| > 0 && Plain(local)
    requires NoWhitespace(domain) && '@' !in domain
    requires 0 < j < |domain| - 1 && domain[j] == '.'
    ensures var s := local + "@" + domain;
      && EmailShape(s) && DomainPart(s) == domain
      && (ValidateEmail(s) <==> Lower(domain) in ValidDomains)
  {
    AddressAt(local, domain);
    AddressShape(local, domain, j);
  }

  /** The first '@' of such an address is the one after the local part. */
  lemma AddressAt(local: string, domain: string)
    requires Plain(local)
    ensures var s := local + "@" + domain;
      IndexOf(s, '@') == |local| && s[|local| + 1..] == domain
  {
    var s := local + "@" + domain;
    var k := |local|;
    forall n | 0 <= n < k ensures s[n] != '@' {
      assert s[n] == local[n];
    }
    IndexOfIs(s, '@', k);
    assert s[k + 1..] == domain;
  }

  lemma AddressShape(local: string, domain: string, j: nat)
    requires |local| > 0 && Plain(local)
    requires NoWhitespace(domain) && '@' !in domain
    requires 0 < j < |domain| - 1 && domain[j] == '.'
    requires IndexOf(local + "@" + domain, '@') == |local|
    requires (local + "@" + domain)[|local| + 1..] == domain
    ensures EmailShape(local + "@" + domain)
  {
    var s := local + "@" + domain;
    var k := |local|;
    forall n | 0 <= n < |s| ensures !IsWhitespace(s[n]) {
      if n < k {
        assert s[n] == local[n];
      } else if n > k {
        assert s[n] == domain[n - k - 1];
      }
    }
    assert s[k + 1 + j] == '.';
  }

  /** Visible ASCII text other than '@' is plain. */
  lemma VisibleAsciiIsPlain(t: string)
    requires forall n :: 0 <= n < |t| ==> '!' <= t[n] <= '~' && t[n] != '@'
    ensures Plain(t) && NoWhitespace(t) && '@' !in t
  {
  }

  /** Any plain local part at any listed domain is accepted. */
  lemma AcceptsListedDomain(local: string, domain: string)
    requires |local| > 0 && Plain(local) && domain in ValidDomains
    ensures ValidateEmail(local + "@" + domain)
  {
    var j := ListedDomainShape(domain);
    ValidateEmailOfParts(local, domain, j);
  }

  /** Every listed domain is lower-case and has a dot inside it, so it is a
      domain part the pattern takes. */
  lemma ListedDomainShape(d: string) returns (j: nat)
    requires d in ValidDomains
    ensures NoWhitespace(d) && '@' !in d && 0 < j < |d| - 1 && d[j] == '.'
    ensures Lower(d) == d
  {
    if d == "gmail.com" || d == "yahoo.com" || d == "yahoo.co.uk" {
      j := 5;
    } else {
      j := 7;
    }
    LowerAsciiDomain(d, j);
  }

  /** A domain of lower-case letters and dots, with a dot inside it. */
  lemma LowerAsciiDomain(d: string, j: nat)
    requires forall i :: 0 <= i < |d| ==> ('a' <= d[i] <= 'z') || d[i] == '.'
    requires 0 < j < |d| - 1 && d[j] == '.'
    ensures NoWhitespace(d) && '@' !in d && Lower(d) == d
  {
    LowerOfLowerAscii(d);
    VisibleAsciiIsPlain(d);
  }

  /** The domain test ignores letter case: two domains that lower to the
      same text are accepted or refused together. */
  lemma DomainCaseIgnored(local: string, d1: string, j1: nat, d2: string, j2: nat)
    requires |local| > 0 && Plain(local)
    requires NoWhitespace(d1) && '@' !in d1 && 0 < j1 < |d1| - 1 && d1[j1] == '.'
    requires NoWhitespace(d2) && '@' !in d2 && 0 < j2 < |d2| - 1 && d2[j2] == '.'
    requires Lower(d1) == Lower(d2)
    ensures ValidateEmail(local + "@" + d1) <==> ValidateEmail(local + "@" + d2)
  {
    ValidateEmailOfParts(local, d1, j1);
    ValidateEmailOfParts(local, d2, j2);
  }

  /** A domain off the list. */
  const OtherDomain: string := "company.lt"

  /** Any address at a domain off the list is refused. */
  lemma RefusesOtherDomain(local: string)
    requires |local| > 0 && Plain(local)
    ensures !ValidateEmail(local + "@" + OtherDomain)
  {
    OtherDomainShape();
    ValidateEmailOfParts(local, OtherDomain, 7);
  }

  lemma OtherDomainShape()
    ensures NoWhitespace(OtherDomain) && '@' !in OtherDomain
    ensures |OtherDomain| == 10 && OtherDomain[7] == '.'
    ensures Lower(OtherDomain) !in ValidDomains
  {
    LowerAsciiDomain(OtherDomain, 7);
    UnlistedByInitial(OtherDomain);
  }

  /** Every listed domain starts with 'g', 'y', 'h' or 'o'. */
  lemma UnlistedByInitial(d: string)
    requires |d| > 0 && d[0] == 'c'
    ensures d !in ValidDomains
  {
    forall i | 0 <= i < |ValidDomains|
      ensures ValidDomains[i][0] in "gyho"
    {
    }
  }

  // ---------------------------------------------------------------------
  // The whole form

  datatype Field = Email | Name | Surname | Address | City | PostalCode | Phone | CardNumber | Expiry | Cvv

  /** Why a field is flagged: the first message of each field ("required",
      "too short") or the second ("wrong characters", "wrong format"). */
  datatype Problem = Missing | Malformed

  datatype FormData = FormData(
    email: string,
    name: string,
    surname: string,
    address: string,
    city: string,
    postalCode: string,
    phone: string)

  /** `[a-zA-ZąčęėįšųūžĄČĘĖĮŠŲŪŽ\s]`. */
  predicate LetterChar(c: char) {
    ('a' <= c <= 'z') || ('A' <= c <= 'Z') || c in "ąčęėįšųūžĄČĘĖĮŠŲŪŽ" || IsWhitespace(c)
  }

  /** `/^[a-zA-ZąčęėįšųūžĄČĘĖĮŠŲŪŽ\s]+$/`. */
  predicate Letters(s: string) {
    |s| > 0 && forall i :: 0 <= i < |s| ==> LetterChar(s[i])
  }

  /** `/^\d{5}$/`. */
  predicate FiveDigits(s: string) {
    |s| == 5 && AllDigits(s)
  }

  /** The characters the phone rule strips: `[\s\-\(\)]`. */
  predicate PhoneFiller(c: char) {
    IsWhitespace(c) || c == '-' || c == '(' || c == ')'
  }

  /** `phone.replace(/[\s\-\(\)]/g, '')`. */
  function CleanPhone(phone: string): (r: string)
    ensures forall c :: multiset(r)[c] == if PhoneFiller(c) then 0 else multiset(phone)[c]
    ensures IsSubsequence(r, phone)
    ensures forall i :: 0 <= i < |r| ==> !PhoneFiller(r[i])
  {
    var keep := (c: char) => !PhoneFiller(c);
    FilterCounts(phone, keep);
    FilterOrder(phone, keep);
    Filter(phone, keep)
  }

  predicate NineToFifteenDigits(t: string) {
    9 <= |t| <= 15 && AllDigits(t)
  }

  /** `/^\+?\d{9,15}$/`. */
  predicate PhonePattern(t: string) {
    NineToFifteenDigits(t) || (|t| > 0 && t[0] == '+' && NineToFifteenDigits(t[1..]))
  }

  /** The email rule: required, then the whitelist test. */
  function EmailRule(email: string): (p: Option<Problem>)
    ensures p.None? <==> ValidateEmail(email)
  {
    if email == "" || !ValidateEmail(email) then Some(Missing) else None
  }

  /** The name, surname and city rule: at least two characters after
      trimming, then letters and whitespace only. */
  function NameRule(s: string): (p: Option<Problem>)
    ensures p.None? <==> |Trim(s)| >= 2 && Letters(s)
    ensures p == Some(Malformed) <==> |Trim(s)| >= 2 && !Letters(s)
  {
    if s == "" || |Trim(s)| < 2 then Some(Missing)
    else if !Letters(s) then Some(Malformed)
    else None
  }

  /** The street address rule: at least five characters after trimming. */
  function AddressRule(s: string): (p: Option<Problem>)
    ensures p.None? <==> |Trim(s)| >= 5
    ensures p != Some(Malformed)
  {
    if s == "" || |Trim(s)| < 5 then Some(Missing) else None
  }

  /** The postal code rule: required, then exactly five digits. */
  function PostalRule(s: string): (p: Option<Problem>)
    ensures p.None? <==> FiveDigits(s)
    ensures p == Some(Missing) <==> s == ""
  {
    if s == "" then Some(Missing)
    else if !FiveDigits(s) then Some(Malformed)
    else None
  }

  /** The phone rule: required, then the pattern on the stripped text. */
  function PhoneRule(s: string): (p: Option<Problem>)
    ensures p.None? <==> PhonePattern(CleanPhone(s))
    ensures p == Some(Missing) <==> s == ""
  {
    if s == "" then Some(Missing)
    else if !PhonePattern(CleanPhone(s)) then Some(Malformed)
    else None
  }

  /** `errors.<field> = message` when a rule reports a problem. */
  function Flag(m: map<Field, Problem>, field: Field, p: Option<Problem>): (r: map<Field, Problem>)
    ensures p.None? ==> r == m
    ensures p.Some? ==> r.Keys == m.Keys + {field} && r[field] == p.value
    ensures forall g :: g in m && g != field ==> r[g] == m[g]
  {
    if p.Some? then m[field := p.value] else m
  }

  /** The fields `validateForm` checks, in its order. */
  const CheckedFields: seq<Field> := [Email, Name, Surname, Address, City, PostalCode, Phone]

  /** What each of the seven rules reported. */
  datatype Outcomes = Outcomes(email: Option<Problem>, name: Option<Problem>, surname: Option<Problem>,
                               address: Option<Problem>, city: Option<Problem>, postal: Option<Problem>,
                               phone: Option<Problem>)

  /** The rules applied to the form's fields. */
  function Rules(f: FormData): Outcomes {
    Outcomes(EmailRule(f.email), NameRule(f.name), NameRule(f.surname), AddressRule(f.address),
             NameRule(f.city), PostalRule(f.postalCode), PhoneRule(f.phone))
  }

  /** What the rule for `field` reported; the card fields have no rule here. */
  function Outcome(o: Outcomes, field: Field): (p: Option<Problem>)
    ensures p.Some? ==> field in CheckedFields
  {
    match field
    case Email => o.email
    case Name => o.name
    case Surname => o.surname
    case Address => o.address
    case City => o.city
    case PostalCode => o.postal
    case Phone => o.phone
    case _ => None
  }

  /** One flag per field of `fields`, in order, each with its rule's
      outcome: a field ends up flagged when it was already or its rule
      failed, and a flagged field carries its rule's problem. */
  function FlagEach(m: map<Field, Problem>, fields: seq<Field>, o: Outcomes): (r: map<Field, Problem>)
    ensures forall g :: g in r <==> g in m || (g in fields && Outcome(o, g).Some?)
    ensures forall g :: g in r && g in fields && Outcome(o, g).Some? ==> r[g] == Outcome(o, g).value
    ensures forall g :: g in r && g !in fields ==> r[g] == m[g]
    decreases |fields|
  {
    if fields == [] then m
    else FlagEach(Flag(m, fields[0], Outcome(o, fields[0])), fields[1..], o)
  }

  /** `validateForm`: the rules run in the source's order, each flagging its
      own field. The card fields are skipped because the card is entered in
      the payment provider's own fields. */
  function ValidateForm(f: FormData): (errors: map<Field, Problem>)
    ensures forall g :: g in errors <==> Outcome(Rules(f), g).Some?
    ensures forall g :: g in errors ==> errors[g] == Outcome(Rules(f), g).value
    ensures CardNumber !in errors && Expiry !in errors && Cvv !in errors
  {
    FlagAll(Rules(f))
  }

  /** All seven flags, from nothing flagged. */
  function FlagAll(o: Outcomes): (errors: map<Field, Problem>)
    ensures forall g :: g in errors <==> Outcome(o, g).Some?
    ensures forall g :: g in errors ==> errors[g] == Outcome(o, g).value
    ensures CardNumber !in errors && Expiry !in errors && Cvv !in errors
  {
    FlagEach(map[], CheckedFields, o)
  }

  /** A form passes exactly when every field's rule holds: the address is
      on a listed domain; name, surname and city have two characters after
      trimming and only letters and whitespace; the street address has
      five; the postal code is five digits; and the phone, stripped of
      spaces, dashes and brackets, is an optional '+' and 9 to 15 digits. */
  lemma FormAccepted(f: FormData)
    ensures ValidateForm(f) == map[] <==>
      && ValidateEmail(f.email)
      && |Trim(f.name)| >= 2 && Letters(f.name)
      && |Trim(f.surname)| >= 2 && Letters(f.surname)
      && |Trim(f.address)| >= 5
      && |Trim(f.city)| >= 2 && Letters(f.city)
      && FiveDigits(f.postalCode)
      && PhonePattern(CleanPhone(f.phone))
  {
    NothingFlagged(Rules(f), ValidateForm(f));
    RulesPass(f);
  }

  /** No rule reported a problem. */
  predicate AllPass(o: Outcomes) {
    o.email.None? && o.name.None? && o.surname.None? && o.address.None?
    && o.city.None? && o.postal.None? && o.phone.None?
  }

  /** The flags are empty exactly when no rule reported a problem. */
  lemma NothingFlagged(o: Outcomes, e: map<Field, Problem>)
    requires forall g :: g in e <==> Outcome(o, g).Some?
    ensures e == map[] <==> AllPass(o)
  {
    if e == map[] {
      assert Email !in e && Name !in e && Surname !in e && Address !in e;
      assert City !in e && PostalCode !in e && Phone !in e;
    } else {
      var field :| field in e;
      assert Outcome(o, field).Some?;
    }
  }

  lemma RulesPass(f: FormData)
    ensures AllPass(Rules(f)) <==>
      && ValidateEmail(f.email)
      && |Trim(f.name)| >= 2 && Letters(f.name)
      && |Trim(f.surname)| >= 2 && Letters(f.surname)
      && |Trim(f.address)| >= 5
      && |Trim(f.city)| >= 2 && Letters(f.city)
      && FiveDigits(f.postalCode)
      && PhonePattern(CleanPhone(f.phone))
  {
  }

  // ---------------------------------------------------------------------
  // Formatters

  /** `value.replace(/\D/g, '')`. */
  function DigitsOf(s: string): (r: string)
    ensures AllDigits(r) && |r| <= |s|
    ensures AllDigits(s) ==> r == s
  {
    KeepChars(s, IsDigit)
  }

  /** `DigitsOf` keeps every digit of the input, as often as it occurs and
      in its order, and nothing else. */
  lemma DigitsOfKeepsDigits(s: string)
    ensures forall c :: multiset(DigitsOf(s))[c] == if IsDigit(c) then multiset(s)[c] else 0
    ensures IsSubsequence(DigitsOf(s), s)
  {
    KeepCharsIsFilter(s, IsDigit);
    FilterCounts(s, IsDigit);
    FilterOrder(s, IsDigit);
  }

  /** `s.match(/.{1,4}/g)?.join(' ') || s` on a digit string. */
  function GroupsOfFour(d: string): (r: string)
    requires AllDigits(d)
    ensures forall i :: 0 <= i < |r| ==> (r[i] == ' ' <==> i % 5 == 4)
    ensures forall i :: 0 <= i < |r| ==> r[i] == ' ' || IsDigit(r[i])
    ensures |r| == |d| + (if |d| == 0 then 0 else (|d| - 1) / 4)
    decreases |d|
  {
    if |d| <= 4 then d
    else
      var rest := GroupsOfFour(d[4..]);
      SpacedGroup(d[..4], rest);
      d[..4] + " " + rest
  }

  /** A group of four, a space, and groups spaced every fifth position keep
      the spaces every fifth position. */
  lemma SpacedGroup(head: string, rest: string)
    requires |head| == 4 && AllDigits(head)
    requires forall i :: 0 <= i < |rest| ==> (rest[i] == ' ' <==> i % 5 == 4)
    requires forall i :: 0 <= i < |rest| ==> rest[i] == ' ' || IsDigit(rest[i])
    ensures var r := head + " " + rest;
      forall i :: 0 <= i < |r| ==> (r[i] == ' ' <==> i % 5 == 4) && (r[i] == ' ' || IsDigit(r[i]))
  {
    var r := head + " " + rest;
    forall i | 0 <= i < |r|
      ensures (r[i] == ' ' <==> i % 5 == 4) && (r[i] == ' ' || IsDigit(r[i]))
    {
      if i < 4 {
        assert r[i] == head[i];
      } else if i > 4 {
        assert r[i] == rest[i - 5];
        assert (i - 5) % 5 == i % 5;
      }
    }
  }

  /** Dropping the spaces recovers the digits. */
  lemma {:induction false} GroupsOfFourDigits(d: string)
    requires AllDigits(d)
    ensures DigitsOf(GroupsOfFour(d)) == d
    decreases |d|
  {
    if |d| > 4 {
      GroupsOfFourDigits(d[4..]);
      KeepCharsAppend(d[..4] + " ", GroupsOfFour(d[4..]), IsDigit);
      KeepCharsAppend(d[..4], " ", IsDigit);
      assert d == d[..4] + d[4..];
    }
  }

  /** `formatCardNumber`: at most the first 16 digits, in groups of four. */
  function FormatCardNumber(value: string): (r: string)
    ensures |DigitsOf(value)| <= 16 ==> DigitsOf(r) == DigitsOf(value)
    ensures |DigitsOf(value)| > 16 ==> DigitsOf(r) == DigitsOf(value)[..16]
    ensures var n := if |DigitsOf(value)| <= 16 then |DigitsOf(value)| else 16;
      |r| == n + (if n == 0 then 0 else (n - 1) / 4)
    ensures |r| <= 19
    ensures forall i :: 0 <= i < |r| ==> (r[i] == ' ' <==> i % 5 == 4)
    ensures forall i :: 0 <= i < |r| && i % 5 != 4 ==> IsDigit(r[i])
  {
    var digits := DigitsOf(value);
    var limited := if |digits| <= 16 then digits else digits[..16];
    GroupsOfFourDigits(limited);
    GroupsOfFour(limited)
  }

  /** Formatting an already formatted number changes nothing. */
  lemma FormatCardNumberIdempotent(value: string)
    ensures FormatCardNumber(FormatCardNumber(value)) == FormatCardNumber(value)
  {
    var digits := DigitsOf(value);
    var limited := if |digits| <= 16 then digits else digits[..16];
    GroupsOfFourDigits(limited);
  }

  /** `formatExpiry`: two digits, '/', then up to two more. */
  function FormatExpiry(value: string): (r: string)
    ensures |DigitsOf(value)| < 2 ==> r == DigitsOf(value)
    ensures |DigitsOf(value)| >= 2 ==> |r| >= 3 && r[2] == '/' && r[..2] == DigitsOf(value)[..2]
    ensures |DigitsOf(value)| >= 2 ==>
      |r| == (if |DigitsOf(value)| < 4 then |DigitsOf(value)| + 1 else 5) && r[3..] == DigitsOf(value)[2..|r| - 1]
    ensures |r| <= 5
  {
    var d := DigitsOf(value);
    if |d| >= 2 then d[..2] + "/" + d[2..if |d| < 4 then |d| else 4] else d
  }

  /** Formatting an already formatted expiry changes nothing. */
  lemma FormatExpiryIdempotent(value: string)
    ensures FormatExpiry(FormatExpiry(value)) == FormatExpiry(value)
  {
    var d := DigitsOf(value);
    if |d| >= 2 {
      var tail := d[2..if |d| < 4 then |d| else 4];
      assert FormatExpiry(value) == d[..2] + "/" + tail;
      Reformat(d[..2], tail);
    }
  }

  /** A month, a '/' and up to two more digits are already formatted. */
  lemma Reformat(month: string, tail: string)
    requires |month| == 2 && |tail| <= 2 && AllDigits(month) && AllDigits(tail)
    ensures FormatExpiry(month + "/" + tail) == month + "/" + tail
  {
    var d := month + tail;
    DigitsAround(month, '/', tail);
    assert month + "/" + tail == month + ['/'] + tail;
    assert d[..2] == month && d[2..|d|] == tail;
  }

  /** Digits on both sides of a non-digit separator: dropping the
      non-digits joins them. */
  lemma DigitsAround(a: string, sep: char, b: string)
    requires AllDigits(a) && AllDigits(b) && !IsDigit(sep)
    ensures DigitsOf(a + [sep] + b) == a + b
  {
    KeepCharsAppend(a + [sep], b, IsDigit);
    KeepCharsAppend(a, [sep], IsDigit);
  }

  /** The characters a phone input may hold: `[\d\+\s\-\(\)]`. */
  predicate PhoneChar(c: char) {
    IsDigit(c) || c == '+' || IsWhitespace(c) || c == '-' || c == '(' || c == ')'
  }

  /** `formatPhone`: every other character is removed. */
  function FormatPhone(value: string): (r: string)
    ensures forall c :: multiset(r)[c] == if PhoneChar(c) then multiset(value)[c] else 0
    ensures IsSubsequence(r, value)
    ensures forall i :: 0 <= i < |r| ==> PhoneChar(r[i])
    ensures (forall i :: 0 <= i < |value| ==> PhoneChar(value[i])) ==> r == value
  {
    FilterCounts(value, PhoneChar);
    FilterOrder(value, PhoneChar);
    Filter(value, PhoneChar)
  }

  /** Formatting an already formatted phone number changes nothing. */
  lemma FormatPhoneIdempotent(value: string)
    ensures FormatPhone(FormatPhone(value)) == FormatPhone(value)
  {
  }
}

=== FILE: jsvalue.dfy ===
/** The JavaScript values that request bodies, provider replies and
    notification payloads carry, with the coercions the handlers rely on:
    truthiness, `a || b`, property access, `typeof x === 'object'`,
    `String(x)` and `Number(x)`. */
module JsValue {
  import opened Text
  import opened Numbers
  import opened Optional

  datatype Json =
    | Undefined
    | Null
    | Bool(b: bool)
    | Num(n: real)
    | Str(s: string)
    | Arr(elems: seq<Json>)
    | Obj(fields: map<string, Json>)

  /** JavaScript truthiness (NaN is not a value of this model). */
  predicate Truthy(v: Json) {
    match v
    case Undefined => false
    case Null => false
    case Bool(b) => b
    case Num(n) => n != 0.0
    case Str(s) => s != ""
    case Arr(_) => true
    case Obj(_) => true
  }

  /** `a || b`. */
  function Or(a: Json, b: Json): (r: Json)
    ensures Truthy(a) ==> r == a
    ensures !Truthy(a) ==> r == b
  {
    if Truthy(a) then a else b
  }

  /** `v[key]` (or `v?.[key]`) for a named key: an object's property, and
      `undefined` for every other value. */
  function Get(v: Json, key: string): (r: Json)
    ensures !v.Obj? ==> r == Undefined
  {
    match v
    case Obj(m) => if key in m then m[key] else Undefined
    case _ => Undefined
  }

  /** `v[i]` (or `v?.[i]`) for an index: an array element, or `undefined`. */
  function At(v: Json, i: nat): (r: Json)
    ensures !v.Arr? ==> r == Undefined
  {
    match v
    case Arr(xs) => if i < |xs| then xs[i] else Undefined
    case _ => Undefined
  }

  /** `typeof v === 'object'`: true of null, arrays and objects. */
  predicate IsObjectType(v: Json) {
    v.Null? || v.Arr? || v.Obj?
  }

  /** `String(v)`, also what a template literal does with `${v}`. */
  function ToJsString(v: Json): (s: string)
    ensures v.Str? ==> s == v.s
    decreases v, 1
  {
    match v
    case Undefined => "undefined"
    case Null => "null"
    case Bool(b) => if b then "true" else "false"
    case Num(n) => NumberToString(n)
    case Str(s) => s
    case Arr(xs) => JoinElements(v, xs)
    case Obj(_) => "[object Object]"
  }

  /** `Array.prototype.join(',')`: null and undefined elements print empty. */
  function JoinElements(whole: Json, xs: seq<Json>): string
    requires forall x :: x in xs ==> x < whole
    decreases whole, 0, |xs|
  {
    if xs == [] then ""
    else
      assert xs[0] in xs;
      assert forall x :: x in xs[1..] ==> x in xs;
      var first := if xs[0].Undefined? || xs[0].Null? then "" else ToJsString(xs[0]);
      if |xs| == 1 then first else first + "," + JoinElements(whole, xs[1..])
  }

  /** `Number(v)`; `None` is NaN. */
  function ToNumberValue(v: Json): (r: Option<real>)
    ensures v.Num? ==> r == Some(v.n)
    ensures v.Undefined? ==> r.None?
  {
    match v
    case Undefined => None
    case Null => Some(0.0)
    case Bool(b) => Some(if b then 1.0 else 0.0)
    case Num(n) => Some(n)
    case _ => ToNumber(ToJsString(v))
  }

  /** `parseFloat(String(v))`; `None` is NaN. */
  function ParseFloatValue(v: Json): Option<real> {
    ParseFloat(ToJsString(v))
  }

  /** A whole number survives `parseFloat(String(...))` unchanged. */
  lemma ParseFloatValueOfWhole(i: int)
    ensures ParseFloatValue(Num(i as real)) == Some(i as real)
  {
    NumberToStringOfInt(i);
    ParseFloatOfIntToString(i);
  }
}

/** Requests, responses and the Discord embed shape shared by the
    serverless handlers. A handler's calls to other services are returned
    as a list of requested effects; their replies are handler inputs. */
module Http {
  import opened JsValue

  /** An incoming request; `verb` is the HTTP method. */
  datatype Request = Request(verb: string, headers: map<string, string>, body: Json)

  datatype Body = Text(text: string) | JsonBody(json: Json)

  datatype Response<E> = Response(status: int, body: Body, effects: seq<E>)

  /** `req.body || {}`. */
  function BodyOf(req: Request): (r: Json)
    ensures !Truthy(req.body) ==> r == Obj(map[])
  {
    Or(req.body, Obj(map[]))
  }

  /** A named request field, `(req.body || {}).key`. */
  function Field(req: Request, key: string): Json {
    Get(BodyOf(req), key)
  }

  /** `{ error: message }`. */
  function ErrorBody(message: string): Body {
    JsonBody(Obj(map["error" := Str(message)]))
  }

  /** A request header as a JavaScript value (`undefined` when absent). */
  function Header(req: Request, name: string): Json {
    if name in req.headers then Str(req.headers[name]) else Undefined
  }

  /** One field of a Discord embed. */
  datatype EmbedField = EmbedField(name: string, value: Json, inline: bool)

  /** A Discord embed (its ISO timestamp is not modelled). */
  datatype Embed = Embed(title: string, color: int, fields: seq<EmbedField>)

  /** The status-405 reply every handler gives to a non-POST request. */
  predicate IsPost(req: Request) {
    req.verb == "POST"
  }
}

=== FILE: newsletter.dfy ===
/** The newsletter endpoint (`api/newsletter-subscribe.ts`): an address
    that has the shape of an email is, when Redis is configured, checked
    against and reserved in a shared store for a day, then forwarded to the
    shop's inbox through Resend and announced on Discord. The Redis, Resend
    and Discord calls are recorded as effects; what Redis and Resend answer
    is an input. */
module NewsletterSubscribe {
  import opened Optional
  import opened Text
  import opened JsValue
  import opened Http
  import CheckoutForm

  /** The environment variables the handler reads; `None` when unset. */
  datatype Config = Config(
    redisUrl: Option<string>,
    redisToken: Option<string>,
    resendKey: Option<string>,
    resendFrom: Option<string>,
    newsletterWebhook: Option<string>,
    discordWebhook: Option<string>)

  /** A variable that is set and not empty (JavaScript truthiness of a string). */
  predicate Present(v: Option<string>) {
    v.Some? && v.value != ""
  }

  /** Deduplication runs only with both the Redis URL and its token. */
  predicate RedisConfigured(c: Config) {
    Present(c.redisUrl) && Present(c.redisToken)
  }

  /** Where the Discord announcement goes. The built-in address is a
      credential written into the source and is not reproduced here. */
  datatype Target = Configured(url: string) | BuiltInFallback

  /** The newsletter channel, else the general channel, else the built-in one. */
  function WebhookTarget(c: Config): (t: Target)
    ensures Present(c.newsletterWebhook) ==> t == Configured(c.newsletterWebhook.value)
    ensures !Present(c.newsletterWebhook) && Present(c.discordWebhook) ==> t == Configured(c.discordWebhook.value)
    ensures t.BuiltInFallback? <==> !Present(c.newsletterWebhook) && !Present(c.discordWebhook)
    ensures t.Configured? ==> t.url != ""
  {
    if Present(c.newsletterWebhook) then Configured(c.newsletterWebhook.value)
    else if Present(c.discordWebhook) then Configured(c.discordWebhook.value)
    else BuiltInFallback
  }

  const DefaultSender: string := "onboarding@resend.dev"
  const ShopInbox: string := "kaleddovanos@gmail.com"
  const Subject: string := "Naujas naujienlai\U{0161}kio prenumeratorius"
  const MailPrefix: string := "Gautas naujas prenumeratos adresas: "
  const DuplicateMessage: string := "\U{0160}is el. pa\U{0161}tas jau u\U{017E}registruotas."
  const KeyPrefix: string := "nl:email:"
  const Color: int := 0x3498DB

  /** A reservation lasts a day. */
  const ReservationSeconds: int := 60 * 60 * 24

  /** The mail Resend is asked to send. */
  datatype Mail = Mail(from: string, to: seq<string>, subject: string, text: string)

  /** What a Redis REST call comes back with: its `ok` flag and its body
      parsed as JSON (`null` when the body is not JSON), or a thrown error. */
  datatype Reply = Answer(ok: bool, body: Json) | Threw

  /** What the Resend call comes back with. `details` is the error body
      parsed as JSON, or `{message: <the body text>}` when it is not JSON. */
  datatype Delivery = Accepted | Refused(details: Json) | Failed

  /** The answers the handler may receive, in call order. */
  datatype Replies = Replies(lookup: Reply, reserve: Reply, delivery: Delivery)

  /** The calls the handler makes. The Discord call's own outcome is
      ignored by the handler, so it is not an input. */
  datatype Effect =
    | Lookup(key: string)
    | Reserve(key: string, value: string, ttlSeconds: int)
    | SendMail(mail: Mail)
    | PostEmbed(target: Target, embed: Embed)

  /** The store key of a normalised address. */
  function Key(e: string): (k: string)
    ensures StartsWith(k, KeyPrefix) && k[|KeyPrefix|..] == e
  {
    KeyPrefix + e
  }

  /** The sender: `RESEND_FROM`, else Resend's onboarding address. */
  function FromAddress(c: Config): (s: string)
    ensures Present(c.resendFrom) ==> s == c.resendFrom.value
    ensures !Present(c.resendFrom) ==> s == DefaultSender
  {
    if Present(c.resendFrom) then c.resendFrom.value else DefaultSender
  }

  /** The mail to the shop's inbox announcing address `e`. */
  function MailFor(e: string, c: Config): (m: Mail)
    ensures m.to == [ShopInbox] && m.subject == Subject
    ensures StartsWith(m.text, MailPrefix) && m.text[|MailPrefix|..] == e
  {
    Mail(FromAddress(c), [ShopInbox], Subject, MailPrefix + e)
  }

  /** The Discord announcement: one field holding the address. */
  function Announcement(e: string): (b: Embed)
    ensures b.title == Subject && b.color == Color
    ensures |b.fields| == 1 && b.fields[0].value == Str(e) && !b.fields[0].inline
  {
    Embed(Subject, Color, [EmbedField("El. pa\U{0161}tas", Str(e), false)])
  }

  /** What `redisGet` resolves to, `None` when it throws: the stored
      `result` for an ok answer (`null` when there is none), and `null` for
      any other answer. */
  function LookupResult(reply: Reply): (r: Option<Json>)
    ensures r.None? <==> reply.Threw?
    ensures r.Some? ==> !r.value.Undefined?
    ensures r.Some? && Truthy(r.value) ==> reply.Answer? && reply.ok && r.value == Get(reply.body, "result")
    ensures reply.Answer? && reply.ok && Truthy(Get(reply.body, "result")) ==> r == Some(Get(reply.body, "result"))
  {
    match reply
    case Threw => None
    case Answer(ok, data) =>
      if !ok then Some(Null)
      else
        var v := Get(data, "result");
        Some(if v.Undefined? || v.Null? then Null else v)
  }

  /** What `redisSetNX` resolves to, `None` when it throws: true exactly
      for an ok answer whose `result` is the string "OK". */
  function Reserved(reply: Reply): (r: Option<bool>)
    ensures r.None? <==> reply.Threw?
    ensures r == Some(true) <==> reply.Answer? && reply.ok && Get(reply.body, "result") == Str("OK")
  {
    match reply
    case Threw => None
    case Answer(ok, data) => Some(ok && Get(data, "result") == Str("OK"))
  }

  /** `!email || !pattern.test(email)` fails: the value is truthy and its
      string form has the shape of an address. */
  predicate Acceptable(email: Json) {
    Truthy(email) && CheckoutForm.EmailShape(ToJsString(email))
  }

  /** `email.trim().toLowerCase()` of an accepted address: the pattern
      leaves no whitespace to trim, so only the case changes. */
  function Normalise(s: string): (e: string)
    requires CheckoutForm.EmailShape(s)
    ensures e == Lower(s)
  {
    Lower(Trim(s))
  }

  /** The reply to any error that reaches the outer `catch`. */
  function ServerError(effects: seq<Effect>): Response<Effect> {
    Response(500, ErrorBody("Server error"), effects)
  }

  function Duplicate(effects: seq<Effect>): Response<Effect> {
    Response(409, ErrorBody(DuplicateMessage), effects)
  }

  const OkBody: Body := JsonBody(Obj(map["ok" := Bool(true)]))

  /** The mail, and on success the announcement, after the calls `before`. */
  function Deliver(e: string, c: Config, delivery: Delivery, before: seq<Effect>): (r: Response<Effect>)
    ensures !Present(c.resendKey) ==> r == Response(500, ErrorBody("Missing RESEND_API_KEY"), before)
    ensures Present(c.resendKey) ==> |r.effects| > |before| && r.effects[..|before| + 1] == before + [SendMail(MailFor(e, c))]
    ensures r.status == 200 <==> Present(c.resendKey) && delivery.Accepted?
    ensures r.status == 200 ==> r == Response(200, OkBody, before + [SendMail(MailFor(e, c)), PostEmbed(WebhookTarget(c), Announcement(e))])
    ensures Present(c.resendKey) && delivery.Refused? ==>
      r == Response(502, JsonBody(Obj(map["error" := Str("Failed to deliver"), "details" := delivery.details])),
        before + [SendMail(MailFor(e, c))])
    ensures Present(c.resendKey) && delivery.Failed? ==>
      r == Response(500, ErrorBody("Server error"), before + [SendMail(MailFor(e, c))])
    ensures r.status != 200 ==> |r.effects| <= |before| + 1
    ensures r.status in {200, 500, 502}
    ensures |r.effects| >= |before| && r.effects[..|before|] == before
    ensures forall i | |before| <= i < |r.effects| :: r.effects[i].SendMail? || r.effects[i].PostEmbed?
  {
    if !Present(c.resendKey) then Response(500, ErrorBody("Missing RESEND_API_KEY"), before)
    else
      var sent := before + [SendMail(MailFor(e, c))];
      match delivery
      case Failed => ServerError(sent)
      case Refused(details) =>
        Response(502, JsonBody(Obj(map["error" := Str("Failed to deliver"), "details" := details])), sent)
      case Accepted => Response(200, OkBody, sent + [PostEmbed(WebhookTarget(c), Announcement(e))])
  }

  /** `redisGet` resolved to a truthy value: the address is already held. */
  predicate LookupHit(reply: Reply) {
    LookupResult(reply).Some? && Truthy(LookupResult(reply).value)
  }

  /** `redisGet` resolved to a falsy value: the address may be reserved. */
  predicate LookupClear(reply: Reply) {
    LookupResult(reply).Some? && !Truthy(LookupResult(reply).value)
  }

  /** The reservation call of a lookup that came back clear. */
  function Reservation(e: string): Effect {
    Reserve(Key(e), "1", ReservationSeconds)
  }

  /** Deduplication, then delivery, for the normalised address `e`. */
  function Subscribe(e: string, c: Config, replies: Replies): (r: Response<Effect>)
    ensures !RedisConfigured(c) ==> r == Deliver(e, c, replies.delivery, [])
    ensures RedisConfigured(c) ==> |r.effects| >= 1 && r.effects[0] == Lookup(Key(e))
    ensures RedisConfigured(c) ==> (LookupClear(replies.lookup) <==> |r.effects| >= 2)
    ensures RedisConfigured(c) && LookupClear(replies.lookup) ==> r.effects[1] == Reservation(e)
    ensures RedisConfigured(c) && LookupClear(replies.lookup) && Reserved(replies.reserve) == Some(true) ==>
      r == Deliver(e, c, replies.delivery, [Lookup(Key(e)), Reservation(e)])
    ensures r.status == 409 <==>
      (RedisConfigured(c) && (LookupHit(replies.lookup)
                              || (LookupClear(replies.lookup) && Reserved(replies.reserve) == Some(false))))
    ensures r.status == 409 ==> r.body == ErrorBody(DuplicateMessage)
    ensures RedisConfigured(c) && !(LookupClear(replies.lookup) && Reserved(replies.reserve) == Some(true)) ==>
      r.status in {409, 500} && |r.effects| <= 2
  {
    if !RedisConfigured(c) then Deliver(e, c, replies.delivery, [])
    else
      var key := Key(e);
      var looked := [Lookup(key)];
      match LookupResult(replies.lookup)
      case None => ServerError(looked)
      case Some(v) =>
        if Truthy(v) then Duplicate(looked)
        else
          var held := looked + [Reserve(key, "1", ReservationSeconds)];
          match Reserved(replies.reserve)
          case None => ServerError(held)
          case Some(ok) => if ok then Deliver(e, c, replies.delivery, held) else Duplicate(held)
  }

  /** The handler: 405 for anything but POST, 400 for a value that is not
      an address, 500 for an address that is not a string, then
      deduplication and delivery of the lower-cased address. */
  function Handle(req: Request, c: Config, replies: Replies): (r: Response<Effect>)
    ensures !IsPost(req) ==> r == Response(405, ErrorBody("Method not allowed"), [])
    ensures IsPost(req) ==> (r.status == 400 <==> !Acceptable(Field(req, "email")))
    ensures r.status == 400 ==> r == Response(400, ErrorBody("Invalid email"), [])
    ensures IsPost(req) && Acceptable(Field(req, "email")) && !Field(req, "email").Str? ==> r == ServerError([])
    ensures r.effects != [] ==>
      (IsPost(req) && Field(req, "email").Str? && CheckoutForm.EmailShape(Field(req, "email").s))
    ensures IsPost(req) && Acceptable(Field(req, "email")) && Field(req, "email").Str? ==>
      r == Subscribe(Lower(Field(req, "email").s), c, replies)
  {
    if !IsPost(req) then Response(405, ErrorBody("Method not allowed"), [])
    else
      var email := Field(req, "email");
      CheckoutForm.EmailPatternIsShape(ToJsString(email));
      if !Truthy(email) || !CheckoutForm.EmailPattern(ToJsString(email)) then Response(400, ErrorBody("Invalid email"), [])
      else if !email.Str? then ServerError([])
      else Subscribe(Normalise(email.s), c, replies)
  }

  /** A POST whose body is `{email: s}`. */
  function SignUp(s: string, headers: map<string, string>): Request {
    Request("POST", headers, Obj(map["email" := Str(s)]))
  }

  /** Without Redis nothing is looked up or reserved and nothing is refused
      as a duplicate; the same address may subscribe any number of times. */
  lemma NoRedisNoDeduplication(req: Request, c: Config, replies: Replies)
    requires !RedisConfigured(c)
    ensures var r := Handle(req, c, replies);
      r.status != 409 && forall i | 0 <= i < |r.effects| :: !r.effects[i].Lookup? && !r.effects[i].Reserve?
  {
    var email := Field(req, "email");
    if IsPost(req) && Acceptable(email) && email.Str? {
      NoRedisSubscribe(Lower(email.s), c, replies);
    }
  }

  lemma NoRedisSubscribe(e: string, c: Config, replies: Replies)
    requires !RedisConfigured(c)
    ensures var r := Subscribe(e, c, replies);
      r.status != 409 && forall i | 0 <= i < |r.effects| :: !r.effects[i].Lookup? && !r.effects[i].Reserve?
  {
    var d := Deliver(e, c, replies.delivery, []);
    assert Subscribe(e, c, replies) == d;
  }

  /** The mail is sent only with the Resend key, and with Redis only after
      a clear lookup and a confirmed reservation of the same address. */
  lemma MailOnlyAfterReservation(req: Request, c: Config, replies: Replies, i: nat)
    requires var r := Handle(req, c, replies); i < |r.effects| && r.effects[i].SendMail?
    ensures Present(c.resendKey)
    ensures RedisConfigured(c) ==>
      var r := Handle(req, c, replies);
      && i == 2 && r.effects[0] == Lookup(Key(Lower(Field(req, "email").s)))
      && r.effects[1] == Reservation(Lower(Field(req, "email").s))
      && LookupClear(replies.lookup) && Reserved(replies.reserve) == Some(true)
  {
    var email := Field(req, "email");
    assert Handle(req, c, replies) == Subscribe(Lower(email.s), c, replies);
    SubscribeMailsAfterReservation(Lower(email.s), c, replies, i);
  }

  lemma SubscribeMailsAfterReservation(e: string, c: Config, replies: Replies, i: nat)
    requires var r := Subscribe(e, c, replies); i < |r.effects| && r.effects[i].SendMail?
    ensures Present(c.resendKey)
    ensures RedisConfigured(c) ==>
      var r := Subscribe(e, c, replies);
      && i == 2 && r.effects[0] == Lookup(Key(e)) && r.effects[1] == Reservation(e)
      && LookupClear(replies.lookup) && Reserved(replies.reserve) == Some(true)
  {
    var r := Subscribe(e, c, replies);
    if !RedisConfigured(c) {
      var d := Deliver(e, c, replies.delivery, []);
      assert r == d;
    } else if LookupClear(replies.lookup) && Reserved(replies.reserve) == Some(true) {
      var d := Deliver(e, c, replies.delivery, [Lookup(Key(e)), Reservation(e)]);
      assert r == d;
      assert d.effects[..2] == [Lookup(Key(e)), Reservation(e)];
      assert d.effects[0] == Lookup(Key(e)) && d.effects[1] == Reservation(e);
    }
  }

  /** A success mails the lower-cased address to the shop's inbox, then
      announces it on Discord. */
  lemma SuccessDelivers(s: string, headers: map<string, string>, c: Config, replies: Replies)
    requires Handle(SignUp(s, headers), c, replies).status == 200
    ensures var r := Handle(SignUp(s, headers), c, replies);
      && r.body == OkBody
      && |r.effects| >= 2
      && r.effects[|r.effects| - 2] == SendMail(MailFor(Lower(s), c))
      && r.effects[|r.effects| - 1] == PostEmbed(WebhookTarget(c), Announcement(Lower(s)))
      && replies.delivery.Accepted?
  {
    var req := SignUp(s, headers);
    assert Field(req, "email") == Str(s);
    assert Handle(req, c, replies) == Subscribe(Lower(s), c, replies);
    SubscribeSucceeds(Lower(s), c, replies);
  }

  lemma SubscribeSucceeds(e: string, c: Config, replies: Replies)
    requires Subscribe(e, c, replies).status == 200
    ensures var r := Subscribe(e, c, replies);
      && r.body == OkBody
      && |r.effects| >= 2
      && r.effects[|r.effects| - 2] == SendMail(MailFor(e, c))
      && r.effects[|r.effects| - 1] == PostEmbed(WebhookTarget(c), Announcement(e))
      && replies.delivery.Accepted?
  {
    var before := if RedisConfigured(c) then [Lookup(Key(e)), Reservation(e)] else [];
    var d := Deliver(e, c, replies.delivery, before);
    assert Subscribe(e, c, replies) == d;
    assert d.effects == before + [SendMail(MailFor(e, c)), PostEmbed(WebhookTarget(c), Announcement(e))];
  }

  /** Every address the storefront's own form accepts passes the server's
      check and is deduplicated under its lower-cased form. */
  lemma ClientCheckedAddressAccepted(s: string, headers: map<string, string>, c: Config, replies: Replies)
    requires CheckoutForm.ValidateEmail(s)
    ensures Handle(SignUp(s, headers), c, replies) == Subscribe(Lower(s), c, replies)
  {
    HandleSignUp(s, headers, c, replies);
  }

  /** A sign-up with an address of the right shape goes to deduplication
      under its lower-cased form. */
  lemma HandleSignUp(s: string, headers: map<string, string>, c: Config, replies: Replies)
    requires CheckoutForm.EmailShape(s)
    ensures Handle(SignUp(s, headers), c, replies) == Subscribe(Lower(s), c, replies)
  {
    assert Field(SignUp(s, headers), "email") == Str(s);
  }

  /** A one-element array holding an address passes the pattern test, which
      reads its string form, and then fails on `trim`, so the reply is the
      generic server error rather than "Invalid email". */
  lemma WrappedAddressIsServerError(s: string, headers: map<string, string>, c: Config, replies: Replies)
    requires CheckoutForm.EmailShape(s)
    ensures Handle(Request("POST", headers, Obj(map["email" := Arr([Str(s)])])), c, replies) == ServerError([])
  {
    var v := Arr([Str(s)]);
    assert ToJsString(v) == JoinElements(v, [Str(s)]) == s;
    assert Field(Request("POST", headers, Obj(map["email" := v])), "email") == v;
  }

  /** The answers a working Redis holding `keys` gives about `key`. */
  function StoreReplies(keys: set<string>, key: string, delivery: Delivery): (rs: Replies)
    ensures key in keys ==> LookupHit(rs.lookup)
    ensures key !in keys ==> LookupClear(rs.lookup) && Reserved(rs.reserve) == Some(true)
    ensures rs.delivery == delivery
  {
    var held := key in keys;
    Replies(
      Answer(true, Obj(map["result" := if held then Str("1") else Null])),
      Answer(true, Obj(map["result" := if held then Null else Str("OK")])),
      delivery)
  }

  /** The keys that store holds after the calls `effects`. */
  function After(keys: set<string>, effects: seq<Effect>): (held: set<string>)
    ensures keys <= held
    ensures forall i | 0 <= i < |effects| && effects[i].Reserve? :: effects[i].key in held
  {
    keys + set i | 0 <= i < |effects| && effects[i].Reserve? :: effects[i].key
  }

  /** Against a working store, a sign-up is refused exactly when its key
      is held, and one that is not refused leaves its key held, whatever
      became of the mail. */
  lemma FirstSignUp(keys: set<string>, a: string, c: Config, d: Delivery, h: map<string, string>)
    requires RedisConfigured(c) && CheckoutForm.EmailShape(a)
    ensures var first := Handle(SignUp(a, h), c, StoreReplies(keys, Key(Lower(a)), d));
      && (first.status == 409 <==> Key(Lower(a)) in keys)
      && (first.status != 409 ==> Key(Lower(a)) in After(keys, first.effects))
  {
    var e := Lower(a);
    HandleSignUp(a, h, c, StoreReplies(keys, Key(e), d));
    SubscribeAgainstStore(keys, e, c, d);
  }

  lemma SubscribeAgainstStore(keys: set<string>, e: string, c: Config, d: Delivery)
    requires RedisConfigured(c)
    ensures var r := Subscribe(e, c, StoreReplies(keys, Key(e), d));
      && (r.status == 409 <==> Key(e) in keys)
      && (r.status != 409 ==> Key(e) in After(keys, r.effects))
  {
    var r := Subscribe(e, c, StoreReplies(keys, Key(e), d));
    if Key(e) !in keys {
      assert r.effects[1] == Reservation(e);
    }
  }

  /** Against a working store, every later sign-up of the same address in
      any letter case is refused once a first one got past deduplication. */
  lemma RepeatRefused(keys: set<string>, a: string, b: string, c: Config,
                      d1: Delivery, d2: Delivery, h1: map<string, string>, h2: map<string, string>)
    requires RedisConfigured(c)
    requires CheckoutForm.EmailShape(a) && CheckoutForm.EmailShape(b) && Lower(a) == Lower(b)
    ensures var first := Handle(SignUp(a, h1), c, StoreReplies(keys, Key(Lower(a)), d1));
      first.status != 409 ==>
        Handle(SignUp(b, h2), c, StoreReplies(After(keys, first.effects), Key(Lower(b)), d2)).status == 409
  {
    var first := Handle(SignUp(a, h1), c, StoreReplies(keys, Key(Lower(a)), d1));
    FirstSignUp(keys, a, c, d1, h1);
    if first.status != 409 {
      FirstSignUp(After(keys, first.effects), b, c, d2, h2);
    }
  }
}

=== FILE: notify.dfy ===
/** The order notification relay (`api/notify-discord.ts`): it validates a
    payload posted by either payment webhook, formats it as one Discord
    embed and posts that embed to the configured webhook. */
module NotifyDiscord {
  import opened Optional
  import opened Text
  import opened Numbers
  import opened JsValue
  import opened Http
  import opened Seqs

  /** Where the embed goes: the configured webhook address, or the one
      built into the handler when none is configured (its address is a
      credential and is not reproduced here). */
  datatype Target = Configured(url: string) | BuiltInFallback

  /** The one call the handler makes. */
  datatype Effect = PostEmbed(target: Target, embed: Embed)

  /** How the webhook call ends: it resolves (whatever the status), or it
      throws. */
  datatype Delivery = Delivered | Threw

  /** `process.env.DISCORD_WEBHOOK_URL || FALLBACK_WEBHOOK`. */
  function WebhookTarget(configured: Option<string>): (t: Target)
    ensures t.Configured? <==> configured.Some? && configured.value != ""
    ensures t.Configured? ==> t.url == configured.value
  {
    if configured.Some? && configured.value != "" then Configured(configured.value) else BuiltInFallback
  }

  /** Two spellings of the embed's special characters. The handler's source
      writes the spacer as '\\u200B' and the line break as '\\n'; in a
      JavaScript string literal a doubled backslash is one literal
      backslash, so those are the six characters `\u200B` and the two
      characters `\n`. The evident intent (and what the Stripe webhook
      writes for its own spacer) is the zero-width space and a line feed. */
  datatype Spelling = AsWritten | Intended

  /** The name and value of the blank spacer field. */
  function Spacer(sp: Spelling): string {
    match sp
    case AsWritten => "\\u200B"
    case Intended => "\U{200B}"
  }

  /** The separator between item lines. */
  function LineBreak(sp: Spelling): string {
    match sp
    case AsWritten => "\\n"
    case Intended => "\n"
  }

  const PaypalColor: int := 0xF1C40F
  const StripeColor: int := 0x2ECC71
  const PaypalTitle: string := "\U{1F7E1} Naujas PayPal u\U{017E}sakymas (Apmok\U{0117}ta)"
  const StripeTitle: string := "\U{1F4B3} Naujas Stripe u\U{017E}sakymas (Apmok\U{0117}ta)"

  /** The destructured request body, with its defaults: `items = []` and
      `customer = {}` apply only when the property is `undefined`. */
  datatype Payload = Payload(provider: Json, orderNumber: Json, total: Json, items: Json, customer: Json)

  function ReadPayload(req: Request): (p: Payload)
    ensures Field(req, "items").Undefined? ==> p.items == Arr([])
    ensures !Field(req, "items").Undefined? ==> p.items == Field(req, "items")
    ensures Field(req, "customer").Undefined? ==> p.customer == Obj(map[])
    ensures !Field(req, "customer").Undefined? ==> p.customer == Field(req, "customer")
  {
    var items := Field(req, "items");
    var customer := Field(req, "customer");
    Payload(
      Field(req, "provider"),
      Field(req, "orderNumber"),
      Field(req, "total"),
      if items.Undefined? then Arr([]) else items,
      if customer.Undefined? then Obj(map[]) else customer)
  }

  /** The 400 test: a truthy total and a customer that is an object or an
      array. */
  predicate ValidPayload(p: Payload) {
    Truthy(p.total) && Truthy(p.customer) && IsObjectType(p.customer)
  }

  predicate Nullish(v: Json) {
    v.Undefined? || v.Null?
  }

  /** The item list is formatted only when it is a non-empty array. */
  predicate Listed(items: Json) {
    items.Arr? && items.elems != []
  }

  /** Formatting reads `it.name` of every listed item, which throws on a
      `null` or `undefined` item. */
  predicate ItemsReadable(items: Json) {
    Listed(items) ==> forall i :: 0 <= i < |items.elems| ==> !Nullish(items.elems[i])
  }

  /** `it.quantity || 1`. */
  function Quantity(it: Json): Json {
    Or(Get(it, "quantity"), Num(1.0))
  }

  /** `(Number(it.price) * Number(it.quantity || 1)).toFixed(2)`, with "NaN"
      when either factor is not a number. */
  function LineAmount(it: Json): (s: string)
    ensures ToNumberValue(Get(it, "price")).None? ==> s == "NaN"
    ensures ToNumberValue(Quantity(it)).None? ==> s == "NaN"
    ensures ToNumberValue(Get(it, "price")).Some? && ToNumberValue(Quantity(it)).Some? ==>
      s == ToFixed2(ToNumberValue(Get(it, "price")).value * ToNumberValue(Quantity(it)).value)
  {
    var p := ToNumberValue(Get(it, "price"));
    var q := ToNumberValue(Quantity(it));
    if p.Some? && q.Some? then ProductText(p.value, q.value) else "NaN"
  }

  /** `(price * quantity).toFixed(2)`. */
  function ProductText(price: real, quantity: real): string {
    ToFixed2(price * quantity)
  }

  /** A price of whole cents times a whole quantity is shown exactly: the
      line amount is the cents of the product, with two decimals. */
  lemma ProductTextOfCents(cents: nat, quantity: nat, total: nat)
    requires total == cents * quantity
    ensures ProductText(cents as real / 100.0, quantity as real) == FixedCents(total)
  {
    CentsTimes(cents, quantity);
    ProductTextAt(cents as real / 100.0, quantity as real, total);
  }

  /** `(price * quantity).toFixed(2)` of a product worth whole cents. */
  lemma ProductTextAt(price: real, quantity: real, total: nat)
    requires price * quantity == total as real / 100.0
    ensures ProductText(price, quantity) == FixedCents(total)
  {
    var x := price * quantity;
    ToFixed2At(x, total);
  }

  lemma CentsTimes(cents: nat, quantity: nat)
    ensures (cents as real / 100.0) * (quantity as real) == (cents * quantity) as real / 100.0
  {
    var x := cents as real / 100.0;
    assert x * 100.0 == cents as real;
    assert (x * quantity as real) * 100.0 == (cents * quantity) as real;
  }

  /** `• name × quantity — €amount`. */
  function ItemLine(it: Json): string {
    "• " + ToJsString(Get(it, "name")) + " × " + ToJsString(Quantity(it)) + " — €" + LineAmount(it)
  }

  function ItemLines(xs: seq<Json>): (lines: seq<string>)
    ensures |lines| == |xs|
    ensures forall i :: 0 <= i < |xs| ==> lines[i] == ItemLine(xs[i])
  {
    if xs == [] then [] else [ItemLine(xs[0])] + ItemLines(xs[1..])
  }

  /** The 'Prekės' field: one line per item, or "-" for no list. */
  function ItemsText(items: Json, sp: Spelling): (s: string)
    ensures !Listed(items) ==> s == "-"
    ensures Listed(items) ==> s == Join(ItemLines(items.elems), LineBreak(sp))
  {
    if Listed(items) then Join(ItemLines(items.elems), LineBreak(sp)) else "-"
  }

  /** `it.selectedColor || it.color || it.colour`. */
  function ColorOf(it: Json): Json {
    Or(Or(Get(it, "selectedColor"), Get(it, "color")), Get(it, "colour"))
  }

  /** An item with a colour to show. */
  predicate Colored(it: Json) {
    Truthy(ColorOf(it))
  }

  function ColorLine(it: Json): string {
    "• " + ToJsString(Get(it, "name")) + ": " + ToJsString(ColorOf(it))
  }

  /** The non-empty colour lines, in item order: `map` to a line or `''`,
      then `filter(Boolean)`, is one line per coloured item. */
  function ColorLines(xs: seq<Json>): (lines: seq<string>)
    ensures |lines| <= |xs|
    ensures lines == [] <==> forall i :: 0 <= i < |xs| ==> !Colored(xs[i])
    ensures forall i :: 0 <= i < |lines| ==> |lines[i]| > 0 && lines[i][0] == '•'
  {
    if xs == [] then []
    else if Colored(xs[0]) then [ColorLine(xs[0])] + ColorLines(xs[1..])
    else
      assert forall i :: 1 <= i < |xs| ==> xs[i] == xs[1..][i - 1];
      ColorLines(xs[1..])
  }

  /** The colour lines are the coloured items, in order, each as its line. */
  lemma {:induction false} ColorLinesOfColored(xs: seq<Json>)
    ensures var colored := Filter(xs, Colored);
      |ColorLines(xs)| == |colored| && forall i :: 0 <= i < |colored| ==> ColorLines(xs)[i] == ColorLine(colored[i])
    decreases |xs|
  {
    if xs != [] {
      ColorLinesOfColored(xs[1..]);
      if Colored(xs[0]) {
        assert Filter(xs, Colored) == [xs[0]] + Filter(xs[1..], Colored);
      }
    }
  }

  /** A joined text begins with the first line's first character. */
  lemma {:induction false} JoinStartsWith(lines: seq<string>, sep: string)
    requires lines != [] && lines[0] != ""
    ensures Join(lines, sep) != "" && Join(lines, sep)[0] == lines[0][0]
  {
    if |lines| > 1 {
      assert Join(lines, sep) == lines[0] + sep + Join(lines[1..], sep);
    }
  }

  /** The 'Spalva' field: the colour lines, or "-" when there are none. */
  function ColorsText(items: Json, sp: Spelling): (s: string)
    ensures s == "-" <==> !Listed(items) || (forall i :: 0 <= i < |items.elems| ==> !Truthy(ColorOf(items.elems[i])))
    ensures s != "-" ==> s == Join(ColorLines(items.elems), LineBreak(sp))
  {
    if Listed(items) then
      var lines := ColorLines(items.elems);
      var joined := Join(lines, LineBreak(sp));
      if lines == [] then "-"
      else
        JoinStartsWith(lines, LineBreak(sp));
        joined
    else "-"
  }

  /** `${address || '-'}, ${city || ''} ${postalCode || ''}`: the address
      (or a dash), a comma, the city, a space and the postal code. */
  function AddressLine(customer: Json): (s: string)
    ensures Truthy(Get(customer, "address")) ==> StartsWith(s, ToJsString(Get(customer, "address")) + ", ")
    ensures !Truthy(Get(customer, "address")) ==> StartsWith(s, "-, ")
    ensures Truthy(Get(customer, "postalCode")) ==> EndsWith(s, " " + ToJsString(Get(customer, "postalCode")))
    ensures !Truthy(Get(customer, "postalCode")) ==> EndsWith(s, " ")
    ensures var head := |ToJsString(Or(Get(customer, "address"), Str("-")))| + 2;
      var tail := 1 + |ToJsString(Or(Get(customer, "postalCode"), Str("")))|;
      head + tail <= |s| && s[head..|s| - tail] == ToJsString(Or(Get(customer, "city"), Str("")))
  {
    var head := ToJsString(Or(Get(customer, "address"), Str("-"))) + ", ";
    var city := ToJsString(Or(Get(customer, "city"), Str("")));
    var tail := " " + ToJsString(Or(Get(customer, "postalCode"), Str("")));
    assert (head + city + tail)[..|head|] == head;
    assert (head + city + tail)[|head + city|..] == tail;
    assert (head + city + tail)[|head|..|head + city|] == city;
    head + city + tail
  }

  /** A customer field: the customer's value when it is truthy, otherwise
      a dash. */
  predicate ShowsOrDash(f: EmbedField, name: string, v: Json, inline: bool) {
    f.name == name && f.inline == inline && (Truthy(v) ==> f.value == v) && (!Truthy(v) ==> f.value == Str("-"))
  }

  /** The order fields, before the item and colour fields. */
  function OrderFields(p: Payload, sp: Spelling): (fs: seq<EmbedField>)
    ensures var o := if Truthy(p.orderNumber) then 1 else 0;
      && |fs| == o + 7
      && (o == 1 ==> fs[0] == EmbedField("U\U{017E}sakymo numeris", Str(ToJsString(p.orderNumber)), true))
      && fs[o] == EmbedField("Suma", Str("€" + ToJsString(p.total)), true)
      && fs[o + 1] == EmbedField(Spacer(sp), Str(Spacer(sp)), false)
      && ShowsOrDash(fs[o + 2], "Vardas", Get(p.customer, "name"), true)
      && ShowsOrDash(fs[o + 3], "Pavardė", Get(p.customer, "surname"), true)
      && ShowsOrDash(fs[o + 4], "El. paštas", Get(p.customer, "email"), false)
      && ShowsOrDash(fs[o + 5], "Telefonas", Get(p.customer, "phone"), false)
      && fs[o + 6] == EmbedField("Adresas", Str(AddressLine(p.customer)), false)
  {
    (if Truthy(p.orderNumber) then [EmbedField("U\U{017E}sakymo numeris", Str(ToJsString(p.orderNumber)), true)] else [])
    + [ EmbedField("Suma", Str("€" + ToJsString(p.total)), true),
        EmbedField(Spacer(sp), Str(Spacer(sp)), false),
        EmbedField("Vardas", Or(Get(p.customer, "name"), Str("-")), true),
        EmbedField("Pavardė", Or(Get(p.customer, "surname"), Str("-")), true),
        EmbedField("El. paštas", Or(Get(p.customer, "email"), Str("-")), false),
        EmbedField("Telefonas", Or(Get(p.customer, "phone"), Str("-")), false),
        EmbedField("Adresas", Str(AddressLine(p.customer)), false) ]
  }

  /** The embed: PayPal's colour and title for provider "paypal", Stripe's
      for anything else; an order-number field only for a truthy order
      number; the total, the spacer, the customer's name, surname, email
      and phone (a dash for each one missing) and address line; the items
      and colours last. */
  function BuildEmbed(p: Payload, sp: Spelling): (e: Embed)
    ensures e.color == PaypalColor <==> p.provider == Str("paypal")
    ensures e.title == PaypalTitle <==> p.provider == Str("paypal")
    ensures p.provider != Str("paypal") ==> e.color == StripeColor && e.title == StripeTitle
    ensures |e.fields| == (if Truthy(p.orderNumber) then 10 else 9)
    ensures Truthy(p.orderNumber) <==> e.fields[0].name == "U\U{017E}sakymo numeris"
    ensures Truthy(p.orderNumber) ==> e.fields[0].value == Str(ToJsString(p.orderNumber))
    ensures var o := if Truthy(p.orderNumber) then 1 else 0;
      && e.fields[o] == EmbedField("Suma", Str("€" + ToJsString(p.total)), true)
      && ShowsOrDash(e.fields[o + 2], "Vardas", Get(p.customer, "name"), true)
      && ShowsOrDash(e.fields[o + 3], "Pavardė", Get(p.customer, "surname"), true)
      && ShowsOrDash(e.fields[o + 4], "El. paštas", Get(p.customer, "email"), false)
      && ShowsOrDash(e.fields[o + 5], "Telefonas", Get(p.customer, "phone"), false)
      && e.fields[o + 6] == EmbedField("Adresas", Str(AddressLine(p.customer)), false)
    ensures e.fields[|e.fields| - 2] == EmbedField("Prekės", Str(ItemsText(p.items, sp)), false)
    ensures e.fields[|e.fields| - 1] == EmbedField("Spalva", Str(ColorsText(p.items, sp)), false)
  {
    var paypal := p.provider == Str("paypal");
    Embed(
      if paypal then PaypalTitle else StripeTitle,
      if paypal then PaypalColor else StripeColor,
      OrderFields(p, sp) + [ EmbedField("Prekės", Str(ItemsText(p.items, sp)), false),
                            EmbedField("Spalva", Str(ColorsText(p.items, sp)), false) ])
  }

  /** The handler for one request, with the given spelling of the special
      characters: 405 for anything but POST, 400 for an invalid payload, 500
      when formatting or the webhook call throws, otherwise one embed posted
      and `{ ok: true }`. */
  function Respond(req: Request, configured: Option<string>, delivery: Delivery, sp: Spelling): (r: Response<Effect>)
    ensures !IsPost(req) ==> r == Response(405, ErrorBody("Method not allowed"), [])
    ensures IsPost(req) && !ValidPayload(ReadPayload(req)) ==> r == Response(400, ErrorBody("Invalid payload"), [])
    ensures r.effects != [] <==> IsPost(req) && ValidPayload(ReadPayload(req)) && ItemsReadable(ReadPayload(req).items)
    ensures r.effects != [] ==> r.effects == [PostEmbed(WebhookTarget(configured), BuildEmbed(ReadPayload(req), sp))]
    ensures r.status == 200 <==> r.effects != [] && delivery == Delivered
    ensures r.status == 200 ==> r.body == JsonBody(Obj(map["ok" := Bool(true)]))
    ensures IsPost(req) && ValidPayload(ReadPayload(req)) && r.status != 200 ==> r == Response(500, ErrorBody("Failed to notify"), r.effects)
  {
    if !IsPost(req) then Response(405, ErrorBody("Method not allowed"), [])
    else
      var p := ReadPayload(req);
      if !ValidPayload(p) then Response(400, ErrorBody("Invalid payload"), [])
      else if !ItemsReadable(p.items) then Response(500, ErrorBody("Failed to notify"), [])
      else
        var effects := [PostEmbed(WebhookTarget(configured), BuildEmbed(p, sp))];
        match delivery
        case Threw => Response(500, ErrorBody("Failed to notify"), effects)
        case Delivered => Response(200, JsonBody(Obj(map["ok" := Bool(true)])), effects)
  }

  predicate NoLineFeed(s: string) {
    '\n' !in s
  }

  /** With the intended spelling the item lines can be read back from the
      'Prekės' field: splitting it at line feeds gives one line per item. */
  lemma ItemLinesRecoverable(items: Json)
    requires Listed(items)
    requires forall i :: 0 <= i < |items.elems| ==> NoLineFeed(ItemLine(items.elems[i]))
    ensures Split(ItemsText(items, Intended), '\n') == ItemLines(items.elems)
  {
    var lines := ItemLines(items.elems);
    assert forall i :: 0 <= i < |lines| ==> '\n' !in lines[i] by {
      forall i | 0 <= i < |lines| ensures '\n' !in lines[i] {
        assert NoLineFeed(ItemLine(items.elems[i]));
      }
    }
    SplitJoin(lines, '\n');
  }

  /** With the intended spelling the spacer field is a single zero-width
      space, the same spacer the Stripe webhook writes. */
  lemma SpacerIntended(p: Payload)
    ensures var e := BuildEmbed(p, Intended);
      var k := if Truthy(p.orderNumber) then 2 else 1;
      e.fields[k].name == "\U{200B}" && |e.fields[k].name| == 1
  {
  }

  /** As written, the spacer field is titled with the six visible
      characters `\u200B` rather than an invisible one. */
  lemma SpacerAsWritten(p: Payload)
    ensures var e := BuildEmbed(p, AsWritten);
      var k := if Truthy(p.orderNumber) then 2 else 1;
      |e.fields[k].name| == 6 && e.fields[k].name[0] == '\\' && e.fields[k].name != "\U{200B}"
  {
  }

  /** As written, two item lines without line feeds are joined by a
      backslash and an `n`, so the 'Prekės' field shows them on one line:
      splitting it at line feeds gives one piece, not two. */
  lemma ItemLinesRunTogetherAsWritten(a: Json, b: Json)
    requires NoLineFeed(ItemLine(a)) && NoLineFeed(ItemLine(b))
    ensures var s := ItemsText(Arr([a, b]), AsWritten);
      |Split(s, '\n')| == 1 && |ItemLines([a, b])| == 2
  {
    var s := ItemsText(Arr([a, b]), AsWritten);
    var lines := ItemLines([a, b]);
    assert lines == [ItemLine(a), ItemLine(b)];
    assert lines[1..] == [ItemLine(b)];
    assert Join(lines[1..], "\\n") == ItemLine(b);
    assert Listed(Arr([a, b])) && LineBreak(AsWritten) == "\\n";
    assert s == Join(lines, "\\n");
    assert s == ItemLine(a) + "\\n" + ItemLine(b);
    assert '\n' !in s;
    assert IndexOf(s, '\n') == |s|;
  }
}

=== FILE: numbers.dfy ===
/** Decimal text for numbers: digit strings, `toFixed(2)`, `String(n)`, and
    the `Number(s)` / `parseFloat(s)` conversions the handlers apply to
    request fields. Numbers are exact reals; IEEE-754 rounding is not
    modelled. */
module Numbers {
  import opened Text
  import opened Optional

  function DigitChar(d: nat): (c: char)
    requires d < 10
    ensures IsDigit(c)
  {
    ['0', '1', '2', '3', '4', '5', '6', '7', '8', '9'][d]
  }

  function DigitValue(c: char): (d: nat)
    requires IsDigit(c)
    ensures d < 10
  {
    c as int - '0' as int
  }

  lemma DigitRoundTrip(d: nat)
    requires d < 10
    ensures DigitValue(DigitChar(d)) == d
  {
  }

  /** Decimal digits of `n`, most significant first, without leading zeros. */
  function NatToString(n: nat): (s: string)
    ensures |s| >= 1
    ensures AllDigits(s)
    decreases n
  {
    if n < 10 then [DigitChar(n)] else NatToString(n / 10) + [DigitChar(n % 10)]
  }

  /** The value of a string of decimal digits. */
  function DigitsValue(s: string): (n: nat)
    requires AllDigits(s)
    decreases |s|
  {
    if s == [] then 0 else DigitsValue(s[..|s| - 1]) * 10 + DigitValue(s[|s| - 1])
  }

  /** Reading back the digits of `n` gives `n`. */
  lemma {:induction false} DigitsValueOfNatToString(n: nat)
    ensures DigitsValue(NatToString(n)) == n
    decreases n
  {
    var s := NatToString(n);
    if n < 10 {
      DigitRoundTrip(n);
    } else {
      DigitsValueOfNatToString(n / 10);
      assert s[..|s| - 1] == NatToString(n / 10);
      DigitRoundTrip(n % 10);
    }
  }

  /** `String(i)` for an integer. */
  function IntToString(i: int): (s: string)
    ensures |s| >= 1
  {
    if i < 0 then "-" + NatToString(-i) else NatToString(i)
  }

  function Pow10(k: nat): (p: nat)
    ensures p >= 1
  {
    if k == 0 then 1 else 10 * Pow10(k - 1)
  }

  /** `m` written with exactly `width` digits, zero-padded on the left. */
  function PadDigits(m: nat, width: nat): (s: string)
    requires m < Pow10(width)
    ensures |s| == width
    ensures AllDigits(s)
    decreases width
  {
    if width == 0 then []
    else
      DivBound(m, Pow10(width - 1));
      PadDigits(m / 10, width - 1) + [DigitChar(m % 10)]
  }

  lemma DivBound(m: nat, p: nat)
    requires m < 10 * p
    ensures m / 10 < p
  {
  }

  lemma {:induction false} DigitsValueOfPadDigits(m: nat, width: nat)
    requires m < Pow10(width)
    ensures DigitsValue(PadDigits(m, width)) == m
    decreases width
  {
    if width > 0 {
      var s := PadDigits(m, width);
      var init := PadDigits(m / 10, width - 1);
      assert s == init + [DigitChar(m % 10)];
      DigitsValueOfPadDigits(m / 10, width - 1);
      assert s[..|s| - 1] == init;
      DigitRoundTrip(m % 10);
      assert DigitsValue(s) == DigitsValue(init) * 10 + m % 10;
    }
  }

  /** A non-negative whole number of cents as euros with exactly two decimals. */
  function FixedCents(n: nat): (s: string)
    ensures |s| >= 4
    ensures s[|s| - 3] == '.'
  {
    NatToString(n / 100) + "." + PadDigits(n % 100, 2)
  }

  /** `x.toFixed(2)`: the nearest multiple of 0.01 (ties away from zero for
      positive numbers, as the algorithm picks the larger candidate), with a
      leading '-' for a negative `x`. */
  function ToFixed2(x: real): string {
    if x < 0.0 then "-" + FixedCents(HalfUpCents(-x))
    else FixedCents(HalfUpCents(x))
  }

  /** The whole number of cents nearest to `x` euros, ties upward. */
  function HalfUpCents(x: real): nat
    requires x >= 0.0
  {
    (x * 100.0 + 0.5).Floor
  }

  /** For a whole number of cents, `toFixed(2)` of the euro value shows
      exactly those cents. */
  lemma ToFixed2OfCents(c: nat)
    ensures ToFixed2(c as real / 100.0) == FixedCents(c)
  {
    HalfUpCentsWhole(c);
    ToFixed2Of(c as real / 100.0, c);
  }

  /** For a negative whole number of cents, the same text after a '-'. */
  /** `toFixed(2)` of any value worth a whole number of cents. */
  lemma ToFixed2At(x: real, c: nat)
    requires x == c as real / 100.0
    ensures ToFixed2(x) == FixedCents(c)
  {
    ToFixed2OfCents(c);
  }

  lemma ToFixed2Negative(c: int, m: nat)
    requires c < 0 && m == -c
    ensures ToFixed2(c as real / 100.0) == "-" + FixedCents(m)
  {
    NegatedCents(c, m);
    HalfUpCentsWhole(m);
    ToFixed2Of(c as real / 100.0, m);
  }

  /** `toFixed(2)` in terms of the rounded cents of the magnitude. */
  lemma ToFixed2Of(x: real, m: nat)
    requires if x < 0.0 then HalfUpCents(-x) == m else HalfUpCents(x) == m
    ensures ToFixed2(x) == if x < 0.0 then "-" + FixedCents(m) else FixedCents(m)
  {
  }

  lemma NegatedCents(c: int, m: nat)
    requires m == -c
    ensures -(c as real / 100.0) == m as real / 100.0
  {
  }

  lemma HalfUpCentsWhole(c: nat)
    ensures HalfUpCents(c as real / 100.0) == c
  {
    assert c as real / 100.0 * 100.0 == c as real;
  }

  /** Length of the longest prefix of ASCII digits. */
  function DigitRun(s: string): (n: nat)
    ensures n <= |s|
    ensures AllDigits(s[..n])
    ensures n < |s| ==> !IsDigit(s[n])
  {
    if s == [] || !IsDigit(s[0]) then 0
    else
      var k := 1 + DigitRun(s[1..]);
      assert s[..k] == [s[0]] + s[1..][..k - 1];
      k
  }

  lemma {:induction false} DigitRunPrefix(d: string, rest: string)
    requires AllDigits(d)
    requires rest == [] || !IsDigit(rest[0])
    ensures DigitRun(d + rest) == |d|
    decreases |d|
  {
    if d != [] {
      assert (d + rest)[1..] == d[1..] + rest;
      DigitRunPrefix(d[1..], rest);
    } else {
      assert d + rest == rest;
    }
  }

  /** The longest prefix of `s` that is an unsigned decimal literal without
      exponent (`12`, `12.`, `12.5`, `.5`): its value and its length. */
  function ScanUnsigned(s: string): (r: Option<(real, nat)>)
    ensures r.Some? ==> 1 <= r.value.1 <= |s| && r.value.0 >= 0.0
  {
    var a := DigitRun(s);
    if a < |s| && s[a] == '.' then
      var rest := s[a + 1..];
      var b := DigitRun(rest);
      if a == 0 && b == 0 then None
      else Some((DecimalValue(s[..a], rest[..b]), a + 1 + b))
    else if a == 0 then None
    else Some((DigitsValue(s[..a]) as real, a))
  }

  /** The value of the literal `whole.frac`. */
  function DecimalValue(whole: string, frac: string): (v: real)
    requires AllDigits(whole) && AllDigits(frac)
    ensures v >= 0.0
  {
    DigitsValue(whole) as real + DigitsValue(frac) as real / Pow10(|frac|) as real
  }

  /** As `ScanUnsigned`, after an optional '+' or '-'. */
  function ScanSigned(s: string): (r: Option<(real, nat)>)
    ensures r.Some? ==> 1 <= r.value.1 <= |s|
  {
    if |s| > 0 && (s[0] == '-' || s[0] == '+') then
      match ScanUnsigned(s[1..])
      case None => None
      case Some(p) => Some((if s[0] == '-' then -p.0 else p.0, p.1 + 1))
    else ScanUnsigned(s)
  }

  /** `Number(s)`: surrounding whitespace ignored, the empty string is 0, and
      anything that is not wholly a decimal literal is NaN (`None`). */
  function ToNumber(s: string): (r: Option<real>)
    ensures Trim(s) == [] ==> r == Some(0.0)
  {
    var t := Trim(s);
    if t == [] then Some(0.0)
    else match ScanSigned(t)
      case None => None
      case Some(p) => if p.1 == |t| then Some(p.0) else None
  }

  /** `parseFloat(s)`: leading whitespace skipped, then the longest decimal
      literal prefix; NaN (`None`) when there is none. */
  function ParseFloat(s: string): (r: Option<real>)
    ensures r.Some? ==> ScanSigned(TrimStart(s)).Some?
  {
    match ScanSigned(TrimStart(s))
    case None => None
    case Some(p) => Some(p.0)
  }

  /** A digit string, a point and a digit string scan as one literal. */
  lemma ScanDigitsPointDigits(w: string, f: string)
    requires |w| >= 1 && AllDigits(w) && AllDigits(f)
    ensures ScanUnsigned(w + "." + f) == Some((DecimalValue(w, f), |w| + 1 + |f|))
  {
    var s := w + "." + f;
    assert s == w + ("." + f);
    DigitRunPrefix(w, "." + f);
    assert s[..|w|] == w;
    var rest := s[|w| + 1..];
    assert rest == f + [];
    DigitRunPrefix(f, []);
    assert rest[..|f|] == f;
  }

  lemma NoWhitespaceDigitsPointDigits(w: string, f: string)
    requires AllDigits(w) && AllDigits(f)
    ensures NoWhitespace(w + "." + f)
  {
    var s := w + "." + f;
    forall i | 0 <= i < |s| ensures !IsWhitespace(s[i]) {
      if i < |w| { assert s[i] == w[i]; }
      else if i == |w| { assert s[i] == '.'; }
      else { assert s[i] == f[i - |w| - 1]; }
    }
  }

  /** The euro text of a whole number of cents reads back, through
      `Number`, as exactly that many hundredths. */
  lemma ToNumberOfFixedCents(n: nat)
    ensures ToNumber(FixedCents(n)) == Some(n as real / 100.0)
  {
    var w, f := FixedCentsParts(n);
    TextReadsBack(FixedCents(n), w, f, n as real / 100.0);
  }

  lemma TextReadsBack(s: string, w: string, f: string, v: real)
    requires |w| >= 1 && AllDigits(w) && AllDigits(f)
    requires s == w + "." + f && DecimalValue(w, f) == v
    ensures ToNumber(s) == Some(v)
  {
    ToNumberOfDigitsPointDigits(w, f);
  }

  /** A digit string, a point and a digit string read as their decimal value. */
  lemma ToNumberOfDigitsPointDigits(w: string, f: string)
    requires |w| >= 1 && AllDigits(w) && AllDigits(f)
    ensures ToNumber(w + "." + f) == Some(DecimalValue(w, f))
  {
    var s := w + "." + f;
    NoWhitespaceDigitsPointDigits(w, f);
    assert Trim(s) == s;
    assert s[0] == w[0];
    ScanDigitsPointDigits(w, f);
    assert ScanSigned(s) == ScanUnsigned(s);
  }

  /** The whole euros and the two-digit cents that make up `FixedCents(n)`. */
  lemma FixedCentsParts(n: nat) returns (w: string, f: string)
    ensures |w| >= 1 && AllDigits(w) && AllDigits(f)
    ensures FixedCents(n) == w + "." + f
    ensures DecimalValue(w, f) == n as real / 100.0
  {
    w := NatToString(n / 100);
    f := PadDigits(n % 100, 2);
    DigitsValueOfNatToString(n / 100);
    DigitsValueOfPadDigits(n % 100, 2);
    CentsSplit(n);
  }

  lemma CentsSplit(n: nat)
    ensures (n / 100) as real + (n % 100) as real / Pow10(2) as real == n as real / 100.0
  {
    assert Pow10(2) == 100;
    assert n == (n / 100) * 100 + n % 100;
  }

  /** `parseFloat(String(i))` is `i` for every integer. */
  lemma ParseFloatOfIntToString(i: int)
    ensures ParseFloat(IntToString(i)) == Some(i as real)
  {
    var m: nat := if i < 0 then -i else i;
    var w := NatToString(m);
    assert w + [] == w;
    DigitRunPrefix(w, []);
    assert w[..|w|] == w;
    DigitsValueOfNatToString(m);
    assert ScanUnsigned(w) == Some((m as real, |w|));
    assert !IsWhitespace(IntToString(i)[0]) by {
      if i >= 0 { assert IntToString(i)[0] == w[0]; }
    }
    assert TrimStart(IntToString(i)) == IntToString(i);
    if i < 0 {
      assert IntToString(i)[1..] == w;
    }
  }

  /** `x * 10^k` is a whole number. */
  predicate WholeAt(x: real, k: nat) {
    var y := x * Pow10(k) as real;
    y.Floor as real == y
  }

  /** The fewest decimals (at most 20) that `x` needs: the least `k >= from`
      with `x * 10^k` whole, or 20. */
  function DecimalsNeeded(x: real, from: nat): (k: nat)
    requires from <= 20
    ensures from <= k <= 20
    ensures k < 20 ==> WholeAt(x, k)
    decreases 20 - from
  {
    if from == 20 then 20
    else if WholeAt(x, from) then from
    else DecimalsNeeded(x, from + 1)
  }

  lemma ScaledNonNegative(a: real, p: nat)
    requires a >= 0.0
    ensures (a * p as real).Floor >= 0
  {
  }

  /** `String(x)` for a number: whole numbers print as integers; a number
      with a terminating decimal expansion prints its shortest such
      expansion (cut at 20 decimals). */
  function NumberToString(x: real): (s: string)
    ensures |s| >= 1
  {
    var a := if x < 0.0 then -x else x;
    var k := DecimalsNeeded(a, 0);
    var body := ScaledDigits(ScaledFloor(a, k), k);
    if x < 0.0 then "-" + body else body
  }

  /** `a * 10^k` rounded down, for non-negative `a`. */
  function ScaledFloor(a: real, k: nat): (m: nat)
    requires a >= 0.0
  {
    ScaledNonNegative(a, Pow10(k));
    (a * Pow10(k) as real).Floor
  }

  /** `m / 10^k` written with exactly `k` decimals (no point when `k` is 0). */
  function ScaledDigits(m: nat, k: nat): (s: string)
    ensures |s| >= 1
  {
    if k == 0 then NatToString(m)
    else
      var p := Pow10(k);
      var q, r := m / p, m % p;
      ModBelow(m, p);
      NatToString(q) + "." + PadDigits(r, k)
  }

  lemma ModBelow(m: nat, p: nat)
    requires p > 0
    ensures 0 <= m / p && m % p < p
  {
  }

  /** Whole numbers print exactly as `IntToString` prints them. */
  lemma NumberToStringOfInt(i: int)
    ensures NumberToString(i as real) == IntToString(i)
  {
    var a: nat := if i < 0 then -i else i;
    assert (if i as real < 0.0 then -(i as real) else i as real) == a as real;
    assert WholeAt(a as real, 0);
    assert DecimalsNeeded(a as real, 0) == 0;
    assert ScaledFloor(a as real, 0) == a;
  }
}

=== FILE: optimized_image.dfy ===
/** The image component (`src/components/OptimizedImage.tsx`): an Unsplash
    image gets AVIF and WebP sources next to the original, built from the
    parsed URL with a format parameter appended to its query; any other
    image is left as it is. URL parsing is an input: the parts of
    `new URL(src)` the component reads, or nothing when the constructor
    throws. */
module OptimizedImage {
  import opened Optional
  import opened Text

  /** `url.origin`, `url.pathname` and `url.search` of a parsed URL. */
  datatype Url = Url(origin: string, pathname: string, search: string)

  /** What a parser produces: no '?' before the query, and a query that is
      empty or a '?' with something after it. */
  predicate Parsed(u: Url) {
    '?' !in u.origin && '?' !in u.pathname
    && (u.search == [] || (|u.search| >= 2 && u.search[0] == '?'))
  }

  const UnsplashHost: string := "images.unsplash.com"

  /** `/images\.unsplash\.com/.test(src)`: the host name anywhere in `src`. */
  predicate IsUnsplash(src: string) {
    Contains(src, UnsplashHost)
  }

  /** The source for one image format: the URL without its query, then the
      original query followed by `&`, or `?` alone when there was none,
      then `fm=<format>`. */
  function FormatSource(u: Url, format: string): string {
    var base := if u.search != "" then u.search + "&" else "?";
    u.origin + u.pathname + base + "fm=" + format
  }

  /** What the component renders. */
  datatype Rendering =
    | Picture(avif: string, webp: string, img: string)
    | Plain(img: string)
    | Throws

  function Render(src: string, parsed: Option<Url>): (r: Rendering)
    ensures !IsUnsplash(src) <==> r == Plain(src)
    ensures r.Throws? <==> IsUnsplash(src) && parsed.None?
    ensures r.Picture? ==> r.img == src && parsed.Some?
    ensures r.Picture? ==> r.avif == FormatSource(parsed.value, "avif") && r.webp == FormatSource(parsed.value, "webp")
    ensures r.Picture? ==> StartsWith(r.avif, parsed.value.origin + parsed.value.pathname)
    ensures r.Picture? ==> EndsWith(r.avif, "fm=avif") && EndsWith(r.webp, "fm=webp")
    ensures r.Picture? ==> r.avif[..|r.avif| - 4] == r.webp[..|r.webp| - 4]
  {
    if !IsUnsplash(src) then Plain(src)
    else match parsed
      case None => Throws
      case Some(u) =>
        var avif := FormatSource(u, "avif");
        var webp := FormatSource(u, "webp");
        var prefix := u.origin + u.pathname + (if u.search != "" then u.search + "&" else "?") + "fm=";
        assert avif == prefix + "avif" && webp == prefix + "webp";
        assert avif[..|avif| - 4] == prefix == webp[..|webp| - 4];
        assert avif == (u.origin + u.pathname) + ((if u.search != "" then u.search + "&" else "?") + "fm=avif");
        Picture(avif, webp, src)
  }

  /** The query parameters of a URL text: the pieces between `&` after the
      first `?`, none when there is no `?`. */
  function Params(s: string): seq<string> {
    var k := IndexOf(s, '?');
    if k == |s| then [] else Split(s[k + 1..], '&')
  }

  /** Every format source keeps the original address and its query
      parameters, in order, and adds exactly one: the format. */
  lemma FormatKeepsParams(u: Url, format: string)
    requires Parsed(u) && '&' !in format
    ensures Params(FormatSource(u, format)) == Params(u.origin + u.pathname + u.search) + ["fm=" + format]
  {
    var head := u.origin + u.pathname;
    NoMarkInHead(u);
    var tail := "fm=" + format;
    NoAmpersand(format);
    if u.search == "" {
      assert FormatSource(u, format) == head + ("?" + tail);
      ParamsAfter(head, "?" + tail);
      assert ("?" + tail)[1..] == tail;
      SplitWithout(tail, '&');
      ParamsWithout(head);
      assert head + u.search == head;
    } else {
      var q := u.search[1..];
      assert FormatSource(u, format) == head + ("?" + (q + "&" + tail));
      ParamsAfter(head, "?" + (q + "&" + tail));
      assert ("?" + (q + "&" + tail))[1..] == q + ['&'] + tail;
      SplitAppend(q, tail, '&');
      SplitWithout(tail, '&');
      ParamsAfter(head, u.search);
    }
  }

  lemma NoMarkInHead(u: Url)
    requires Parsed(u)
    ensures '?' !in u.origin + u.pathname
  {
    var head := u.origin + u.pathname;
    forall i | 0 <= i < |head|
      ensures head[i] != '?'
    {
      if i < |u.origin| {
        assert head[i] == u.origin[i];
      } else {
        assert head[i] == u.pathname[i - |u.origin|];
      }
    }
  }

  lemma NoAmpersand(format: string)
    requires '&' !in format
    ensures '&' !in "fm=" + format
  {
    var tail := "fm=" + format;
    forall i | 0 <= i < |tail|
      ensures tail[i] != '&'
    {
      if i >= 3 {
        assert tail[i] == format[i - 3];
      }
    }
  }

  /** With no '?' in `head`, the parameters are read from what follows. */
  lemma ParamsAfter(head: string, rest: string)
    requires '?' !in head && |rest| >= 1 && rest[0] == '?'
    ensures Params(head + rest) == Split(rest[1..], '&')
  {
    var s := head + rest;
    FirstMarkAfter(head, rest);
    assert s[|head| + 1..] == rest[1..];
  }

  lemma FirstMarkAfter(head: string, rest: string)
    requires '?' !in head && |rest| >= 1 && rest[0] == '?'
    ensures IndexOf(head + rest, '?') == |head|
  {
    var s := head + rest;
    assert s[|head|] == '?';
  }

  lemma ParamsWithout(head: string)
    requires '?' !in head
    ensures Params(head) == []
  {
  }
}

=== FILE: optional.dfy ===
/** The optional value used wherever the source has `undefined`, `null` or
    "not found". */
module Optional {

  datatype Option<+T> = None | Some(value: T) {

    /** The value, or `default` when there is none (`x ?? default`). */
    function GetOr(default: T): (r: T)
      ensures Some? ==> r == value
      ensures None? ==> r == default
    {
      match this
      case Some(v) => v
      case None => default
    }
  }
}

=== FILE: payments.dfy ===
/** The two Stripe endpoints that start a card payment
    (`api/create-payment-intent.js`, `api/create-checkout-session.js`) and
    the mock verification endpoint (`api/verify-payment.ts`). The Stripe SDK
    call is a requested effect; its reply, or the error it throws, is an
    input. */
module PaymentIntent {
  import opened JsValue
  import opened Http
  import opened Optional

  /** `paymentIntents.create({ amount, currency, metadata })`. */
  datatype Effect = CreateIntent(amount: real, currency: string, metadata: map<string, Json>)

  /** What the SDK call gives back: the intent's client secret, or the
      value it throws. */
  datatype Reply = Created(clientSecret: Json) | Threw(err: Json)

  /** `!amount || typeof amount !== "number"` is false: a non-zero number. */
  predicate ValidAmount(amount: Json) {
    amount.Num? && amount.n != 0.0
  }

  /** The metadata keys, each `value || ""`. */
  const MetadataKeys: set<string> := {"name", "surname", "email", "phone", "address", "items"}

  function OrEmpty(v: Json): (r: Json)
    ensures Truthy(v) ==> r == v
    ensures !Truthy(v) ==> r == Str("")
  {
    Or(v, Str(""))
  }

  function Metadata(body: Json, keys: set<string>): (m: map<string, Json>)
    ensures m.Keys == keys
    ensures forall k :: k in keys && Truthy(Get(body, k)) ==> m[k] == Get(body, k)
    ensures forall k :: k in keys && !Truthy(Get(body, k)) ==> m[k] == Str("")
  {
    map k | k in keys :: OrEmpty(Get(body, k))
  }

  /** `(err && err.message) ? err.message : 'Unknown error'`. */
  function ErrorMessage(err: Json): (m: Json)
    ensures Truthy(m)
    ensures Truthy(err) && Truthy(Get(err, "message")) ==> m == Get(err, "message")
    ensures !Truthy(Get(err, "message")) ==> m == Str("Unknown error")
  {
    if Truthy(err) && Truthy(Get(err, "message")) then Get(err, "message") else Str("Unknown error")
  }

  function JsonError(message: Json): Body {
    JsonBody(Obj(map["error" := message]))
  }

  /** The handler; `secretKey` is `STRIPE_SECRET_KEY`. */
  function Handle(req: Request, secretKey: Option<string>, reply: Reply): (r: Response<Effect>)
    ensures !IsPost(req) ==> r == Response(405, Text("Method not allowed"), [])
    ensures IsPost(req) && (secretKey.None? || secretKey == Some("")) ==>
      r == Response(500, ErrorBody("Missing STRIPE_SECRET_KEY"), [])
    ensures r.status == 400 <==>
      IsPost(req) && secretKey.Some? && secretKey.value != "" && !ValidAmount(Field(req, "amount"))
    ensures r.status == 400 ==> r.body == ErrorBody("Invalid amount") && r.effects == []
    ensures |r.effects| > 0 ==>
      r.effects == [CreateIntent(Field(req, "amount").n, "eur", Metadata(BodyOf(req), MetadataKeys))]
    ensures r.status == 200 <==> |r.effects| > 0 && reply.Created?
    ensures r.status == 200 ==> r.body == JsonBody(Obj(map["clientSecret" := reply.clientSecret]))
    ensures |r.effects| > 0 && reply.Threw? ==> r.status == 500 && r.body == JsonError(ErrorMessage(reply.err))
  {
    if !IsPost(req) then Response(405, Text("Method not allowed"), [])
    else if secretKey.None? || secretKey == Some("") then Response(500, ErrorBody("Missing STRIPE_SECRET_KEY"), [])
    else
      var body := BodyOf(req);
      var amount := Get(body, "amount");
      if !ValidAmount(amount) then Response(400, ErrorBody("Invalid amount"), [])
      else
        var call := CreateIntent(amount.n, "eur", Metadata(body, MetadataKeys));
        match reply
        case Created(secret) => Response(200, JsonBody(Obj(map["clientSecret" := secret])), [call])
        case Threw(err) => Response(500, JsonError(ErrorMessage(err)), [call])
  }

  /** The provider is asked exactly when the request is a POST, the key is
      set and the amount is a non-zero number, and then with the amount
      unchanged, in euros. */
  lemma ProviderCalledIff(req: Request, secretKey: Option<string>, reply: Reply)
    ensures |Handle(req, secretKey, reply).effects| == 1 <==>
      IsPost(req) && secretKey.Some? && secretKey.value != "" && ValidAmount(Field(req, "amount"))
    ensures |Handle(req, secretKey, reply).effects| <= 1
  {
  }

  /** The amount check does not reject negative amounts: those reach the
      provider. */
  lemma NegativeAmountPasses(req: Request, key: string, reply: Reply)
    requires IsPost(req) && key != ""
    requires Field(req, "amount") == Num(-5.0)
    ensures Handle(req, Some(key), reply).effects[0].amount == -5.0
  {
  }
}

module CheckoutSession {
  import opened Text
  import opened JsValue
  import opened Http
  import opened Optional
  import PaymentIntent

  /** `checkout.sessions.create(...)`, with the fields the handler fills in. */
  datatype Effect = CreateSession(
    unitAmount: real,
    currency: string,
    quantity: int,
    productName: string,
    successUrl: Json,
    cancelUrl: Json,
    customerEmail: Json,
    metadata: map<string, Json>)

  /** The created session's id and url, or the value the SDK throws. */
  datatype Reply = Created(id: Json, url: Json) | Threw(err: Json)

  const DefaultOrigin: string := "https://kaledukampelis.com"
  const DefaultProductName: string := "U\U{017E}sakymas"

  const MetadataKeys: set<string> := {"name", "surname", "email", "phone", "address", "items"}

  /** The message of the TypeError thrown when `items` is neither nullish nor
      a string and so has no `split` method; the engine supplies its text. */
  const SplitTypeError: Json := Obj(map["message" := Str("items?.split is not a function")])

  /** `items?.split('\n')[0] || 'Užsakymas'`; `None` when `split` throws. */
  function ProductName(items: Json): (r: Option<string>)
    ensures (items.Undefined? || items.Null?) ==> r == Some(DefaultProductName)
    ensures items.Str? ==> r.Some?
    ensures r.Some? ==> r.value != "" && '\n' !in r.value
    ensures items.Str? && '\n' !in items.s && items.s != "" ==> r == Some(items.s)
    ensures !(items.Undefined? || items.Null? || items.Str?) ==> r.None?
  {
    match items
    case Undefined => Some(DefaultProductName)
    case Null => Some(DefaultProductName)
    case Str(s) =>
      var first := Split(s, '\n')[0];
      assert first in Split(s, '\n');
      if first != "" then Some(first) else Some(DefaultProductName)
    case _ => None
  }

  /** `url || \`${req.headers.origin || default}/?status=...\``. */
  function ReturnUrl(given: Json, req: Request, status: string): (r: Json)
    ensures Truthy(given) ==> r == given
    ensures !Truthy(given) && Truthy(Header(req, "origin")) ==>
      r == Str(req.headers["origin"] + "/?status=" + status)
    ensures !Truthy(given) && !Truthy(Header(req, "origin")) ==>
      r == Str(DefaultOrigin + "/?status=" + status)
  {
    Or(given, Str(ToJsString(Or(Header(req, "origin"), Str(DefaultOrigin))) + "/?status=" + status))
  }

  /** The handler; `secretKey` is `STRIPE_SECRET_KEY`. */
  function Handle(req: Request, secretKey: Option<string>, reply: Reply): (r: Response<Effect>)
    ensures !IsPost(req) ==> r == Response(405, ErrorBody("Method not allowed"), [])
    ensures IsPost(req) && (secretKey.None? || secretKey == Some("")) ==>
      r == Response(500, ErrorBody("Missing STRIPE_SECRET_KEY"), [])
    ensures r.status == 400 <==>
      IsPost(req) && secretKey.Some? && secretKey.value != "" && !PaymentIntent.ValidAmount(Field(req, "amount"))
    ensures r.status == 400 ==> r.effects == []
    ensures |r.effects| > 0 ==> (
      && |r.effects| == 1
      && var e := r.effects[0];
      && e.unitAmount == Field(req, "amount").n && e.currency == "eur" && e.quantity == 1
      && Some(e.productName) == ProductName(Field(req, "items"))
      && e.successUrl == ReturnUrl(Field(req, "successUrl"), req, "paid")
      && e.cancelUrl == ReturnUrl(Field(req, "cancelUrl"), req, "cancelled")
      && e.customerEmail == Field(req, "email")
      && e.metadata.Keys == MetadataKeys + {"order_id"}
      && (forall k :: k in MetadataKeys && Truthy(Field(req, k)) ==> e.metadata[k] == Field(req, k))
      && (forall k :: k in MetadataKeys && !Truthy(Field(req, k)) ==> e.metadata[k] == Str(""))
      && e.metadata["order_id"] == PaymentIntent.OrEmpty(Field(req, "orderId")))
    ensures r.status == 200 <==> |r.effects| > 0 && reply.Created?
    ensures r.status == 200 ==> r.body == JsonBody(Obj(map["id" := reply.id, "url" := reply.url]))
    ensures |r.effects| > 0 && reply.Threw? ==>
      r.status == 500 && r.body == PaymentIntent.JsonError(PaymentIntent.ErrorMessage(reply.err))
    ensures (IsPost(req) && secretKey.Some? && secretKey.value != "" && PaymentIntent.ValidAmount(Field(req, "amount"))
      && ProductName(Field(req, "items")).None?) ==>
      r == Response(500, PaymentIntent.JsonError(Str("items?.split is not a function")), [])
  {
    if !IsPost(req) then Response(405, ErrorBody("Method not allowed"), [])
    else if secretKey.None? || secretKey == Some("") then Response(500, ErrorBody("Missing STRIPE_SECRET_KEY"), [])
    else
      var body := BodyOf(req);
      var amount := Get(body, "amount");
      if !PaymentIntent.ValidAmount(amount) then Response(400, ErrorBody("Invalid amount"), [])
      else match ProductName(Get(body, "items"))
        case None => Response(500, PaymentIntent.JsonError(PaymentIntent.ErrorMessage(SplitTypeError)), [])
        case Some(productName) =>
          var metadata := PaymentIntent.Metadata(body, MetadataKeys)["order_id" := PaymentIntent.OrEmpty(Get(body, "orderId"))];
          var call := CreateSession(amount.n, "eur", 1, productName,
            ReturnUrl(Get(body, "successUrl"), req, "paid"),
            ReturnUrl(Get(body, "cancelUrl"), req, "cancelled"),
            Get(body, "email"), metadata);
          match reply
          case Created(id, url) => Response(200, JsonBody(Obj(map["id" := id, "url" := url])), [call])
          case Threw(err) => Response(500, PaymentIntent.JsonError(PaymentIntent.ErrorMessage(err)), [call])
  }

  /** The product name is the first line of the items text. */
  lemma ProductNameIsFirstLine(first: string, rest: string)
    requires first != "" && '\n' !in first
    ensures ProductName(Str(first + "\n" + rest)) == Some(first)
  {
    var s := first + "\n" + rest;
    assert forall i :: 0 <= i < |first| ==> s[i] == first[i];
    assert IndexOf(s, '\n') == |first| by {
      assert s[|first|] == '\n';
      forall i | 0 <= i < |first| ensures s[i] != '\n' {
        assert first[i] in first;
      }
      IndexOfFirst(s, '\n', |first|);
    }
    assert s[..|first|] == first;
  }

  lemma IndexOfFirst(s: string, c: char, k: nat)
    requires k < |s| && s[k] == c
    requires forall i :: 0 <= i < k ==> s[i] != c
    ensures IndexOf(s, c) == k
  {
  }
}

module VerifyPayment {
  import opened JsValue
  import opened Http
  import opened Optional

  /** The mock verification: a truthy order number and an amount whose
      `parseFloat(String(amount))` is a positive number. */
  function Handle(req: Request): (r: Response<()>)
    ensures r.effects == []
    ensures !IsPost(req) ==> r.status == 405
    ensures IsPost(req) && !(Truthy(Field(req, "orderNumber")) && Truthy(Field(req, "amount"))) ==>
      r == Response(400, ErrorBody("Missing orderNumber or amount"), [])
    ensures r.status == 200 <==>
      && IsPost(req) && Truthy(Field(req, "orderNumber")) && Truthy(Field(req, "amount"))
      && var v := ParseFloatValue(Field(req, "amount")); v.Some? && v.value > 0.0
    ensures r.status == 200 ==>
      r.body == JsonBody(Obj(map["status" := Str("paid"), "orderNumber" := Field(req, "orderNumber")]))
    ensures r.status in {200, 400, 405}
  {
    if !IsPost(req) then Response(405, ErrorBody("Method not allowed"), [])
    else
      var body := BodyOf(req);
      var orderNumber := Get(body, "orderNumber");
      var amount := Get(body, "amount");
      if !Truthy(orderNumber) || !Truthy(amount) then Response(400, ErrorBody("Missing orderNumber or amount"), [])
      else
        var value := ParseFloatValue(amount);
        if value.None? || value.value <= 0.0 then Response(400, ErrorBody("Invalid amount"), [])
        else Response(200, JsonBody(Obj(map["status" := Str("paid"), "orderNumber" := orderNumber])), [])
  }

  /** A positive whole amount with an order number is reported paid, with
      the same order number. */
  lemma WholeAmountPaid(req: Request, amount: int)
    requires IsPost(req) && Truthy(Field(req, "orderNumber"))
    requires amount > 0 && Field(req, "amount") == Num(amount as real)
    ensures Handle(req).status == 200
  {
    ParseFloatValueOfWhole(amount);
  }
}

=== FILE: paypal_button.dfy ===
/** The PayPal checkout button (`src/components/PayPalButton.tsx`): the
    amount string sent to PayPal, the order it creates, and the one-time
    loading of PayPal's script shared by every button on the page. The page
    (whether the script has loaded, whether a script tag or the button
    container exists) is an input; what the component does to it is a list
    of actions. */
module PaypalButton {
  import opened Optional
  import opened Numbers

  /** `Math.round(x)`: the nearest integer, halves rounded up. */
  function JsRound(x: real): int {
    (x + 0.5).Floor
  }

  /** The rounded value is within half a unit of `x`. */
  lemma JsRoundNearest(x: real)
    ensures JsRound(x) as real - 0.5 <= x < JsRound(x) as real + 0.5
  {
  }

  /** `(Math.round(amountCents) / 100).toFixed(2)`. */
  function AmountText(amountCents: real): string {
    CentsText(JsRound(amountCents))
  }

  /** `(c / 100).toFixed(2)` of a whole number of cents. */
  function CentsText(c: int): string {
    ToFixed2(c as real / 100.0)
  }

  /** The amount text is the rounded cents written with two decimals. */
  lemma AmountTextIsFixed(amountCents: real)
    requires JsRound(amountCents) >= 0
    ensures AmountText(amountCents) == FixedCents(JsRound(amountCents))
  {
    CentsTextOf(JsRound(amountCents));
  }

  /** The amount text reads back as the rounded cents `c` in euros. */
  lemma AmountReadsBack(amountCents: real, c: nat)
    requires JsRound(amountCents) == c
    ensures ToNumber(AmountText(amountCents)) == Some(c as real / 100.0)
  {
    AmountTextIsFixed(amountCents);
    ToNumberOfFixedCents(c);
  }

  /** Rounding leaves whole cents alone. */
  lemma RoundWhole(x: real)
    ensures x == x.Floor as real ==> JsRound(x) == x.Floor
  {
  }

  lemma CentsTextOf(c: nat)
    ensures CentsText(c) == FixedCents(c)
  {
    ToFixed2OfCents(c);
  }

  datatype PurchaseUnit = PurchaseUnit(amountValue: string)

  /** The body given to `actions.order.create`. */
  datatype Order = Order(purchaseUnits: seq<PurchaseUnit>)

  /** The order for `amountCents`: a single purchase unit holding the
      amount text; nothing else the caller passes reaches it. */
  function CreateOrder(amountCents: real): (o: Order)
    ensures |o.purchaseUnits| == 1
  {
    Order([PurchaseUnit(AmountText(amountCents))])
  }

  /** The order PayPal is asked to create charges exactly the cents the
      button was given, when they are whole. */
  lemma OrderChargesCents(cents: nat)
    ensures ToNumber(CreateOrder(cents as real).purchaseUnits[0].amountValue) == Some(cents as real / 100.0)
  {
    WholeCentsText(cents);
    ToNumberOfFixedCents(cents);
  }

  lemma WholeCentsText(cents: nat)
    ensures CreateOrder(cents as real).purchaseUnits[0].amountValue == FixedCents(cents)
  {
    var x := cents as real;
    assert JsRound(x) == cents;
    CentsTextOf(cents);
  }

  /** What the component can see of the page when its effect runs. */
  datatype Page = Page(sdkReady: bool, sdkTagPresent: bool, containerPresent: bool)

  /** What the component does to the page. `AppendSdkScript` adds PayPal's
      script with rendering as its load handler; `RetryAfter` schedules one
      more rendering attempt. */
  datatype Action =
    | ClearContainer
    | RenderButtons(order: Order)
    | AppendSdkScript(onload: Order)
    | RetryAfter(ms: int, order: Order)

  const RetryMs: int := 300

  /** `renderButtons`: nothing without the container or the SDK; otherwise
      the container is emptied, then the buttons are drawn into it. */
  function RenderNow(page: Page, order: Order): (acts: seq<Action>)
    ensures acts != [] <==> page.sdkReady && page.containerPresent
    ensures |acts| <= 2
    ensures forall i | 0 <= i < |acts| && acts[i].RenderButtons? :: i == 1 && acts[0] == ClearContainer
    ensures forall i | 0 <= i < |acts| :: acts[i] == ClearContainer || acts[i] == RenderButtons(order)
  {
    if !page.sdkReady || !page.containerPresent then []
    else [ClearContainer, RenderButtons(order)]
  }

  /** The number of script insertions among `acts`. */
  function Appends(acts: seq<Action>): (n: nat)
    ensures n <= |acts|
  {
    if acts == [] then 0 else (if acts[0].AppendSdkScript? then 1 else 0) + Appends(acts[1..])
  }

  lemma {:induction false} AppendsConcat(a: seq<Action>, b: seq<Action>)
    ensures Appends(a + b) == Appends(a) + Appends(b)
    decreases |a|
  {
    if a != [] {
      assert (a + b)[0] == a[0];
      assert (a + b)[1..] == a[1..] + b;
      AppendsConcat(a[1..], b);
    } else {
      assert a + b == b;
    }
  }

  /** The effect run when a button mounts or its amount changes, given the
      page-wide "script appended" flag; returns the actions and the new
      flag. With the SDK loaded the buttons render; otherwise the first
      button to get here appends the script (unless a tag is already on the
      page) and sets the flag, and every later one schedules one retry. */
  function Mount(appended: bool, page: Page, amountCents: real): (r: (seq<Action>, bool))
    ensures r.1 == (appended || !page.sdkReady)
    ensures Appends(r.0) == (if !page.sdkReady && !appended && !page.sdkTagPresent then 1 else 0)
    ensures page.sdkReady ==> r.0 == RenderNow(page, CreateOrder(amountCents))
    ensures !page.sdkReady && appended ==> r.0 == [RetryAfter(RetryMs, CreateOrder(amountCents))]
    ensures !page.sdkReady && !appended ==> forall i | 0 <= i < |r.0| :: r.0[i].AppendSdkScript?
  {
    var order := CreateOrder(amountCents);
    if page.sdkReady then
      var acts := RenderNow(page, order);
      assert Appends(acts) == 0 by {
        if acts != [] {
          assert acts[1..][1..] == [];
        }
      }
      (acts, appended)
    else if !appended then
      (if page.sdkTagPresent then [] else [AppendSdkScript(order)], true)
    else ([RetryAfter(RetryMs, order)], appended)
  }

  /** The cleanup when a button unmounts or its amount changes. */
  function Cleanup(page: Page): (acts: seq<Action>)
    ensures acts != [] <==> page.containerPresent
    ensures forall i | 0 <= i < |acts| :: acts[i] == ClearContainer
  {
    if page.containerPresent then [ClearContainer] else []
  }

  /** One run of the effect: the page it saw and the amount it had. */
  datatype Mounting = Mounting(page: Page, amountCents: real)

  /** The actions of effect runs `ms` in order, starting from flag `appended`. */
  function Run(appended: bool, ms: seq<Mounting>): seq<Action>
    decreases |ms|
  {
    if ms == [] then []
    else
      var step := Mount(appended, ms[0].page, ms[0].amountCents);
      step.0 + Run(step.1, ms[1..])
  }

  /** However many buttons mount, in whatever page states, PayPal's script
      is appended at most once, and never once the flag is set. */
  lemma {:induction false} ScriptAppendedAtMostOnce(appended: bool, ms: seq<Mounting>)
    ensures Appends(Run(appended, ms)) <= (if appended then 0 else 1)
    decreases |ms|
  {
    if ms != [] {
      var step := Mount(appended, ms[0].page, ms[0].amountCents);
      AppendsConcat(step.0, Run(step.1, ms[1..]));
      ScriptAppendedAtMostOnce(step.1, ms[1..]);
    }
  }
}

=== FILE: paypal_webhook.dfy ===
/** The PayPal event receiver (`api/paypal-webhook.js`): it has PayPal
    confirm the event's signature, gathers the order number, total,
    customer and items from the event and from follow-up order lookups, and
    forwards them to the notification relay. The order-link pattern is
    taken with its slash escaped once, as evidently intended (see
    `RegexLiteral`). */
module PaypalWebhook {
  import opened Optional
  import opened Text
  import opened JsValue
  import opened Http
  import RegexLiteral
  import NotifyDiscord
  import opened Seqs

  /** The environment the handler reads. */
  datatype Config = Config(
    webhookId: Option<string>,
    clientId: Option<string>,
    clientSecret: Option<string>,
    apiBase: Option<string>,
    paypalEnv: Option<string>,
    publicUrl: Option<string>)

  /** A set, non-empty environment value. */
  predicate Present(v: Option<string>) {
    v.Some? && v.value != ""
  }

  const SandboxBase: string := "https://api-m.sandbox.paypal.com"
  const LiveBase: string := "https://api-m.paypal.com"
  const DefaultPublicUrl: string := "https://kaledukampelis.com"

  /** `PAYPAL_API_BASE`, else the sandbox or live address by `PAYPAL_ENV`. */
  function ApiBase(c: Config): (base: string)
    ensures Present(c.apiBase) ==> base == c.apiBase.value
    ensures !Present(c.apiBase) ==> (base == SandboxBase <==> c.paypalEnv == Some("sandbox"))
    ensures !Present(c.apiBase) && c.paypalEnv != Some("sandbox") ==> base == LiveBase
  {
    if Present(c.apiBase) then c.apiBase.value
    else if c.paypalEnv == Some("sandbox") then SandboxBase
    else LiveBase
  }

  /** The handler's calls to other services, in order. */
  datatype Call =
    | RequestToken(url: string)
    | VerifySignature(url: string, body: Json)
    | GetOrder(url: string)
    | GetCapture(url: string)
    | GetLinkedOrder(href: Json)
    | Notify(url: string, payload: Json)

  /** How a call ends: a response with its `ok` flag and parsed body, or a
      thrown error (a network failure, or a body that is not JSON where the
      handler does not catch that). For the signature check, a body that is
      not JSON is given as `{}`, which is what the handler substitutes. */
  datatype Reply = Answer(ok: bool, body: Json) | Failed

  /** The reply to each kind of call. */
  datatype Replies = Replies(token: Reply, verify: Reply, order: Reply, capture: Reply, linked: Reply, notify: Reply)

  const ApprovedType: Json := Str("CHECKOUT.ORDER.APPROVED")
  const CapturedType: Json := Str("PAYMENT.CAPTURE.COMPLETED")

  predicate Nullish(v: Json) {
    v.Undefined? || v.Null?
  }

  /** `v?.[0]`: an array's first element, a string's first character, an
      object's property "0", and `undefined` otherwise. */
  function First(v: Json): (r: Json)
    ensures v.Arr? ==> r == At(v, 0)
    ensures Nullish(v) ==> r == Undefined
  {
    match v
    case Arr(_) => At(v, 0)
    case Str(s) => if s == [] then Undefined else Str(s[..1])
    case Obj(_) => Get(v, "0")
    case _ => Undefined
  }

  /** `Number(x)` as it survives `JSON.stringify`: NaN becomes `null`. */
  function NumberJson(n: Option<real>): Json {
    if n.Some? then Num(n.value) else Null
  }

  /** One order item as forwarded: its name, `Number(it.quantity || 1)` and
      `Number(it.unit_amount?.value || 0)`. */
  function ItemOf(it: Json): (r: Json)
    ensures r.Obj? && r.fields.Keys == {"name", "quantity", "price"}
    ensures r.fields["name"] == Get(it, "name")
  {
    Obj(map[
      "name" := Get(it, "name"),
      "quantity" := NumberJson(ToNumberValue(Or(Get(it, "quantity"), Num(1.0)))),
      "price" := NumberJson(ToNumberValue(Or(Get(Get(it, "unit_amount"), "value"), Num(0.0))))])
  }

  /** `orderItems.map(...)`: `None` when an item is `null` or `undefined`,
      whose `name` cannot be read. */
  function MapItems(xs: seq<Json>): (r: Option<seq<Json>>)
    ensures r.Some? <==> forall i :: 0 <= i < |xs| ==> !Nullish(xs[i])
    ensures r.Some? ==> |r.value| == |xs| && forall i :: 0 <= i < |xs| ==> r.value[i] == ItemOf(xs[i])
  {
    if xs == [] then Some([])
    else if Nullish(xs[0]) then None
    else
      match MapItems(xs[1..])
      case None => None
      case Some(rest) => Some([ItemOf(xs[0])] + rest)
  }

  /** The items of an order's first purchase unit (none unless `items` is
      an array). */
  function OrderItems(pu0: Json): (r: Option<seq<Json>>)
    ensures r.Some? ==> ItemsAreObjects(r.value)
  {
    var raw := Get(pu0, "items");
    if raw.Arr? then MapItems(raw.elems) else Some([])
  }

  /** `String(full_name).split(' ')`: the first word is the name, the rest,
      joined again by spaces, the surname. */
  function SplitFullName(full: string): (r: (string, string))
    ensures ' ' !in r.0
    ensures ' ' !in full ==> r == (full, "")
    ensures ' ' in full ==> r.0 + " " + r.1 == full
  {
    var parts := Split(full, ' ');
    SplitAtFirstSpace(full);
    (parts[0], Join(parts[1..], " "))
  }

  lemma SplitAtFirstSpace(full: string)
    ensures ' ' !in full ==> Split(full, ' ') == [full]
    ensures ' ' in full ==> Split(full, ' ')[0] + " " + Join(Split(full, ' ')[1..], " ") == full
  {
    var parts := Split(full, ' ');
    JoinSplit(full, ' ');
    if ' ' in full {
      var k :| 0 <= k < |full| && full[k] == ' ';
      assert IndexOf(full, ' ') < |full|;
      assert |parts| >= 2;
      assert Join(parts, " ") == parts[0] + " " + Join(parts[1..], " ");
    } else {
      assert IndexOf(full, ' ') == |full|;
    }
  }

  /** `String(x)` of each element, as `join` prints them. */
  function Texts(xs: seq<Json>): (r: seq<string>)
    ensures |r| == |xs| && forall i :: 0 <= i < |xs| ==> r[i] == ToJsString(xs[i])
  {
    seq(|xs|, i requires 0 <= i < |xs| => ToJsString(xs[i]))
  }

  /** `[line1, line2].filter(Boolean).join(', ')`: the address lines that
      are present, comma-separated. */
  function AddressText(addr: Json): (r: string)
    ensures var lines := [Get(addr, "address_line_1"), Get(addr, "address_line_2")];
      r == Join(Texts(Filter(lines, Truthy)), ", ")
  {
    var l1 := Get(addr, "address_line_1");
    var l2 := Get(addr, "address_line_2");
    assert [l1, l2][1..] == [l2];
    assert Filter([l2], Truthy) == if Truthy(l2) then [l2] else [];
    if Truthy(l1) && Truthy(l2) then ToJsString(l1) + ", " + ToJsString(l2)
    else if Truthy(l1) then ToJsString(l1)
    else if Truthy(l2) then ToJsString(l2)
    else ""
  }

  /** `pu0.shipping || {}`, then its `address || {}`. */
  function ShipAddress(pu0: Json): Json {
    Or(Get(Or(Get(pu0, "shipping"), Obj(map[])), "address"), Obj(map[]))
  }

  /** `ship.name?.full_name`. */
  function ShipFullName(pu0: Json): Json {
    Get(Get(Or(Get(pu0, "shipping"), Obj(map[])), "name"), "full_name")
  }

  /** `customer.name` and `customer.surname` from the shipping name, when
      no name is known yet and the order has one. */
  function NamedFromShipping(customer: map<string, Json>, pu0: Json): (c: map<string, Json>)
    ensures !Truthy(Get(Obj(customer), "name")) && Truthy(ShipFullName(pu0)) ==>
      && c.Keys == customer.Keys + {"name", "surname"}
      && c["name"] == Str(SplitFullName(ToJsString(ShipFullName(pu0))).0)
      && c["surname"] == Str(SplitFullName(ToJsString(ShipFullName(pu0))).1)
    ensures Truthy(Get(Obj(customer), "name")) || !Truthy(ShipFullName(pu0)) ==> c == customer
  {
    if !Truthy(Get(Obj(customer), "name")) && Truthy(ShipFullName(pu0)) then
      var split := SplitFullName(ToJsString(ShipFullName(pu0)));
      customer["name" := Str(split.0)]["surname" := Str(split.1)]
    else customer
  }

  /** The customer after an order lookup: the shipping name when no name is
      known yet, then the shipping address, city and postal code. */
  function WithShipping(customer: map<string, Json>, pu0: Json): (c: map<string, Json>)
    ensures c.Keys == customer.Keys + {"address", "city", "postalCode"}
      || c.Keys == customer.Keys + {"name", "surname", "address", "city", "postalCode"}
    ensures Truthy(Get(Obj(customer), "name")) ==> c["name"] == customer["name"]
  {
    var addr := ShipAddress(pu0);
    NamedFromShipping(customer, pu0)
      ["address" := Str(AddressText(addr))]
      ["city" := Or(Get(addr, "admin_area_2"), Str(""))]
      ["postalCode" := Or(Get(addr, "postal_code"), Str(""))]
  }

  /** The shipping address lines, comma-separated, become the customer's
      address; `admin_area_2` the city and `postal_code` the postal code,
      each `''` when missing. */
  lemma ShippingAddress(customer: map<string, Json>, pu0: Json)
    ensures var c := WithShipping(customer, pu0);
      && c["address"] == Str(AddressText(ShipAddress(pu0)))
      && c["city"] == (if Truthy(Get(ShipAddress(pu0), "admin_area_2")) then Get(ShipAddress(pu0), "admin_area_2") else Str(""))
      && c["postalCode"] == (if Truthy(Get(ShipAddress(pu0), "postal_code")) then Get(ShipAddress(pu0), "postal_code") else Str(""))
  {
  }

  /** The name, surname and email are those after the shipping name step:
      the address fields leave them alone. */
  lemma ShippingKeepsNames(customer: map<string, Json>, pu0: Json)
    ensures var named := NamedFromShipping(customer, pu0);
      var c := WithShipping(customer, pu0);
      && ("name" in named ==> c["name"] == named["name"])
      && ("surname" in named ==> c["surname"] == named["surname"])
      && ("email" in named ==> c["email"] == named["email"])
  {
    var named := NamedFromShipping(customer, pu0);
    var addr := ShipAddress(pu0);
    ThreeUpdatesKeep(named, Str(AddressText(addr)), Or(Get(addr, "admin_area_2"), Str("")),
      Or(Get(addr, "postal_code"), Str("")));
  }

  /** Setting the address, city and postal code leaves the name, surname
      and email alone. */
  lemma ThreeUpdatesKeep(m: map<string, Json>, a: Json, b: Json, c: Json)
    ensures var r := m["address" := a]["city" := b]["postalCode" := c];
      && ("name" in m ==> r["name"] == m["name"])
      && ("surname" in m ==> r["surname"] == m["surname"])
      && ("email" in m ==> r["email"] == m["email"])
  {
  }

  /** Every forwarded item is an object. */
  predicate ItemsAreObjects(items: seq<Json>) {
    forall i :: 0 <= i < |items| ==> items[i].Obj?
  }

  /** No call so far is to the notification relay. */
  predicate NoNotify(calls: seq<Call>) {
    forall i :: 0 <= i < |calls| ==> !calls[i].Notify?
  }

  /** What the handler has gathered so far, and the calls it has made. */
  datatype Draft = Draft(total: string, customer: map<string, Json>, items: seq<Json>, calls: seq<Call>)

  /** `x.amount && x.amount.value`: a total read from an amount holder, when
      there is one. */
  function AmountValue(holder: Json): Json {
    var amount := Get(holder, "amount");
    if Truthy(amount) then Get(amount, "value") else amount
  }

  /** Taking a total from `holder` unless one is already known. */
  function TakeTotal(d: Draft, holder: Json): (r: Draft)
    ensures d.total != "" ==> r == d
    ensures d.total == "" && Truthy(AmountValue(holder)) ==> r == d.(total := ToJsString(AmountValue(holder)))
    ensures d.total == "" && !Truthy(AmountValue(holder)) ==> r == d
  {
    if d.total == "" && Truthy(AmountValue(holder)) then d.(total := ToJsString(AmountValue(holder))) else d
  }

  /** `orderJson.purchase_units?.[0] || {}`: a looked-up order's first
      purchase unit. */
  function UnitOf(orderJson: Json): Json {
    Or(First(Get(orderJson, "purchase_units")), Obj(map[]))
  }

  /** The total taken from the first holder, in order, whose amount value is
      present and prints as a non-empty string; `""` when there is none.
      This is the precedence the handler's `if (!total && ...)` steps give. */
  function TotalFrom(holders: seq<Json>): string {
    if holders == [] then ""
    else
      var v := AmountValue(holders[0]);
      if Truthy(v) && ToJsString(v) != "" then ToJsString(v) else TotalFrom(holders[1..])
  }

  /** A holder ahead of others wins when it gives a total. */
  lemma TotalFromCons(h: Json, rest: seq<Json>)
    ensures TotalFrom([h] + rest) == if TotalFrom([h]) != "" then TotalFrom([h]) else TotalFrom(rest)
  {
    assert ([h] + rest)[1..] == rest;
  }

  /** Taking a total from `holder` continues the precedence. */
  lemma TakeTotalFrom(d: Draft, holder: Json)
    ensures TakeTotal(d, holder).total == if d.total != "" then d.total else TotalFrom([holder])
  {
    assert [holder][1..] == [];
  }

  /** The order lookup after an approval: total (if still missing), items
      and shipping details, stopping where reading the order throws. */
  function ReadApprovedOrder(d: Draft, orderJson: Json): (r: Draft)
    ensures r.calls == d.calls
    ensures Nullish(orderJson) ==> r == d
    ensures !Nullish(orderJson) ==> r.total == if d.total != "" then d.total else TotalFrom([UnitOf(orderJson)])
    ensures !Nullish(orderJson) && OrderItems(UnitOf(orderJson)).Some? ==>
      r.items == OrderItems(UnitOf(orderJson)).value && r.customer == WithShipping(d.customer, UnitOf(orderJson))
    ensures !Nullish(orderJson) && OrderItems(UnitOf(orderJson)).None? ==> r.items == d.items && r.customer == d.customer
    ensures ItemsAreObjects(d.items) ==> ItemsAreObjects(r.items)
  {
    if Nullish(orderJson) then d
    else
      var pu0 := UnitOf(orderJson);
      var withTotal := TakeTotal(d, pu0);
      TakeTotalFrom(d, pu0);
      match OrderItems(pu0)
      case None => withTotal
      case Some(items) => withTotal.(items := items, customer := WithShipping(withTotal.customer, pu0))
  }

  /** The first purchase unit of the event, `resource.purchase_units[0] || {}`. */
  function EventUnit(resource: Json): Json {
    Or(At(Get(resource, "purchase_units"), 0), Obj(map[]))
  }

  /** Where an approval event's total is looked for: the event's first
      purchase unit, then the looked-up order's when that lookup answered. */
  function ApprovedHolders(resource: Json, replies: Replies): seq<Json> {
    [EventUnit(resource)]
      + if replies.order.Answer? && replies.order.ok && !Nullish(replies.order.body)
        then [UnitOf(replies.order.body)] else []
  }

  /** Every place the total is looked for, in the handler's order: for an
      approval event its two holders, then `resource` itself (a capture's
      `resource.amount`), then the event's first purchase unit once more. */
  function TotalHolders(kind: Json, resource: Json, replies: Replies): seq<Json> {
    var units := Get(resource, "purchase_units");
    (if kind == ApprovedType && units.Arr? then ApprovedHolders(resource, replies) else [])
      + [resource]
      + (if units.Arr? then [EventUnit(resource)] else [])
  }

  /** The customer and items after reading a looked-up order: when the
      lookup answered ok with an order whose items can be mapped, those items
      and the customer completed from its shipping details; otherwise what
      was known before. */
  function AfterLookup(customer: map<string, Json>, items: seq<Json>, reply: Reply): (r: (map<string, Json>, seq<Json>))
    ensures !(reply.Answer? && reply.ok) ==> r == (customer, items)
    ensures ItemsAreObjects(items) ==> ItemsAreObjects(r.1)
  {
    if reply.Answer? && reply.ok && !Nullish(reply.body) && OrderItems(UnitOf(reply.body)).Some?
    then (WithShipping(customer, UnitOf(reply.body)), OrderItems(UnitOf(reply.body)).value)
    else (customer, items)
  }

  /** The customer an approval starts from: the payer's given name, surname
      and e-mail address, each `''` when missing. */
  function PayerCustomer(resource: Json): (c: map<string, Json>)
    ensures c.Keys == {"name", "surname", "email"}
  {
    var payer := Or(Get(resource, "payer"), Obj(map[]));
    map[
      "name" := Or(Get(Get(payer, "name"), "given_name"), Str("")),
      "surname" := Or(Get(Get(payer, "name"), "surname"), Str("")),
      "email" := Or(Get(payer, "email_address"), Str(""))]
  }

  /** The order lookup of an approval. */
  function OrderUrl(base: string, resource: Json): string {
    base + "/v2/checkout/orders/" + ToJsString(Get(resource, "id"))
  }

  /** The CHECKOUT.ORDER.APPROVED step: the first purchase unit's amount,
      the payer as customer, then the order lookup. */
  function ApprovedStep(kind: Json, resource: Json, base: string, replies: Replies, d: Draft): (r: Draft)
    ensures NoNotify(d.calls) ==> NoNotify(r.calls)
    ensures ItemsAreObjects(d.items) ==> ItemsAreObjects(r.items)
    ensures !(kind == ApprovedType && Get(resource, "purchase_units").Arr?) ==> r == d
    ensures kind == ApprovedType && Get(resource, "purchase_units").Arr? ==>
      r.total == if d.total != "" then d.total else TotalFrom(ApprovedHolders(resource, replies))
    ensures kind == ApprovedType && Get(resource, "purchase_units").Arr? ==>
      && r.calls == d.calls + [GetOrder(OrderUrl(base, resource))]
      && (r.customer, r.items) == AfterLookup(PayerCustomer(resource), d.items, replies.order)
  {
    var units := Get(resource, "purchase_units");
    if !(kind == ApprovedType && units.Arr?) then d
    else
      var pu := EventUnit(resource);
      TakeTotalFrom(d, pu);
      TotalFromCons(pu, ApprovedHolders(resource, replies)[1..]);
      assert ApprovedHolders(resource, replies) == [pu] + ApprovedHolders(resource, replies)[1..];
      var started := TakeTotal(d, pu).(customer := PayerCustomer(resource),
        calls := d.calls + [GetOrder(OrderUrl(base, resource))]);
      match replies.order
      case Answer(true, orderJson) => ReadApprovedOrder(started, orderJson)
      case _ => started
  }

  /** `rel === 'up'`. */
  predicate UpLink(l: Json) {
    Get(l, "rel") == Str("up")
  }

  /** `/checkout\/orders/.test(l.href)`: the link's text contains
      `checkout/orders`. */
  predicate OrderHref(l: Json) {
    Contains(ToJsString(Get(l, "href")), RegexLiteral.OrderPath)
  }

  predicate Wanted(l: Json, needOrder: bool) {
    UpLink(l) && (!needOrder || OrderHref(l))
  }

  /** `links.find(...)`: the first wanted link, none, or a throw when a
      `null` or `undefined` link is reached first. */
  datatype Found = Hit(link: Json) | Miss | Throws

  /** Where `find` stops: at the first link that is unreadable or wanted,
      or past the end. */
  function StopAt(xs: seq<Json>, needOrder: bool): (k: nat)
    ensures k <= |xs|
    ensures forall i :: 0 <= i < k ==> !Nullish(xs[i]) && !Wanted(xs[i], needOrder)
    ensures k < |xs| ==> Nullish(xs[k]) || Wanted(xs[k], needOrder)
  {
    if xs == [] || Nullish(xs[0]) || Wanted(xs[0], needOrder) then 0
    else
      var k := StopAt(xs[1..], needOrder);
      assert forall i :: 1 <= i < k + 1 ==> xs[i] == xs[1..][i - 1];
      1 + k
  }

  function FindLink(xs: seq<Json>, needOrder: bool): (r: Found)
    ensures r.Hit? ==> exists i :: (0 <= i < |xs| && xs[i] == r.link && Wanted(xs[i], needOrder)
      && forall j :: 0 <= j < i ==> !Nullish(xs[j]) && !Wanted(xs[j], needOrder))
    ensures r.Miss? <==> forall j :: 0 <= j < |xs| ==> !Nullish(xs[j]) && !Wanted(xs[j], needOrder)
    ensures r.Throws? <==> exists i :: (0 <= i < |xs| && Nullish(xs[i])
      && forall j :: 0 <= j < i ==> !Nullish(xs[j]) && !Wanted(xs[j], needOrder))
  {
    var k := StopAt(xs, needOrder);
    if k == |xs| then Miss
    else if Nullish(xs[k]) then Throws
    else Hit(xs[k])
  }

  /** `(orderLink || upLink)?.href` from the capture's links; `None` when
      reading the links throws. */
  function LinkedOrderHref(links: Json): (r: Option<Json>)
  {
    if !links.Arr? then None
    else
      var up := FindLink(links.elems, false);
      var order := FindLink(links.elems, true);
      if up.Throws? || order.Throws? then None
      else if order.Hit? then Some(Get(order.link, "href"))
      else if up.Hit? then Some(Get(up.link, "href"))
      else Some(Undefined)
  }

  /** The linked order after a capture: items and shipping details,
      stopping where reading the order throws. */
  function ReadLinkedOrder(d: Draft, orderJson: Json): (r: Draft)
    ensures r.calls == d.calls && r.total == d.total
    ensures Nullish(orderJson) ==> r == d
    ensures !Nullish(orderJson) && OrderItems(UnitOf(orderJson)).Some? ==>
      r.items == OrderItems(UnitOf(orderJson)).value && r.customer == WithShipping(d.customer, UnitOf(orderJson))
    ensures !Nullish(orderJson) && OrderItems(UnitOf(orderJson)).None? ==> r == d
    ensures ItemsAreObjects(d.items) ==> ItemsAreObjects(r.items)
  {
    if Nullish(orderJson) then d
    else
      var pu0 := UnitOf(orderJson);
      match OrderItems(pu0)
      case None => d
      case Some(items) => d.(items := items, customer := WithShipping(d.customer, pu0))
  }

  /** The capture lookup. */
  function CaptureUrl(base: string, resource: Json): string {
    base + "/v2/payments/captures/" + ToJsString(Get(resource, "id"))
  }

  /** The order link a capture lookup leads to: present when the lookup
      answered ok, its links could be read and the chosen `href` is truthy. */
  function FollowedHref(capture: Reply): (r: Option<Json>)
    ensures r.Some? ==> capture.Answer? && capture.ok && Truthy(r.value)
  {
    if capture.Answer? && capture.ok && !Nullish(capture.body) then
      var href := LinkedOrderHref(Or(Get(capture.body, "links"), Arr([])));
      if href.Some? && Truthy(href.value) then href else None
    else None
  }

  /** The PAYMENT.CAPTURE.COMPLETED step: look the capture up, follow its
      order link, and read that order. */
  function CaptureStep(kind: Json, resource: Json, base: string, replies: Replies, d: Draft): (r: Draft)
    ensures NoNotify(d.calls) ==> NoNotify(r.calls)
    ensures ItemsAreObjects(d.items) ==> ItemsAreObjects(r.items)
    ensures r.total == d.total
    ensures !(kind == CapturedType && Truthy(Get(resource, "id"))) ==> r == d
    ensures kind == CapturedType && Truthy(Get(resource, "id")) && FollowedHref(replies.capture).None? ==>
      r == d.(calls := d.calls + [GetCapture(CaptureUrl(base, resource))])
    ensures kind == CapturedType && Truthy(Get(resource, "id")) && FollowedHref(replies.capture).Some? ==>
      && r.calls == d.calls + [GetCapture(CaptureUrl(base, resource)), GetLinkedOrder(FollowedHref(replies.capture).value)]
      && (r.customer, r.items) == AfterLookup(d.customer, d.items, replies.linked)
  {
    if !(kind == CapturedType && Truthy(Get(resource, "id"))) then d
    else
      var asked := d.(calls := d.calls + [GetCapture(CaptureUrl(base, resource))]);
      match FollowedHref(replies.capture)
      case None => asked
      case Some(href) =>
        var followed := asked.(calls := asked.calls + [GetLinkedOrder(href)]);
        assert followed.calls == d.calls + [GetCapture(CaptureUrl(base, resource)), GetLinkedOrder(href)];
        if replies.linked.Answer? && replies.linked.ok then ReadLinkedOrder(followed, replies.linked.body)
        else followed
  }

  /** `resource.id || resource.invoice_id || ''`. */
  function OrderNumber(resource: Json): (r: Json)
    ensures Truthy(Get(resource, "id")) ==> r == Get(resource, "id")
    ensures !Truthy(Get(resource, "id")) && Truthy(Get(resource, "invoice_id")) ==> r == Get(resource, "invoice_id")
    ensures !Truthy(Get(resource, "id")) && !Truthy(Get(resource, "invoice_id")) ==> r == Str("")
  {
    Or(Or(Get(resource, "id"), Get(resource, "invoice_id")), Str(""))
  }

  /** The draft after the approval step and the two total fallbacks, before
      the capture step. */
  function Prepared(kind: Json, resource: Json, base: string, replies: Replies, calls: seq<Call>): (d: Draft)
    ensures NoNotify(calls) ==> NoNotify(d.calls)
    ensures ItemsAreObjects(d.items)
    ensures d.total == TotalFrom(TotalHolders(kind, resource, replies))
    ensures kind == ApprovedType && Get(resource, "purchase_units").Arr? ==>
      && d.calls == calls + [GetOrder(OrderUrl(base, resource))]
      && (d.customer, d.items) == AfterLookup(PayerCustomer(resource), [], replies.order)
    ensures !(kind == ApprovedType && Get(resource, "purchase_units").Arr?) ==>
      d.calls == calls && d.customer == map[] && d.items == []
  {
    var approved := ApprovedStep(kind, resource, base, replies, Draft("", map[], [], calls));
    var captured := TakeTotal(approved, resource);
    TotalOrder(kind, resource, replies, approved.total);
    var r := if Get(resource, "purchase_units").Arr? then TakeTotal(captured, EventUnit(resource)) else captured;
    assert (r.calls, r.customer, r.items) == (approved.calls, approved.customer, approved.items);
    r
  }

  /** Everything gathered from a verified event, after the four steps in
      the handler's order. */
  function Gather(kind: Json, resource: Json, base: string, replies: Replies, calls: seq<Call>): (d: Draft)
    ensures NoNotify(calls) ==> NoNotify(d.calls)
    ensures ItemsAreObjects(d.items)
    ensures d.total == TotalFrom(TotalHolders(kind, resource, replies))
    ensures kind == ApprovedType && Get(resource, "purchase_units").Arr? ==>
      && d.calls == calls + [GetOrder(OrderUrl(base, resource))]
      && (d.customer, d.items) == AfterLookup(PayerCustomer(resource), [], replies.order)
    ensures kind == CapturedType && Truthy(Get(resource, "id")) ==>
      && d.calls == calls + [GetCapture(CaptureUrl(base, resource))]
                 + (if FollowedHref(replies.capture).Some? then [GetLinkedOrder(FollowedHref(replies.capture).value)] else [])
      && (d.customer, d.items) == (if FollowedHref(replies.capture).Some? then AfterLookup(map[], [], replies.linked) else (map[], []))
    ensures !(kind == ApprovedType && Get(resource, "purchase_units").Arr?) && !(kind == CapturedType && Truthy(Get(resource, "id"))) ==>
      d.calls == calls && d.customer == map[] && d.items == []
  {
    var prepared := Prepared(kind, resource, base, replies, calls);
    var d := CaptureStep(kind, resource, base, replies, prepared);
    if kind == CapturedType && Truthy(Get(resource, "id")) && FollowedHref(replies.capture).Some? then
      var capture := GetCapture(CaptureUrl(base, resource));
      var linked := GetLinkedOrder(FollowedHref(replies.capture).value);
      assert calls + [capture] + [linked] == calls + [capture, linked];
      d
    else d
  }

  /** The four steps' totals chain into one precedence: the approval step's
      holders, then `resource`, then the event's first purchase unit. */
  lemma TotalOrder(kind: Json, resource: Json, replies: Replies, first: string)
    requires kind == ApprovedType && Get(resource, "purchase_units").Arr? ==> first == TotalFrom(ApprovedHolders(resource, replies))
    requires !(kind == ApprovedType && Get(resource, "purchase_units").Arr?) ==> first == ""
    ensures TotalFrom(TotalHolders(kind, resource, replies)) ==
      var second := if first != "" then first else TotalFrom([resource]);
      if second != "" || !Get(resource, "purchase_units").Arr? then second else TotalFrom([EventUnit(resource)])
  {
    var units := Get(resource, "purchase_units");
    var head := if kind == ApprovedType && units.Arr? then ApprovedHolders(resource, replies) else [];
    var tail := if units.Arr? then [EventUnit(resource)] else [];
    TotalFromAppend(head, [resource] + tail);
    TotalFromCons(resource, tail);
    assert TotalHolders(kind, resource, replies) == head + ([resource] + tail);
  }

  /** Holders ahead win: a total from `a` is the total of `a + b`. */
  lemma {:induction false} TotalFromAppend(a: seq<Json>, b: seq<Json>)
    ensures TotalFrom(a + b) == if TotalFrom(a) != "" then TotalFrom(a) else TotalFrom(b)
    decreases |a|
  {
    if a != [] {
      assert (a + b)[0] == a[0];
      assert (a + b)[1..] == a[1..] + b;
      TotalFromAppend(a[1..], b);
    } else {
      assert a + b == b;
    }
  }

  /** For an approval whose event carries no amount, the looked-up order's
      amount is the total, ahead of any `resource.amount`. */
  lemma FetchedOrderWins(resource: Json, base: string, replies: Replies, calls: seq<Call>)
    requires Get(resource, "purchase_units").Arr? && TotalFrom([EventUnit(resource)]) == ""
    requires replies.order.Answer? && replies.order.ok && !Nullish(replies.order.body)
    requires TotalFrom([UnitOf(replies.order.body)]) != ""
    ensures Gather(ApprovedType, resource, base, replies, calls).total == TotalFrom([UnitOf(replies.order.body)])
  {
    var fetched := [UnitOf(replies.order.body)];
    TotalFromCons(EventUnit(resource), fetched);
    assert ApprovedHolders(resource, replies) == [EventUnit(resource)] + fetched;
    TotalFromAppend(ApprovedHolders(resource, replies), TotalHolders(ApprovedType, resource, replies)[2..]);
    assert TotalHolders(ApprovedType, resource, replies)
      == ApprovedHolders(resource, replies) + TotalHolders(ApprovedType, resource, replies)[2..];
  }

  /** What the relay needs to accept a PayPal order: a non-empty total, a
      customer object and a list of item objects. */
  predicate Forwardable(p: Json) {
    && Get(p, "provider") == Str("paypal")
    && Get(p, "total").Str? && Get(p, "total").s != ""
    && Get(p, "customer").Obj?
    && Get(p, "items").Arr? && ItemsAreObjects(Get(p, "items").elems)
  }

  /** The payload forwarded to the notification relay. */
  function Payload(resource: Json, d: Draft): Json {
    Obj(map[
      "provider" := Str("paypal"),
      "orderNumber" := OrderNumber(resource),
      "total" := Str(d.total),
      "customer" := Obj(d.customer),
      "items" := Arr(d.items)])
  }

  /** A payload with a total is one the relay accepts, and it carries the
      resource's order number. */
  lemma PayloadShape(resource: Json, d: Draft)
    requires d.total != "" && ItemsAreObjects(d.items)
    ensures Forwardable(Payload(resource, d))
    ensures Get(Payload(resource, d), "orderNumber") == OrderNumber(resource)
  {
  }

  /** The body of the signature check request. */
  function VerifyBody(req: Request, webhookId: string, event: Json): Json {
    Obj(map[
      "transmission_id" := Header(req, "paypal-transmission-id"),
      "transmission_time" := Header(req, "paypal-transmission-time"),
      "cert_url" := Header(req, "paypal-cert-url"),
      "auth_algo" := Header(req, "paypal-auth-algo"),
      "transmission_sig" := Header(req, "paypal-transmission-sig"),
      "webhook_id" := Str(webhookId),
      "webhook_event" := event])
  }

  predicate Configured(c: Config) {
    Present(c.webhookId) && Present(c.clientId) && Present(c.clientSecret)
  }

  /** `event.event_type || event.eventType || ''`. */
  function EventKind(event: Json): Json {
    Or(Or(Get(event, "event_type"), Get(event, "eventType")), Str(""))
  }

  /** `event.resource || {}`. */
  function ResourceOf(event: Json): Json {
    Or(Get(event, "resource"), Obj(map[]))
  }

  /** The signature is accepted: the token call and the check both answer
      ok and the check reports SUCCESS. */
  predicate SignatureAccepted(replies: Replies) {
    && replies.token.Answer? && replies.token.ok && !Nullish(replies.token.body)
    && replies.verify.Answer? && replies.verify.ok && !Nullish(replies.verify.body)
    && Get(replies.verify.body, "verification_status") == Str("SUCCESS")
  }

  /** A token was granted, and the signature check answered but either not
      ok or without `verification_status: 'SUCCESS'`. */
  predicate SignatureRejected(replies: Replies) {
    && replies.token.Answer? && replies.token.ok && !Nullish(replies.token.body)
    && replies.verify.Answer?
    && (!replies.verify.ok
        || (!Nullish(replies.verify.body) && Get(replies.verify.body, "verification_status") != Str("SUCCESS")))
  }

  /** The token request and the signature check, with the event, the five
      transmission headers and the webhook id. */
  function SignatureCalls(req: Request, config: Config): seq<Call>
    requires Configured(config)
  {
    [RequestToken(ApiBase(config) + "/v1/oauth2/token"),
     VerifySignature(ApiBase(config) + "/v1/notifications/verify-webhook-signature",
       VerifyBody(req, config.webhookId.value, BodyOf(req)))]
  }

  /** The handler: 405 for anything but POST, 500 without the three PayPal
      settings, 401 when no token is granted, 400 for a rejected signature
      or an event without a total, and otherwise one forwarded
      notification and "OK" (or the handler's 500 when that call throws). */
  function Handle(req: Request, config: Config, replies: Replies): (r: Response<Call>)
    ensures !IsPost(req) ==> r == Response(405, Text("Method not allowed"), [])
    ensures IsPost(req) && !Configured(config) ==>
      r == Response(500, Text("Server not configured for PayPal verification"), [])
    ensures r.status == 401 <==> IsPost(req) && Configured(config) && replies.token.Answer? && !replies.token.ok
    ensures r.status == 401 ==> r.effects == [RequestToken(ApiBase(config) + "/v1/oauth2/token")]
    ensures IsPost(req) && Configured(config) && SignatureRejected(replies) ==>
      r == Response(400, Text("Invalid signature"), SignatureCalls(req, config))
    ensures !NoNotify(r.effects) ==> IsPost(req) && Configured(config) && SignatureAccepted(replies)
    ensures r.status == 200 ==> r.body == Text("OK") && r.effects != [] && Last(r.effects).Notify? && !replies.notify.Failed?
    ensures r.status == 200 ==> Last(r.effects).url == PublicUrl(config) + "/api/notify-discord"
    ensures r.status == 200 ==> Forwardable(Last(r.effects).payload)
    ensures r.status == 200 ==> Get(Last(r.effects).payload, "orderNumber") == OrderNumber(ResourceOf(BodyOf(req)))
  {
    if !IsPost(req) then Response(405, Text("Method not allowed"), [])
    else if !Configured(config) then Response(500, Text("Server not configured for PayPal verification"), [])
    else Authorized(req, config, replies)
  }

  /** The token request and the signature check, then `Forward`. */
  function Authorized(req: Request, config: Config, replies: Replies): (r: Response<Call>)
    requires IsPost(req) && Configured(config)
    ensures r.status == 401 <==> replies.token.Answer? && !replies.token.ok
    ensures r.status == 401 ==> r.effects == [RequestToken(ApiBase(config) + "/v1/oauth2/token")]
    ensures SignatureRejected(replies) ==> r == Response(400, Text("Invalid signature"), SignatureCalls(req, config))
    ensures !NoNotify(r.effects) ==> SignatureAccepted(replies)
    ensures r.status == 200 ==> r.body == Text("OK") && r.effects != [] && Last(r.effects).Notify? && !replies.notify.Failed?
    ensures r.status == 200 ==> Last(r.effects).url == PublicUrl(config) + "/api/notify-discord"
    ensures r.status == 200 ==> Forwardable(Last(r.effects).payload)
    ensures r.status == 200 ==> Get(Last(r.effects).payload, "orderNumber") == OrderNumber(ResourceOf(BodyOf(req)))
  {
    var event := BodyOf(req);
    var base := ApiBase(config);
    var tokenCall := [RequestToken(base + "/v1/oauth2/token")];
    match replies.token
    case Failed => Response(500, Text("Internal error"), tokenCall)
    case Answer(false, _) => Response(401, Text("PayPal auth failed"), tokenCall)
    case Answer(true, tokenJson) =>
      if Nullish(tokenJson) then Response(500, Text("Internal error"), tokenCall)
      else
        var calls := tokenCall + [VerifySignature(base + "/v1/notifications/verify-webhook-signature",
          VerifyBody(req, config.webhookId.value, event))];
        assert NoNotify(calls);
        match replies.verify
        case Failed => Response(500, Text("Internal error"), calls)
        case Answer(ok, verifyJson) =>
          if !ok then Response(400, Text("Invalid signature"), calls)
          else if Nullish(verifyJson) then Response(500, Text("Internal error"), calls)
          else if Get(verifyJson, "verification_status") != Str("SUCCESS") then Response(400, Text("Invalid signature"), calls)
          else Forward(req, config, replies, calls)
  }

  function Last(calls: seq<Call>): Call
    requires calls != []
  {
    calls[|calls| - 1]
  }

  /** `NEXT_PUBLIC_URL`, or the shop's own address. */
  function PublicUrl(c: Config): string {
    if Present(c.publicUrl) then c.publicUrl.value else DefaultPublicUrl
  }

  /** After a verified signature: gather, then forward unless no total was
      found. A thrown notification call ends in the handler's 500. */
  function Forward(req: Request, config: Config, replies: Replies, calls: seq<Call>): (r: Response<Call>)
    requires NoNotify(calls)
    ensures r.status == 400 || r.status == 200 || r.status == 500
    ensures !NoNotify(r.effects) <==>
      Gather(EventKind(BodyOf(req)), ResourceOf(BodyOf(req)), ApiBase(config), replies, calls).total != ""
    ensures r.status == 400 <==> Gather(EventKind(BodyOf(req)), ResourceOf(BodyOf(req)), ApiBase(config), replies, calls).total == ""
    ensures r.status == 400 ==> r.body == JsonBody(Obj(map["error" := Str("No total in webhook payload")]))
    ensures r.status != 400 ==> (r.effects != [] && Last(r.effects) ==
      Notify(PublicUrl(config) + "/api/notify-discord",
        Payload(ResourceOf(BodyOf(req)), Gather(EventKind(BodyOf(req)), ResourceOf(BodyOf(req)), ApiBase(config), replies, calls))))
    ensures r.status == 200 <==> r.status != 400 && replies.notify != Failed
    ensures r.status == 200 ==> r.body == Text("OK")
    ensures r.status != 400 ==> Last(r.effects).url == PublicUrl(config) + "/api/notify-discord"
    ensures r.status != 400 ==> Forwardable(Last(r.effects).payload)
    ensures r.status != 400 ==> Get(Last(r.effects).payload, "orderNumber") == OrderNumber(ResourceOf(BodyOf(req)))
  {
    var event := BodyOf(req);
    var resource := ResourceOf(event);
    var d := Gather(EventKind(event), resource, ApiBase(config), replies, calls);
    if d.total == "" then Response(400, JsonBody(Obj(map["error" := Str("No total in webhook payload")])), d.calls)
    else
      var payload := Payload(resource, d);
      PayloadShape(resource, d);
      var sent := d.calls + [Notify(PublicUrl(config) + "/api/notify-discord", payload)];
      assert Last(sent).payload == payload;
      assert !NoNotify(sent) by {
        assert sent[|sent| - 1].Notify?;
      }
      if replies.notify.Failed? then Response(500, Text("Internal error"), sent)
      else Response(200, Text("OK"), sent)
  }

  /** Whatever PayPal event is forwarded, the relay accepts it and posts
      one embed in PayPal's colour and title. */
  lemma RelayAcceptsForwarded(payload: Json, headers: map<string, string>, configured: Option<string>, delivery: NotifyDiscord.Delivery)
    requires Forwardable(payload)
    ensures var r := NotifyDiscord.Respond(Request("POST", headers, payload), configured, delivery, NotifyDiscord.Intended);
      && r.effects != []
      && r.effects[0].embed.color == NotifyDiscord.PaypalColor
      && r.effects[0].embed.title == NotifyDiscord.PaypalTitle
      && (r.status == 200 <==> delivery == NotifyDiscord.Delivered)
  {
    var req := Request("POST", headers, payload);
    assert payload.Obj?;
    assert BodyOf(req) == payload;
    var p := NotifyDiscord.ReadPayload(req);
    assert p.items == Get(payload, "items");
    assert p.customer == Get(payload, "customer");
    assert NotifyDiscord.ValidPayload(p);
    assert NotifyDiscord.ItemsReadable(p.items);
  }

  /** An approved order's total is the first purchase unit's amount
      whenever that is present: the later lookups never replace it. */
  lemma ApprovalTotalFirst(resource: Json, base: string, replies: Replies, calls: seq<Call>)
    requires Get(resource, "purchase_units").Arr?
    requires var v := AmountValue(Or(At(Get(resource, "purchase_units"), 0), Obj(map[])));
      Truthy(v) && ToJsString(v) != ""
    ensures Gather(ApprovedType, resource, base, replies, calls).total
      == ToJsString(AmountValue(Or(At(Get(resource, "purchase_units"), 0), Obj(map[]))))
  {
  }

  /** A completed capture's total is its own amount whenever that is
      present. */
  lemma CaptureTotal(resource: Json, base: string, replies: Replies, calls: seq<Call>)
    requires Truthy(AmountValue(resource)) && ToJsString(AmountValue(resource)) != ""
    ensures Gather(CapturedType, resource, base, replies, calls).total == ToJsString(AmountValue(resource))
  {
    assert CapturedType != ApprovedType;
  }

  /** A shipping name fills in a customer without a name: its first word
      becomes the name and the rest the surname, so together they give back
      the full name. */
  lemma ShippingNameSplit(customer: map<string, Json>, pu0: Json)
    requires !Truthy(Get(Obj(customer), "name"))
    requires ShipFullName(pu0).Str? && ' ' in ShipFullName(pu0).s
    ensures var c := WithShipping(customer, pu0);
      && c["name"].Str? && c["surname"].Str?
      && ' ' !in c["name"].s
      && c["name"].s + " " + c["surname"].s == ShipFullName(pu0).s
  {
    var full := ShipFullName(pu0).s;
    var split := SplitFullName(full);
    var named := NamedFromShipping(customer, pu0);
    assert named["name"] == Str(split.0) && named["surname"] == Str(split.1);
    ShippingKeepsNames(customer, pu0);
  }

  /** The capture's order is looked up through the first 'up' link that
      points at an order, even when another 'up' link comes before it. */
  lemma OrderLinkPreferred(links: seq<Json>, i: nat)
    requires forall k :: 0 <= k < |links| ==> !Nullish(links[k])
    requires i < |links| && Wanted(links[i], true)
    requires forall k :: 0 <= k < i ==> !Wanted(links[k], true)
    ensures LinkedOrderHref(Arr(links)) == Some(Get(links[i], "href"))
  {
    var order := FindLink(links, true);
    assert links[i] in links;
  }

  /** Without an order link, the first 'up' link is followed. */
  lemma UpLinkFallback(links: seq<Json>, i: nat)
    requires forall k :: 0 <= k < |links| ==> !Nullish(links[k]) && !Wanted(links[k], true)
    requires i < |links| && UpLink(links[i])
    requires forall k :: 0 <= k < i ==> !UpLink(links[k])
    ensures LinkedOrderHref(Arr(links)) == Some(Get(links[i], "href"))
  {
    var up := FindLink(links, false);
    assert links[i] in links;
  }
}

=== FILE: regex_literal.dfy ===
/** How a JavaScript regular-expression literal is cut out of source text
    (the lexical grammar of section 12.9.5 of ECMA-262): the body runs from
    the opening slash to the first slash that is neither escaped by a
    backslash nor inside a character class, and the identifier characters
    right after it are the flags. Used for the order-link pattern of the
    PayPal webhook. */
module RegexLiteral {
  import opened Optional
  import opened Text

  /** Where the body starting at index `i` ends: the index of its closing
      slash, or `None` when a line ends or the text runs out first. */
  function BodyEnd(src: string, i: nat, inClass: bool): (r: Option<nat>)
    ensures r.Some? ==> i <= r.value < |src| && src[r.value] == '/'
    decreases |src| - i
  {
    if i >= |src| || src[i] == '\n' then None
    else if src[i] == '\\' then
      if i + 1 < |src| && src[i + 1] != '\n' then BodyEnd(src, i + 2, inClass) else None
    else if inClass then BodyEnd(src, i + 1, src[i] != ']')
    else if src[i] == '[' then BodyEnd(src, i + 1, true)
    else if src[i] == '/' then Some(i)
    else BodyEnd(src, i + 1, false)
  }

  predicate IdentifierPart(c: char) {
    ('a' <= c <= 'z') || ('A' <= c <= 'Z') || ('0' <= c <= '9') || c == '$' || c == '_'
  }

  /** The length of the run of identifier characters from index `j`. */
  function FlagRun(src: string, j: nat): (n: nat)
    ensures j + n <= |src| || (j > |src| && n == 0)
    ensures forall k :: j <= k < j + n ==> IdentifierPart(src[k])
    ensures j + n < |src| ==> !IdentifierPart(src[j + n])
    decreases |src| - j
  {
    if j < |src| && IdentifierPart(src[j]) then 1 + FlagRun(src, j + 1) else 0
  }

  /** A regular-expression literal cut into body and flags. */
  datatype Literal = Literal(body: string, flags: string)

  /** The literal at the start of `src`, which begins with its opening slash. */
  function Lex(src: string): (r: Option<Literal>)
    requires |src| >= 1 && src[0] == '/'
    ensures r.Some? ==> 1 + |r.value.body| < |src| && src[1 + |r.value.body|] == '/'
    ensures r.Some? ==> src[1..1 + |r.value.body|] == r.value.body
  {
    match BodyEnd(src, 1, false)
    case None => None
    case Some(e) => Some(Literal(src[1..e], src[e + 1..e + 1 + FlagRun(src, e + 1)]))
  }

  /** The flags ECMAScript accepts, each at most once. */
  predicate ValidFlags(f: string) {
    (forall i :: 0 <= i < |f| ==> f[i] in "dgimsuvy")
    && (forall i, j :: 0 <= i < j < |f| ==> f[i] != f[j])
  }

  /** The text a body of plain characters and escaped slashes matches. */
  function Unescape(body: string): string {
    if body == [] then []
    else if |body| >= 2 && body[0] == '\\' && body[1] == '/' then "/" + Unescape(body[2..])
    else [body[0]] + Unescape(body[1..])
  }

  /** A character that neither escapes, closes, opens a class nor ends the line. */
  predicate PlainChar(c: char) {
    c != '\\' && c != '/' && c != '[' && c != '\n'
  }

  /** A run of plain characters does not change where the body ends. */
  lemma {:induction false} PlainRun(src: string, i: nat, n: nat)
    requires i + n <= |src|
    requires forall k :: i <= k < i + n ==> PlainChar(src[k])
    ensures BodyEnd(src, i, false) == BodyEnd(src, i + n, false)
    decreases n
  {
    if n > 0 {
      PlainRun(src, i + 1, n - 1);
    }
  }

  /** A run of identifier characters followed by something else. */
  lemma {:induction false} FlagRunOf(src: string, j: nat, f: string)
    requires j + |f| <= |src| && src[j..j + |f|] == f
    requires forall k :: 0 <= k < |f| ==> IdentifierPart(f[k])
    requires j + |f| == |src| || !IdentifierPart(src[j + |f|])
    ensures FlagRun(src, j) == |f|
    decreases |f|
  {
    if |f| > 0 {
      assert src[j] == f[0];
      assert src[j + 1..j + 1 + |f[1..]|] == f[1..];
      FlagRunOf(src, j + 1, f[1..]);
    }
  }

  predicate AllPlain(w: string) {
    forall k :: 0 <= k < |w| ==> PlainChar(w[k])
  }

  predicate AllIdentifier(f: string) {
    forall k :: 0 <= k < |f| ==> IdentifierPart(f[k])
  }

  /** A backslash escaping a backslash, then a slash: the slash closes
      the body. */
  lemma DoubledBackslashCloses(src: string, a: nat)
    requires a + 2 < |src| && src[a] == '\\' && src[a + 1] == '\\' && src[a + 2] == '/'
    ensures BodyEnd(src, a, false) == Some(a + 2)
  {
  }

  /** A backslash escaping a slash: the body runs on, here over plain
      characters up to the next slash at `b`. */
  lemma EscapedSlashContinues(src: string, a: nat, b: nat)
    requires a + 2 <= b < |src| && src[a] == '\\' && src[a + 1] == '/' && src[b] == '/'
    requires forall k :: a + 2 <= k < b ==> PlainChar(src[k])
    ensures BodyEnd(src, a, false) == Some(b)
  {
    PlainRun(src, a + 2, b - a - 2);
  }

  /** Unescaping a plain run changes nothing. */
  lemma {:induction false} UnescapePlain(w: string)
    requires AllPlain(w)
    ensures Unescape(w) == w
  {
    if w != [] {
      UnescapePlain(w[1..]);
    }
  }

  lemma UnescapeSlash(w: string, v: string)
    requires AllPlain(w) && AllPlain(v)
    ensures Unescape(w + "\\/" + v) == w + "/" + v
  {
    var rest := "\\/" + v;
    assert w + "\\/" + v == w + rest;
    UnescapePrefix(w, rest);
    assert rest[0] == '\\' && rest[1] == '/' && rest[2..] == v;
    UnescapePlain(v);
    assert Unescape(rest) == "/" + v;
  }

  lemma {:induction false} UnescapePrefix(w: string, rest: string)
    requires AllPlain(w)
    ensures Unescape(w + rest) == w + Unescape(rest)
  {
    if w != [] {
      var s := w + rest;
      assert s[0] == w[0] && PlainChar(w[0]);
      assert s[1..] == w[1..] + rest;
      UnescapePrefix(w[1..], rest);
      assert Unescape(s) == [w[0]] + Unescape(s[1..]);
      assert w == [w[0]] + w[1..];
    } else {
      assert w + rest == rest;
    }
  }

  /** Line 150 of the PayPal webhook as written: a doubled backslash. */
  const AsWrittenPattern: string := "/checkout" + "\\\\" + "/orders/.test(l.href)"

  /** The same pattern with the slash escaped once. */
  const IntendedPattern: string := "/" + IntendedBody + "/.test(l.href)"

  /** Its body: the path with the slash escaped. */
  const IntendedBody: string := "checkout" + "\\/" + "orders"

  /** The text the order-link pattern looks for. */
  const OrderPath: string := "checkout" + "/" + "orders"

  /** The literal at the start of `src` once its closing slash and its
      flag run are known. */
  lemma LexOf(src: string, e: nat, n: nat)
    requires |src| >= 1 && src[0] == '/'
    requires BodyEnd(src, 1, false) == Some(e) && FlagRun(src, e + 1) == n
    ensures Lex(src) == Some(Literal(src[1..e], src[e + 1..e + 1 + n]))
  {
  }

  /** A plain run starting right after the opening slash. */
  lemma PlainAfterOpening(src: string, e: nat)
    requires 1 <= e <= |src| && AllPlain(src[1..e])
    ensures BodyEnd(src, 1, false) == BodyEnd(src, e, false)
  {
    forall k | 1 <= k < e ensures PlainChar(src[k]) {
      assert src[k] == src[1..e][k - 1];
    }
    PlainRun(src, 1, e - 1);
  }

  /** A literal whose body is plain text and a doubled backslash at `a`:
      the backslash escapes the backslash, so the next slash closes the
      body, and the identifier characters after it are read as flags. */
  lemma LexAfterDoubledBackslash(src: string, a: nat, f: nat)
    requires |src| >= 1 && src[0] == '/'
    requires 1 <= a && a + 3 + f <= |src| && AllPlain(src[1..a])
    requires src[a] == '\\' && src[a + 1] == '\\' && src[a + 2] == '/'
    requires AllIdentifier(src[a + 3..a + 3 + f])
    requires a + 3 + f == |src| || !IdentifierPart(src[a + 3 + f])
    ensures Lex(src) == Some(Literal(src[1..a + 2], src[a + 3..a + 3 + f]))
  {
    PlainAfterOpening(src, a);
    DoubledBackslashCloses(src, a);
    FlagsAt(src, a + 3, f);
    LexOf(src, a + 2, f);
  }

  /** A run of `f` identifier characters at `j` that something else
      follows is the flag run there. */
  lemma FlagsAt(src: string, j: nat, f: nat)
    requires j + f <= |src| && AllIdentifier(src[j..j + f])
    requires j + f == |src| || !IdentifierPart(src[j + f])
    ensures FlagRun(src, j) == f
  {
    FlagRunOf(src, j, src[j..j + f]);
  }

  /** A literal whose body is plain text, an escaped slash at `a` and more
      plain text up to the slash at `b`, which something other than a flag
      follows: the body is all of it and there are no flags. */
  lemma LexAfterEscapedSlash(src: string, a: nat, b: nat)
    requires |src| >= 1 && src[0] == '/'
    requires 1 <= a && a + 2 <= b < |src| && AllPlain(src[1..a]) && AllPlain(src[a + 2..b])
    requires src[a] == '\\' && src[a + 1] == '/' && src[b] == '/'
    requires b + 1 == |src| || !IdentifierPart(src[b + 1])
    ensures Lex(src) == Some(Literal(src[1..b], ""))
  {
    PlainAfterOpening(src, a);
    forall k | a + 2 <= k < b ensures PlainChar(src[k]) {
      assert src[k] == src[a + 2..b][k - a - 2];
    }
    EscapedSlashContinues(src, a, b);
    FlagsAt(src, b + 1, 0);
    LexOf(src, b, 0);
  }

  /** The characters of the pattern as written that the lexer looks at. */
  lemma AsWrittenChars()
    ensures |AsWrittenPattern| == 32 && AsWrittenPattern[0] == '/'
    ensures AsWrittenPattern[9] == '\\' && AsWrittenPattern[10] == '\\' && AsWrittenPattern[11] == '/'
    ensures AsWrittenPattern[18] == '/'
  {
  }

  lemma AsWrittenRuns()
    ensures AsWrittenPattern[1..9] == "checkout" && AsWrittenPattern[12..18] == "orders"
  {
  }

  /** The characters of the intended pattern that the lexer looks at. */
  lemma IntendedChars()
    ensures |IntendedPattern| == 31 && IntendedPattern[0] == '/'
    ensures IntendedPattern[9] == '\\' && IntendedPattern[10] == '/' && IntendedPattern[17] == '/'
    ensures IntendedPattern[18] == '.'
  {
  }

  lemma IntendedRuns()
    ensures IntendedPattern[1..9] == "checkout" && IntendedPattern[11..17] == "orders"
    ensures IntendedPattern[1..17] == IntendedBody
  {
    MiddleSlice("/", IntendedBody, "/.test(l.href)");
  }

  /** The middle of three joined pieces. */
  lemma MiddleSlice(a: string, b: string, c: string)
    ensures (a + b + c)[|a|..|a| + |b|] == b
  {
  }

  lemma CheckoutPlain()
    ensures AllPlain("checkout") && AllPlain("orders") && AllIdentifier("orders")
  {
  }

  /** As written, the doubled backslash escapes itself, so the literal
      closes at the slash that was meant to be matched: the body is
      `checkout` and two backslashes, and the flags are `orders`, which are
      not flags, so the file is rejected before the handler can run. */
  lemma AsWrittenLiteralDoesNotParse(src: string)
    requires src == AsWrittenPattern
    ensures Lex(src).Some? && Lex(src).value.flags == "orders"
    ensures |Lex(src).value.body| == 10 && Lex(src).value.body[9] == '\\'
    ensures !ValidFlags(Lex(src).value.flags)
  {
    AsWrittenChars();
    AsWrittenRuns();
    CheckoutPlain();
    LexAfterDoubledBackslash(src, 9, 6);
    OrdersAreNotFlags();
  }

  lemma OrdersAreNotFlags()
    ensures !ValidFlags("orders")
  {
    assert "orders"[0] == 'o';
  }

  /** With the slash escaped once, the literal is the whole pattern, has
      no flags, and matches exactly the text `checkout/orders`. */
  lemma IntendedLiteralParses(src: string)
    requires src == IntendedPattern
    ensures Lex(src).Some? && Lex(src).value.flags == ""
    ensures Unescape(Lex(src).value.body) == OrderPath
  {
    IntendedChars();
    IntendedRuns();
    CheckoutPlain();
    LexAfterEscapedSlash(src, 9, 17);
    UnescapeSlash("checkout", "orders");
  }
}

=== FILE: seqs.dfy ===
/** Order-keeping selection from a sequence: JavaScript's
    `Array.prototype.filter`, which the stores, the page and the service
    worker use to drop entries, and the character loops that keep some
    characters of a string. */
module Seqs {
  /** `r` is `s` with some elements left out: the elements of `r` can be
      matched, in order, to increasing positions of `s`. */
  ghost predicate IsSubsequence<T(!new)>(r: seq<T>, s: seq<T>)
    decreases |s|
  {
    r == [] || (s != [] && ((r[0] == s[0] && IsSubsequence(r[1..], s[1..])) || IsSubsequence(r, s[1..])))
  }

  /** `s.filter(keep)`: the elements that satisfy `keep`, in order. What it
      keeps is stated by `FilterCounts` and `FilterOrder`. */
  function Filter<T(!new)>(s: seq<T>, keep: T -> bool): (r: seq<T>)
    ensures |r| <= |s|
    ensures forall i :: 0 <= i < |r| ==> keep(r[i])
    ensures (forall i :: 0 <= i < |s| ==> keep(s[i])) ==> r == s
  {
    if s == [] then []
    else
      assert s == [s[0]] + s[1..];
      var rest := Filter(s[1..], keep);
      if keep(s[0]) then
        assert ([s[0]] + rest)[1..] == rest;
        [s[0]] + rest
      else rest
  }

  /** Every element that passes is kept as often as it occurs, every other
      one is dropped. */
  lemma {:induction false} FilterCounts<T(!new)>(s: seq<T>, keep: T -> bool)
    ensures forall x :: multiset(Filter(s, keep))[x] == if keep(x) then multiset(s)[x] else 0
    decreases |s|
  {
    if s != [] {
      FilterCounts(s[1..], keep);
      assert s == [s[0]] + s[1..];
      var rest := Filter(s[1..], keep);
      if keep(s[0]) {
        assert Filter(s, keep) == [s[0]] + rest;
        assert multiset(Filter(s, keep)) == multiset([s[0]]) + multiset(rest);
      }
      assert multiset(s) == multiset([s[0]]) + multiset(s[1..]);
    }
  }

  /** The kept elements stay in their original order. */
  lemma {:induction false} FilterOrder<T(!new)>(s: seq<T>, keep: T -> bool)
    ensures IsSubsequence(Filter(s, keep), s)
    decreases |s|
  {
    if s != [] {
      FilterOrder(s[1..], keep);
      var rest := Filter(s[1..], keep);
      if keep(s[0]) {
        assert Filter(s, keep) == [s[0]] + rest;
        assert ([s[0]] + rest)[1..] == rest;
      }
    }
  }

  /** A prefix of a subsequence is a subsequence. */
  lemma {:induction false} PrefixIsSubsequence<T(!new)>(r: seq<T>, s: seq<T>, n: nat)
    requires n <= |r| && IsSubsequence(r, s)
    ensures IsSubsequence(r[..n], s)
    decreases |s|
  {
    if n > 0 {
      if r[0] == s[0] && IsSubsequence(r[1..], s[1..]) {
        PrefixIsSubsequence(r[1..], s[1..], n - 1);
        assert r[..n][0] == s[0] && r[..n][1..] == r[1..][..n - 1];
      } else {
        PrefixIsSubsequence(r, s[1..], n);
      }
    }
  }

  /** Filtering works piece by piece: the kept elements of `a + b` are those
      of `a` followed by those of `b`. */
  lemma {:induction false} FilterAppend<T(!new)>(a: seq<T>, b: seq<T>, keep: T -> bool)
    ensures Filter(a + b, keep) == Filter(a, keep) + Filter(b, keep)
    decreases |a|
  {
    if a == [] {
      assert a + b == b;
    } else {
      assert (a + b)[0] == a[0];
      assert (a + b)[1..] == a[1..] + b;
      FilterAppend(a[1..], b, keep);
      var rest := Filter(a[1..] + b, keep);
      assert Filter(a + b, keep) == if keep(a[0]) then [a[0]] + rest else rest;
      assert Filter(a, keep) == if keep(a[0]) then [a[0]] + Filter(a[1..], keep) else Filter(a[1..], keep);
    }
  }

  /** Nothing is kept of a sequence none of whose elements pass. */
  lemma {:induction false} FilterNone<T(!new)>(s: seq<T>, keep: T -> bool)
    requires forall i :: 0 <= i < |s| ==> !keep(s[i])
    ensures Filter(s, keep) == []
    decreases |s|
  {
    if s != [] {
      FilterNone(s[1..], keep);
    }
  }

  lemma FilterMembers<T(!new)>(s: seq<T>, keep: T -> bool)
    ensures forall x :: x in Filter(s, keep) <==> x in s && keep(x)
  {
    var r := Filter(s, keep);
    FilterCounts(s, keep);
    forall x ensures x in r <==> x in s && keep(x) {
      assert x in r <==> multiset(r)[x] > 0;
      assert x in s <==> multiset(s)[x] > 0;
    }
  }

  /** Filters with pointwise equal tests select the same elements. */
  lemma {:induction false} FilterSame<T(!new)>(s: seq<T>, a: T -> bool, b: T -> bool)
    requires forall x :: a(x) == b(x)
    ensures Filter(s, a) == Filter(s, b)
    decreases |s|
  {
    if s != [] {
      FilterSame(s[1..], a, b);
    }
  }

  /** Two filters in a row are one filter by the conjunction. */
  lemma {:induction false} FilterCompose<T(!new)>(s: seq<T>, a: T -> bool, b: T -> bool, c: T -> bool)
    requires forall x :: c(x) == (a(x) && b(x))
    ensures Filter(Filter(s, a), b) == Filter(s, c)
    decreases |s|
  {
    if s != [] {
      FilterCompose(s[1..], a, b, c);
    }
  }

  /** A filter and its complement split the sequence: together they keep
      every element exactly once. */
  lemma {:induction false} FilterSplits<T(!new)>(s: seq<T>, keep: T -> bool, drop: T -> bool)
    requires forall x :: drop(x) == !keep(x)
    ensures |Filter(s, keep)| + |Filter(s, drop)| == |s|
    decreases |s|
  {
    if s != [] {
      FilterSplits(s[1..], keep, drop);
    }
  }

  /** A relation between every earlier and every later element. */
  ghost predicate Pairwise<T(!new)>(s: seq<T>, rel: (T, T) -> bool) {
    forall i, j :: 0 <= i < j < |s| ==> rel(s[i], s[j])
  }

  /** Dropping elements keeps any relation that held between every earlier
      and later element: distinct entries stay distinct. */
  lemma {:induction false} FilterPairwise<T(!new)>(s: seq<T>, keep: T -> bool, rel: (T, T) -> bool)
    requires Pairwise(s, rel)
    ensures Pairwise(Filter(s, keep), rel)
    decreases |s|
  {
    if s != [] {
      var tail := s[1..];
      assert Pairwise(tail, rel) by {
        forall i, j | 0 <= i < j < |tail| ensures rel(tail[i], tail[j]) {
          assert tail[i] == s[i + 1] && tail[j] == s[j + 1];
        }
      }
      FilterPairwise(tail, keep, rel);
      var rest := Filter(tail, keep);
      if keep(s[0]) {
        FilterMembers(tail, keep);
        var r := [s[0]] + rest;
        forall i, j | 0 <= i < j < |r| ensures rel(r[i], r[j]) {
          if i == 0 {
            assert r[j] == rest[j - 1] && rest[j - 1] in tail;
            var k :| 0 <= k < |tail| && tail[k] == r[j];
            assert s[k + 1] == r[j];
          } else {
            assert r[i] == rest[i - 1] && r[j] == rest[j - 1];
          }
        }
      }
    }
  }
}

=== FILE: service_worker.dfy ===
/** The offline service worker (`public/service-worker.js`): which fetches
    it intercepts and with which strategy, what each strategy serves and
    caches, first-in-first-out trimming of a cache, and the caches deleted
    on activation. URL parsing is taken as given (the request carries its
    pathname and hostname) and the Cache Storage API is a list of keys. */
module ServiceWorker {
  import opened Text
  import opened Seqs

  const CacheVersion: string := "christmas-shop-v1"
  const StaticCache: string := CacheVersion + "-static"
  const DynamicCache: string := CacheVersion + "-dynamic"
  const ImageCache: string := CacheVersion + "-images"

  /** The entry limits of the image and dynamic caches. */
  const ImageLimit: nat := 60
  const DynamicLimit: nat := 50

  datatype Request = Request(
    verb: string,
    url: string,
    destination: string,
    pathname: string,
    hostname: string)

  // ---------------------------------------------------------------------
  // Pattern helpers for the worker's case-insensitive regular expressions

  /** `c` matches the lower-case ASCII letter or digit `p` under the `i` flag. */
  predicate SameIgnoringCase(c: char, p: char) {
    c == p || ('a' <= p <= 'z' && c as int == p as int - 32)
  }

  /** `s[i..]` starts with `word`, ignoring ASCII case. */
  predicate MatchesAt(s: string, i: nat, word: string) {
    i + |word| <= |s| && forall k :: 0 <= k < |word| ==> SameIgnoringCase(s[i + k], word[k])
  }

  /** `s` ends with `'.' + ext`, ignoring case: `/\.(ext)$/i`. */
  predicate EndsWithExtension(s: string, ext: string) {
    |s| >= |ext| + 1 && s[|s| - |ext| - 1] == '.' && MatchesAt(s, |s| - |ext|, ext)
  }

  predicate EndsWithOneOf(s: string, exts: seq<string>) {
    exists e | e in exts :: EndsWithExtension(s, e)
  }

  /** The end of the text or a '?' at `i`: `($|\?)`. */
  predicate EndOrQuery(s: string, i: nat) {
    i == |s| || (i < |s| && s[i] == '?')
  }

  /** `/\.html?($|\?)/i` anywhere in `p`. */
  predicate HtmlPath(p: string) {
    exists i | 0 <= i <= |p| ::
      MatchesAt(p, i, ".htm")
      && (EndOrQuery(p, i + 4) || (MatchesAt(p, i + 4, "l") && EndOrQuery(p, i + 5)))
  }

  /** `/\.xml($|\?)/i` anywhere in `p`. */
  predicate XmlPath(p: string) {
    exists i | 0 <= i <= |p| :: MatchesAt(p, i, ".xml") && EndOrQuery(p, i + 4)
  }

  // ---------------------------------------------------------------------
  // Routing

  const ImageExtensions: seq<string> := ["jpg", "jpeg", "png", "gif", "webp", "svg", "ico"]
  const StaticExtensions: seq<string> := ["js", "css", "woff", "woff2", "ttf", "otf"]

  /** `isImageRequest`. */
  predicate IsImageRequest(r: Request) {
    r.destination == "image" || EndsWithOneOf(r.url, ImageExtensions)
  }

  /** `isApiRequest`. */
  predicate IsApiRequest(r: Request) {
    StartsWith(r.pathname, "/api/") || Contains(r.hostname, "firebase") || Contains(r.hostname, "googleapis")
  }

  /** `isStaticAsset`. */
  predicate IsStaticAsset(r: Request) {
    r.destination == "script" || r.destination == "style" || r.destination == "font"
    || EndsWithOneOf(r.url, StaticExtensions)
  }

  /** Requests the worker leaves to the browser. */
  predicate Bypassed(r: Request) {
    || r.verb != "GET"
    || !StartsWith(r.url, "http")
    || r.destination == "document" || HtmlPath(r.pathname) || XmlPath(r.pathname)
    || (r.destination == "image" && StartsWith(r.pathname, "/products/megztiniai/"))
  }

  datatype Route = NotIntercepted | ImageRoute | ApiRoute | StaticRoute | DynamicRoute

  /** The fetch listener's decision. */
  function RouteOf(r: Request): (route: Route)
    ensures route == NotIntercepted <==> Bypassed(r)
    ensures route == ImageRoute <==> !Bypassed(r) && IsImageRequest(r)
    ensures route == ApiRoute <==> !Bypassed(r) && !IsImageRequest(r) && IsApiRequest(r)
    ensures route == StaticRoute <==>
      !Bypassed(r) && !IsImageRequest(r) && !IsApiRequest(r) && IsStaticAsset(r)
    ensures route == DynamicRoute <==>
      !Bypassed(r) && !IsImageRequest(r) && !IsApiRequest(r) && !IsStaticAsset(r)
  {
    if r.verb != "GET" then NotIntercepted
    else if !StartsWith(r.url, "http") then NotIntercepted
    else if r.destination == "document" || HtmlPath(r.pathname) || XmlPath(r.pathname) then NotIntercepted
    else if r.destination == "image" && StartsWith(r.pathname, "/products/megztiniai/") then NotIntercepted
    else if IsImageRequest(r) then ImageRoute
    else if IsApiRequest(r) then ApiRoute
    else if IsStaticAsset(r) then StaticRoute
    else DynamicRoute
  }

  /** A page path ending in ".html", in any letter case, is never intercepted. */
  lemma HtmlPagesBypassed(r: Request, stem: string)
    requires r.pathname == stem + ".HTML" || r.pathname == stem + ".html"
    ensures RouteOf(r) == NotIntercepted
  {
    var i := |stem|;
    assert MatchesAt(r.pathname, i, ".htm");
    assert MatchesAt(r.pathname, i + 4, "l");
  }

  /** An image file URL is an image request whatever its destination. */
  lemma PngIsImage(r: Request, stem: string)
    requires r.url == stem + ".PNG"
    requires !Bypassed(r)
    ensures RouteOf(r) == ImageRoute
  {
    assert "png" in ImageExtensions;
    assert EndsWithExtension(r.url, "png");
  }

  // ---------------------------------------------------------------------
  // Strategies

  /** The network's answer: a response with its status, or a thrown error
      (for the API route this includes the five-second timeout). */
  datatype Network = Answer(status: int) | Failed

  predicate Ok(status: int) {
    200 <= status <= 299
  }

  /** Where the served response comes from. */
  datatype Served = FromCache | FromNetwork(status: int) | Synthetic(status: int)

  /** A cache write the strategy starts: a put, optionally followed by
      trimming that cache to a limit, or a background refresh. */
  datatype CacheWrite = Put(cache: string) | PutAndTrim(cache: string, limit: nat) | Refresh(cache: string)

  /** Images and static assets are served cache first; API calls and every
      other request network first. */
  predicate CacheFirst(route: Route) {
    route == ImageRoute || route == StaticRoute
  }

  /** The response and the cache writes of one intercepted request.
      `inOwnCache` is a hit in the route's own cache, `inAnyCache` a hit in
      any cache (`caches.match`), so the first implies the second. */
  function Handle(route: Route, inOwnCache: bool, inAnyCache: bool, net: Network): (r: (Served, seq<CacheWrite>))
    requires route != NotIntercepted
    requires inOwnCache ==> inAnyCache
    ensures net.Failed? ==> forall w :: w in r.1 ==> w.Refresh?
    ensures forall w :: w in r.1 && !w.Refresh? ==> net.Answer? && Ok(net.status) && r.0 == FromNetwork(net.status)
    ensures r.0.FromNetwork? ==> net == Answer(r.0.status)
    ensures r.0.FromCache? ==> inAnyCache
    ensures CacheFirst(route) && inOwnCache ==> r.0 == FromCache
    ensures (!CacheFirst(route) || !inOwnCache) && net.Answer? ==> r.0 == FromNetwork(net.status)
    ensures route == ImageRoute && !inOwnCache && net.Failed? ==> r.0 == Synthetic(404)
    ensures route != ImageRoute && !(CacheFirst(route) && inOwnCache) && net.Failed? ==>
      r.0 == if inAnyCache then FromCache else Synthetic(if route == StaticRoute then 404 else 503)
    ensures route == StaticRoute && inOwnCache ==> r.1 == [Refresh(StaticCache)]
  {
    match route
    case ImageRoute =>
      if inOwnCache then (FromCache, [])
      else if net.Failed? then (Synthetic(404), [])
      else (FromNetwork(net.status), if Ok(net.status) then [PutAndTrim(ImageCache, ImageLimit)] else [])
    case ApiRoute =>
      if net.Failed? then (if inAnyCache then FromCache else Synthetic(503), [])
      else (FromNetwork(net.status), if Ok(net.status) then [Put(DynamicCache)] else [])
    case StaticRoute =>
      if inOwnCache then (FromCache, [Refresh(StaticCache)])
      else if net.Failed? then (if inAnyCache then FromCache else Synthetic(404), [])
      else (FromNetwork(net.status), if Ok(net.status) then [Put(StaticCache)] else [])
    case DynamicRoute =>
      if net.Failed? then (if inAnyCache then FromCache else Synthetic(503), [])
      else (FromNetwork(net.status), if Ok(net.status) then [PutAndTrim(DynamicCache, DynamicLimit)] else [])
  }

  /** The image and dynamic caches are trimmed after every write to them;
      API responses go into the dynamic cache without a trim. */
  lemma TrimmedWrites(inOwn: bool, inAny: bool, status: int)
    requires Ok(status) && (inOwn ==> inAny)
    ensures !inOwn ==> Handle(ImageRoute, inOwn, inAny, Answer(status)).1 == [PutAndTrim(ImageCache, 60)]
    ensures Handle(DynamicRoute, inOwn, inAny, Answer(status)).1 == [PutAndTrim(DynamicCache, 50)]
    ensures Handle(ApiRoute, inOwn, inAny, Answer(status)).1 == [Put(DynamicCache)]
  {
  }

  // ---------------------------------------------------------------------
  // limitCacheSize

  /** `cache.delete(key)` on a list of keys. */
  function Delete(keys: seq<string>, key: string): (r: seq<string>)
    ensures key !in r
    ensures forall k :: k in r <==> k in keys && k != key
    ensures IsSubsequence(r, keys)
  {
    var keep := (k: string) => k != key;
    FilterMembers(keys, keep);
    FilterOrder(keys, keep);
    Filter(keys, keep)
  }

  predicate Distinct(keys: seq<string>) {
    forall i, j :: 0 <= i < j < |keys| ==> keys[i] != keys[j]
  }

  /** Deleting the first key of a list without repeats leaves the rest. */
  lemma DeleteFirst(keys: seq<string>)
    requires |keys| > 0 && Distinct(keys)
    ensures Delete(keys, keys[0]) == keys[1..]
  {
    var rest := keys[1..];
    assert keys[0] !in rest by {
      forall k | 0 <= k < |rest| ensures rest[k] != keys[0] {
        assert rest[k] == keys[k + 1];
      }
    }
    DeleteAbsent(rest, keys[0]);
  }

  lemma DeleteAbsent(keys: seq<string>, key: string)
    requires key !in keys
    ensures Delete(keys, key) == keys
  {
    assert forall i :: 0 <= i < |keys| ==> keys[i] != key;
  }

  /** `limitCacheSize(cacheName, maxItems)`: when over the limit, the
      oldest `length - maxItems` keys are deleted one at a time. */
  method LimitCacheSize(keys: seq<string>, maxItems: nat) returns (cache: seq<string>)
    requires Distinct(keys)
    ensures |keys| <= maxItems ==> cache == keys
    ensures |keys| > maxItems ==> cache == keys[|keys| - maxItems..]
    ensures |cache| <= maxItems || cache == keys
  {
    cache := keys;
    if |keys| > maxItems {
      var toDelete := |keys| - maxItems;
      var i := 0;
      while i < toDelete
        invariant 0 <= i <= toDelete
        invariant cache == keys[i..]
      {
        assert Distinct(cache) by {
          forall a, b | 0 <= a < b < |cache| ensures cache[a] != cache[b] {
            assert cache[a] == keys[i + a] && cache[b] == keys[i + b];
          }
        }
        DeleteFirst(cache);
        cache := Delete(cache, keys[i]);
        i := i + 1;
      }
    }
  }

  // ---------------------------------------------------------------------
  // Activation

  /** The caches the activate handler deletes. */
  predicate Stale(name: string) {
    StartsWith(name, "christmas-shop-") && name != StaticCache && name != DynamicCache && name != ImageCache
  }

  function StaleCaches(names: seq<string>): (r: seq<string>)
    ensures forall n :: n in r <==> n in names && Stale(n)
    ensures IsSubsequence(r, names)
  {
    FilterMembers(names, Stale);
    FilterOrder(names, Stale);
    Filter(names, Stale)
  }

  /** After activation only the current caches and caches that are not the
      shop's remain. */
  lemma ActivationKeeps(names: seq<string>, n: string)
    requires n in names
    ensures n !in StaleCaches(names) <==>
      (n == StaticCache || n == DynamicCache || n == ImageCache || !StartsWith(n, "christmas-shop-"))
  {
  }

  /** An older version's cache is deleted. */
  lemma OldVersionDeleted(names: seq<string>, suffix: string)
    requires "christmas-shop-v0" + suffix in names
    ensures "christmas-shop-v0" + suffix in StaleCaches(names)
  {
    var n := "christmas-shop-v0" + suffix;
    assert n[..15] == "christmas-shop-";
    assert n != StaticCache && n != DynamicCache && n != ImageCache by {
      assert n[16] == '0';
      assert StaticCache[16] == '1' && DynamicCache[16] == '1' && ImageCache[16] == '1';
    }
  }
}

=== FILE: stripe_webhook.dfy ===
/** The Stripe event receiver (`api/stripe-webhook.js`): after the signature
    check, a successful payment intent is announced on Discord; every
    verified event is acknowledged with "OK". */
module StripeWebhook {
  import opened Optional
  import opened Numbers
  import opened JsValue
  import opened Http
  import PaymentIntent

  /** What `stripe.webhooks.constructEvent` gives for the raw body and its
      signature header: the event's type and `data.object`, or the message
      of the error it throws. The signature scheme itself belongs to the
      provider's library. */
  datatype Verification =
    | Verified(eventType: string, payment: map<string, Json>)
    | Rejected(message: string)

  /** The Discord call; `url` is the configured webhook address, if any (a
      missing address makes the call throw, which the handler ignores). */
  datatype Effect = PostEmbed(url: Option<string>, embed: Embed)

  const SucceededType: string := "payment_intent.succeeded"
  const Title: string := "Naujas u\U{017E}sakymas (Apmok\U{0117}ta)"
  const Color: int := 0x2ECC71
  const Spacer: string := "\U{200B}"

  /** `payment.metadata || {}`. */
  function MetadataOf(payment: map<string, Json>): Json {
    Or(Get(Obj(payment), "metadata"), Obj(map[]))
  }

  /** `md.order_id || \`ORD-${Date.now()}-${Math.floor(Math.random() * 1000)}\``,
      with the clock reading `now` (whole milliseconds) and the random draw
      `draw` as inputs. */
  function OrderNumber(md: Json, now: int, draw: real): (s: string)
    requires 0.0 <= draw < 1.0
    ensures Truthy(Get(md, "order_id")) ==> s == ToJsString(Get(md, "order_id"))
    ensures !Truthy(Get(md, "order_id")) ==>
      exists k: nat :: k < 1000 && s == "ORD-" + IntToString(now) + "-" + NatToString(k)
  {
    if Truthy(Get(md, "order_id")) then ToJsString(Get(md, "order_id"))
    else
      var k: nat := (draw * 1000.0).Floor;
      "ORD-" + IntToString(now) + "-" + NatToString(k)
  }

  /** `(payment.amount / 100).toFixed(2)`, "NaN" when the amount is not a
      number. */
  function AmountText(payment: map<string, Json>): string {
    EuroText(ToNumberValue(Get(Obj(payment), "amount")))
  }

  /** `(n / 100).toFixed(2)` of a number of cents, "NaN" for NaN. */
  function EuroText(cents: Option<real>): string {
    if cents.None? then "NaN" else EuroOf(cents.value)
  }

  /** `(c / 100).toFixed(2)` of a number. */
  function EuroOf(c: real): string {
    ToFixed2(c / 100.0)
  }

  /** An amount of whole cents is shown as those cents in euros, and the
      text reads back as the same amount. */
  lemma AmountShowsCents(payment: map<string, Json>, cents: nat)
    requires "amount" in payment && payment["amount"] == Num(cents as real)
    ensures AmountText(payment) == FixedCents(cents)
    ensures ToNumber(AmountText(payment)) == Some(cents as real / 100.0)
  {
    assert Get(Obj(payment), "amount") == Num(cents as real);
    assert AmountText(payment) == EuroText(Some(cents as real));
    EuroTextOfCents(cents);
    ToNumberOfFixedCents(cents);
  }

  lemma EuroTextOfCents(cents: nat)
    ensures EuroText(Some(cents as real)) == FixedCents(cents)
  {
    EuroTextOf(cents as real);
    ToFixed2OfCents(cents);
  }

  lemma EuroTextOf(v: real)
    ensures EuroText(Some(v)) == EuroOf(v)
  {
  }

  /** The announcement for one successful payment. */
  function BuildEmbed(payment: map<string, Json>, now: int, draw: real): (e: Embed)
    requires 0.0 <= draw < 1.0
    ensures e.title == Title && e.color == Color && |e.fields| == 9
    ensures e.fields[0] == EmbedField("U\U{017E}sakymo numeris", Str(OrderNumber(MetadataOf(payment), now, draw)), true)
    ensures e.fields[1].value == Str("€" + AmountText(payment))
    ensures e.fields[2] == EmbedField(Spacer, Str(Spacer), false)
    ensures forall i :: 3 <= i < 9 ==> e.fields[i].value == Or(Get(MetadataOf(payment), CustomerKeys[i - 3]), Str("-"))
  {
    var md := MetadataOf(payment);
    Embed(Title, Color, [
      EmbedField("U\U{017E}sakymo numeris", Str(OrderNumber(md, now, draw)), true),
      EmbedField("Suma", Str("€" + AmountText(payment)), true),
      EmbedField(Spacer, Str(Spacer), false),
      EmbedField("Vardas", Or(Get(md, "name"), Str("-")), true),
      EmbedField("Pavardė", Or(Get(md, "surname"), Str("-")), true),
      EmbedField("El. paštas", Or(Get(md, "email"), Str("-")), false),
      EmbedField("Telefonas", Or(Get(md, "phone"), Str("-")), false),
      EmbedField("Adresas", Or(Get(md, "address"), Str("-")), false),
      EmbedField("Prekės", Or(Get(md, "items"), Str("-")), false)])
  }

  /** The metadata keys shown after the spacer, in field order. */
  const CustomerKeys: seq<string> := ["name", "surname", "email", "phone", "address", "items"]

  /** The handler: 405 for anything but POST, 400 with the library's
      message for a rejected signature, and "OK" for every verified event,
      with one Discord call for a successful payment intent and none for
      any other event. Whether that call succeeds does not matter. */
  function Handle(req: Request, verification: Verification, webhookUrl: Option<string>, now: int, draw: real): (r: Response<Effect>)
    requires 0.0 <= draw < 1.0
    ensures !IsPost(req) ==> r == Response(405, Text("Method not allowed"), [])
    ensures IsPost(req) && verification.Rejected? ==>
      r == Response(400, Text("Webhook Error: " + verification.message), [])
    ensures r.status == 200 <==> IsPost(req) && verification.Verified?
    ensures r.status == 200 ==> r.body == Text("OK")
    ensures r.effects != [] <==> IsPost(req) && verification.Verified? && verification.eventType == SucceededType
    ensures r.effects != [] ==> r.effects == [PostEmbed(webhookUrl, BuildEmbed(verification.payment, now, draw))]
  {
    if !IsPost(req) then Response(405, Text("Method not allowed"), [])
    else
      match verification
      case Rejected(message) => Response(400, Text("Webhook Error: " + message), [])
      case Verified(eventType, payment) =>
        if eventType == SucceededType then
          Response(200, Text("OK"), [PostEmbed(webhookUrl, BuildEmbed(payment, now, draw))])
        else Response(200, Text("OK"), [])
  }

  /** A payment intent created by the payment-intent endpoint carries no
      `order_id` in its metadata, so its announcement always shows a
      generated `ORD-…` number, and every customer field shows what the
      shop sent, or "-" when that was empty. */
  lemma IntentAnnouncement(body: Json, amount: real, now: int, draw: real)
    requires 0.0 <= draw < 1.0
    ensures var payment := map["amount" := Num(amount), "metadata" := Obj(PaymentIntent.Metadata(body, PaymentIntent.MetadataKeys))];
      var e := BuildEmbed(payment, now, draw);
      && (exists k: nat :: k < 1000 && e.fields[0].value == Str("ORD-" + IntToString(now) + "-" + NatToString(k)))
      && (forall i :: 3 <= i < 9 ==> e.fields[i].value == Or(Get(body, CustomerKeys[i - 3]), Str("-")))
  {
    var md := PaymentIntent.Metadata(body, PaymentIntent.MetadataKeys);
    var payment := map["amount" := Num(amount), "metadata" := Obj(md)];
    assert MetadataOf(payment) == Obj(md);
    NoOrderId(body, md);
    var e := BuildEmbed(payment, now, draw);
    forall i | 3 <= i < 9
      ensures e.fields[i].value == Or(Get(body, CustomerKeys[i - 3]), Str("-"))
    {
      ShownField(body, md, CustomerKeys[i - 3]);
    }
  }

  lemma NoOrderId(body: Json, md: map<string, Json>)
    requires md == PaymentIntent.Metadata(body, PaymentIntent.MetadataKeys)
    ensures !Truthy(Get(Obj(md), "order_id"))
  {
    assert "order_id" !in md;
  }

  /** A customer field reads the request body's value, or "-" for an empty one. */
  lemma ShownField(body: Json, md: map<string, Json>, key: string)
    requires md == PaymentIntent.Metadata(body, PaymentIntent.MetadataKeys)
    requires key in CustomerKeys
    ensures Or(Get(Obj(md), key), Str("-")) == Or(Get(body, key), Str("-"))
  {
    assert key in PaymentIntent.MetadataKeys;
  }
}

=== FILE: text.dfy ===
/** Character classes and string operations used throughout the storefront,
    with the JavaScript meaning of `\s`, `\d`, `trim`, `toLowerCase`,
    `includes`, `startsWith`, `endsWith`, `split` and `join`. Strings are
    sequences of Unicode scalar values. */
module Text {
  import opened Seqs

  /** JavaScript's `\s`: the WhiteSpace and LineTerminator code points. */
  predicate IsWhitespace(c: char) {
    c == ' ' || c == '\t' || c == '\n' || c == '\r' || c == '\U{000B}' || c == '\U{000C}'
    || c == '\U{00A0}' || c == '\U{1680}' || ('\U{2000}' <= c <= '\U{200A}')
    || c == '\U{2028}' || c == '\U{2029}' || c == '\U{202F}' || c == '\U{205F}'
    || c == '\U{3000}' || c == '\U{FEFF}'
  }

  /** JavaScript's `\d`: ASCII digits only. */
  predicate IsDigit(c: char) {
    '0' <= c <= '9'
  }

  predicate AllDigits(s: string) {
    forall i :: 0 <= i < |s| ==> IsDigit(s[i])
  }

  /** The characters of `s` that satisfy `keep`, in order: the loops and
      `replace(/[^...]/g, '')` calls that strip characters from input. It
      is the same selection as `Filter` (see `KeepCharsIsFilter`); this
      character version keeps the string proofs small. */
  function KeepChars(s: string, keep: char -> bool): (r: string)
    ensures |r| <= |s|
    ensures forall i :: 0 <= i < |r| ==> keep(r[i])
    ensures (forall i :: 0 <= i < |s| ==> keep(s[i])) ==> r == s
  {
    if s == [] then []
    else if keep(s[0]) then [s[0]] + KeepChars(s[1..], keep)
    else KeepChars(s[1..], keep)
  }

  /** `KeepChars` selects exactly what `Filter` selects, so every fact about
      `Filter` (counts kept, order kept) holds of it. */
  lemma {:induction false} KeepCharsIsFilter(s: string, keep: char -> bool)
    ensures KeepChars(s, keep) == Filter(s, keep)
    decreases |s|
  {
    if s != [] {
      KeepCharsIsFilter(s[1..], keep);
    }
  }

  /** Keeping characters works piece by piece. */
  lemma {:induction false} KeepCharsAppend(a: string, b: string, keep: char -> bool)
    ensures KeepChars(a + b, keep) == KeepChars(a, keep) + KeepChars(b, keep)
    decreases |a|
  {
    if a == [] {
      assert a + b == b;
    } else {
      assert (a + b)[0] == a[0];
      assert (a + b)[1..] == a[1..] + b;
      KeepCharsAppend(a[1..], b, keep);
    }
  }

  predicate NoWhitespace(s: string) {
    forall i :: 0 <= i < |s| ==> !IsWhitespace(s[i])
  }

  /** `toLowerCase` of one code point, for ASCII, Latin-1 and Latin
      Extended-A (which hold every Lithuanian letter) and the Kelvin sign,
      the one code point outside those blocks that lowers to ASCII.
      Capital I with dot above lowers to two code points. */
  function LowerChar(c: char): (r: string)
    ensures |r| == 1 || c == '\U{0130}'
    ensures 'A' <= c <= 'Z' ==> r == [(c as int + 32) as char]
    ensures 'a' <= c <= 'z' ==> r == [c]
  {
    var n := c as int;
    if 'A' <= c <= 'Z' then [(n + 32) as char]
    else if 0xC0 <= n <= 0xDE && n != 0xD7 then [(n + 32) as char]
    else if 0x100 <= n <= 0x12F && n % 2 == 0 then [(n + 1) as char]
    else if n == 0x130 then "i\U{0307}"
    else if 0x132 <= n <= 0x137 && n % 2 == 0 then [(n + 1) as char]
    else if 0x139 <= n <= 0x148 && n % 2 == 1 then [(n + 1) as char]
    else if 0x14A <= n <= 0x177 && n % 2 == 0 then [(n + 1) as char]
    else if n == 0x178 then "\U{00FF}"
    else if 0x179 <= n <= 0x17E && n % 2 == 1 then [(n + 1) as char]
    else if n == 0x212A then "k"
    else [c]
  }

  /** `toLowerCase` of a whole string. */
  function Lower(s: string): (r: string)
    ensures |r| >= |s|
    ensures AllDigits(s) ==> r == s
  {
    if s == [] then [] else LowerChar(s[0]) + Lower(s[1..])
  }

  lemma LowerAppend(a: string, b: string)
    ensures Lower(a + b) == Lower(a) + Lower(b)
  {
    if a != [] {
      assert (a + b)[0] == a[0];
      assert (a + b)[1..] == a[1..] + b;
      LowerAppend(a[1..], b);
      calc {
        Lower(a + b);
        LowerChar(a[0]) + Lower(a[1..] + b);
        LowerChar(a[0]) + (Lower(a[1..]) + Lower(b));
        (LowerChar(a[0]) + Lower(a[1..])) + Lower(b);
      }
    } else {
      assert a + b == b;
    }
  }

  /** The number of leading code points satisfying `IsWhitespace`. */
  function LeadingSpace(s: string): (n: nat)
    ensures n <= |s|
    ensures forall i :: 0 <= i < n ==> IsWhitespace(s[i])
    ensures n < |s| ==> !IsWhitespace(s[n])
  {
    if s == [] || !IsWhitespace(s[0]) then 0 else 1 + LeadingSpace(s[1..])
  }

  /** The number of trailing code points satisfying `IsWhitespace`. */
  function TrailingSpace(s: string): (n: nat)
    ensures n <= |s|
    ensures forall i :: |s| - n <= i < |s| ==> IsWhitespace(s[i])
    ensures n < |s| ==> !IsWhitespace(s[|s| - n - 1])
  {
    if s == [] || !IsWhitespace(s[|s| - 1]) then 0 else 1 + TrailingSpace(s[..|s| - 1])
  }

  /** `trimStart()`. */
  function TrimStart(s: string): (r: string)
    ensures r == s[LeadingSpace(s)..]
    ensures r == [] || !IsWhitespace(r[0])
  {
    s[LeadingSpace(s)..]
  }

  /** Cutting off a prefix that ends before the last non-whitespace code
      point leaves the trailing whitespace as it was. */
  lemma {:induction false} TrailingOfSuffix(s: string, k: nat)
    requires k < |s| && !IsWhitespace(s[k])
    ensures TrailingSpace(s[k..]) == TrailingSpace(s) && TrailingSpace(s) <= |s| - k - 1
    decreases |s|
  {
    if IsWhitespace(s[|s| - 1]) {
      var t := s[..|s| - 1];
      assert t[k] == s[k];
      TrailingOfSuffix(t, k);
      assert s[k..][..|s[k..]| - 1] == t[k..];
    }
  }

  /** `trim()`: `s` without its leading and trailing whitespace, which is
      empty when `s` is all whitespace. */
  function Trim(s: string): (r: string)
    ensures LeadingSpace(s) == |s| ==> r == []
    ensures LeadingSpace(s) < |s| ==>
      LeadingSpace(s) + TrailingSpace(s) < |s| && r == s[LeadingSpace(s)..|s| - TrailingSpace(s)]
    ensures r == [] || (!IsWhitespace(r[0]) && !IsWhitespace(r[|r| - 1]))
    ensures NoWhitespace(s) ==> r == s
  {
    var t := TrimStart(s);
    if LeadingSpace(s) < |s| then TrailingOfSuffix(s, LeadingSpace(s)); t[..|t| - TrailingSpace(t)]
    else t[..|t| - TrailingSpace(t)]
  }

  predicate StartsWith(s: string, prefix: string) {
    |prefix| <= |s| && s[..|prefix|] == prefix
  }

  predicate EndsWith(s: string, suffix: string) {
    |suffix| <= |s| && s[|s| - |suffix|..] == suffix
  }

  /** `sub` occurs in `s` starting at index `i`. */
  predicate OccursAt(s: string, sub: string, i: int) {
    0 <= i <= |s| - |sub| && s[i..i + |sub|] == sub
  }

  /** `s.includes(sub)`. */
  predicate Contains(s: string, sub: string) {
    exists i | 0 <= i <= |s| - |sub| :: OccursAt(s, sub, i)
  }

  lemma ContainsSelf(s: string)
    ensures Contains(s, s)
  {
    assert OccursAt(s, s, 0);
  }

  /** Index of the first occurrence of `c`, or `|s|` when there is none. */
  function IndexOf(s: string, c: char): (k: nat)
    ensures k <= |s|
    ensures k < |s| ==> s[k] == c
    ensures forall i :: 0 <= i < k ==> s[i] != c
  {
    if s == [] then 0 else if s[0] == c then 0 else 1 + IndexOf(s[1..], c)
  }

  /** `s.split(c)` for a one-code-point separator. */
  function Split(s: string, c: char): (parts: seq<string>)
    ensures |parts| >= 1
    ensures forall i | 0 <= i < |parts| :: c !in parts[i]
    ensures parts[0] == s[..IndexOf(s, c)]
    decreases |s|
  {
    var k := IndexOf(s, c);
    if k == |s| then [s] else [s[..k]] + Split(s[k + 1..], c)
  }

  /** `parts.join(sep)`. */
  function Join(parts: seq<string>, sep: string): string {
    if parts == [] then ""
    else if |parts| == 1 then parts[0]
    else parts[0] + sep + Join(parts[1..], sep)
  }

  /** Splitting then joining with the same separator gives back the string. */
  lemma {:induction false} JoinSplit(s: string, c: char)
    ensures Join(Split(s, c), [c]) == s
    decreases |s|
  {
    var k := IndexOf(s, c);
    if k < |s| {
      var rest := s[k + 1..];
      var tail := Split(rest, c);
      calc {
        Join(Split(s, c), [c]);
        == { SplitAt(s, c); }
        Join([s[..k]] + tail, [c]);
        == { assert |[s[..k]] + tail| >= 2 && ([s[..k]] + tail)[0] == s[..k] && ([s[..k]] + tail)[1..] == tail; }
        s[..k] + [c] + Join(tail, [c]);
        == { JoinSplit(rest, c); }
        s[..k] + [c] + rest;
      }
      assert s == s[..k] + [c] + rest;
    }
  }

  /** Joining lines that do not contain the separator, then splitting on
      it, gives back the lines. */
  lemma {:induction false} SplitJoin(parts: seq<string>, c: char)
    requires |parts| >= 1
    requires forall i :: 0 <= i < |parts| ==> c !in parts[i]
    ensures Split(Join(parts, [c]), c) == parts
    decreases |parts|
  {
    SplitWithout(parts[0], c);
    if |parts| > 1 {
      var rest := Join(parts[1..], [c]);
      assert Join(parts, [c]) == parts[0] + [c] + rest;
      SplitAppend(parts[0], rest, c);
      SplitJoin(parts[1..], c);
      assert parts == [parts[0]] + parts[1..];
    }
  }

  /** The first `c` in `a + r` is the first in `a`, or, when `a` has
      none, the first in `r` shifted past `a`. */
  lemma IndexOfAppend(a: string, r: string, c: char)
    ensures IndexOf(a, c) < |a| ==> IndexOf(a + r, c) == IndexOf(a, c)
    ensures IndexOf(a, c) == |a| ==> IndexOf(a + r, c) == |a| + IndexOf(r, c)
  {
    var s := a + r;
    var k := IndexOf(s, c);
    var ka := IndexOf(a, c);
    if ka < |a| {
      assert s[ka] == c;
    } else {
      var kr := IndexOf(r, c);
      if kr < |r| {
        assert s[|a| + kr] == c;
      }
    }
  }

  /** Text without the separator splits into itself alone. */
  lemma SplitWithout(t: string, c: char)
    requires c !in t
    ensures Split(t, c) == [t]
  {
    assert IndexOf(t, c) == |t|;
  }

  /** Splitting text joined at a separator splits each side. */
  lemma {:induction false} SplitAppend(a: string, b: string, c: char)
    ensures Split(a + [c] + b, c) == Split(a, c) + Split(b, c)
    decreases |a|
  {
    var s := a + [c] + b;
    var k := IndexOf(a, c);
    IndexOfAppend(a, [c] + b, c);
    assert s == a + ([c] + b);
    if k < |a| {
      var a' := a[k + 1..];
      assert IndexOf(s, c) == k;
      assert s[..k] == a[..k];
      assert s[k + 1..] == a' + [c] + b;
      calc {
        Split(s, c);
        == { SplitAt(s, c); }
        [a[..k]] + Split(a' + [c] + b, c);
        == { SplitAppend(a', b, c); }
        [a[..k]] + (Split(a', c) + Split(b, c));
        ==
        ([a[..k]] + Split(a', c)) + Split(b, c);
        == { SplitAt(a, c); }
        Split(a, c) + Split(b, c);
      }
    } else {
      assert IndexOf([c] + b, c) == 0;
      assert IndexOf(s, c) == |a|;
      assert s[..|a|] == a;
      assert s[|a| + 1..] == b;
      SplitAt(s, c);
    }
  }

  /** Text with a separator splits into what precedes its first occurrence
      and the pieces of what follows it. */
  lemma SplitAt(s: string, c: char)
    requires IndexOf(s, c) < |s|
    ensures Split(s, c) == [s[..IndexOf(s, c)]] + Split(s[IndexOf(s, c) + 1..], c)
  {
  }

}
